=== FILE: README.md ===
# rovo-blog server core, modelled in Dafny

This project models the server side of the rovo-blog platform, plus the client's route guard.
The server is an Express API over MongoDB (through Mongoose) where authors publish posts, file
them under categories and tags, and manage accounts. The model covers:

- the Mongoose documents: `Post`, `Category`, `Tag`, `User`, `Comment`. This includes their
  setters (`trim`, `lowercase`), validators, defaults, `pre('save')` hooks and
  `toJSON` transform.
- `PostRepository`, including the label post counts it maintains on every write, and
  `UserRepository`.
- `AuthService`: register, login, email verification, forgotten and reset passwords, password
  change, token refresh.
- `PostController` and `AuthController`: the status codes, messages and ownership checks of the
  routes.
- the Joi request schemas of `validation.ts` and the `validate` middleware.
- the `authenticate`, `authorize` and `optionalAuth` middleware.
- the client's `ProtectedRoute`.

The database is a value. Posts live in a `map<PostId, Post>` with a counter for fresh ids.
Categories and tags live in sequences indexed by id, because the core never deletes one. Users
live in a `map<UserId, User>`. Every operation is a pure function from a store to an outcome
(the new store, plus a result or an error).

The clock, random tokens, bcrypt, JWT signing and verification, MongoDB's text search, date
parsing and the order `find().sort()` returns documents in are all parameters. So are Joi's
e-mail and URI checks.

The central invariant is `PostRepository.Valid`. It says every post is valid against its
schema, slugs are unique, every reference names an existing label, and every label's
`postCount` equals the number of posts referencing it. Every repository write preserves it.

Modules, one per source component:

| file | module | models |
|---|---|---|
| wrappers.dfy | Wrappers, Errors | `Result`/`Option`, `AppError`, Mongoose validation, cast and duplicate-key errors |
| collections.dfy | Collections | id sequences without repeats, `findOne` over a collection in insertion order |
| text.dfy | Text | `trim`, `toLowerCase` (ASCII), character classes |
| slug.dfy | Slug | `generateSlug` of posts, categories and tags; base-36 timestamps |
| numbers.dfy | JsNumber | ECMAScript `parseInt`, `x \|\| d`, `Math.ceil` of a quotient |
| pagination.dfy | Pagination | skip/limit windows, page counts, the pagination metadata |
| labels.dfy | Labels | the `Category` and `Tag` documents |
| registry.dfy | LabelRegistry | the find-or-create of `handleCategories`/`handleTags`, count adjustment |
| post_model.dfy | PostModel | the `Post` document, read time, excerpt, pre-save hook, update validators |
| post_repo.dfy | PostRepository | `PostRepository` writes and lookups |
| post_query.dfy | PostQuery | `PostRepository.findAll`: query object, sort, page |
| user_model.dfy | UserModel | the `User` document, pre-save hook, reset token, `toJSON` |
| user_repo.dfy | UserRepository | `UserRepository` |
| auth_service.dfy | AuthService | `AuthService` |
| auth_middleware.dfy | AuthMiddleware | `authenticate`, `authorize`, `optionalAuth` |
| post_controller.dfy | PostController | `PostController` |
| auth_controller.dfy | AuthController | `AuthController` |
| validation.dfy | JoiValidation | the Joi schemas and `validate` |
| comment.dfy | CommentModel | the `Comment` document |
| protected_route.dfy | ProtectedRoute | the client's `ProtectedRoute` |

Behaviour of the code worth knowing:

- A post's `publishedAt` is set only by the `pre('save')` hook. `PostRepository.update` goes
  through `findByIdAndUpdate`, which runs no save hook, so publishing a draft through an update
  never sets `publishedAt`. `PostModel.ApplyUpdate` keeps it unchanged.
- The `validate` middleware joins the messages of all error details. Joi's default
  `abortEarly` stops at the first failing key, though, so the message is always that one
  key's. `JoiValidation.Validate` reports the first failing check.
- The "my posts" route passes no status, and `findAll` defaults it to `published`. So an
  author's own drafts and archived posts never appear there (`PostController.GetMyPosts`).
- Slug lookups go through the schema's `lowercase` and `trim` setters, which Mongoose also
  applies to query values. `getBySlug` therefore finds `ToLower(Trim(slug))`
  (`PostQuery.SlugQuery`).

## Model

| member | source | states |
|---|---|---|
| Text.Trim | server/src/models/User.ts:30 | the trimmed string is the part of its input that lies between a run of leading and a run of trailing whitespace, so nothing in the middle is lost, and it neither starts nor ends with whitespace |
| Text.TrimIdempotent | server/src/models/Post.ts:13-18 | applying the `trim` setter to an already trimmed value changes nothing |
| Text.LowerTrimFixed | server/src/models/User.ts:35-42 | a stored email, lowercased and trimmed, is a fixed point of both setters |
| Text.ToLower | server/src/models/User.ts:39 | ASCII lowercasing maps each character on its own, turning `A`-`Z` into `a`-`z` and leaving the rest |
| Slug.SlugifyIsSlug | server/src/models/Category.ts:52-59 | a generated label slug holds only lowercase letters, digits, `_` and `-`, never two hyphens in a row |
| Slug.SlugifyIdempotent | server/src/models/Category.ts:52-59 | regenerating the slug from a slug gives the same slug |
| Slug.SlugifyFixesSlugs | server/src/models/Tag.ts:43-50 | a name that is already a slug is its own slug |
| Slug.SlugifyEmptyIff | server/src/models/Category.ts:52-59 | the slug is empty exactly when the name has no letter, digit, space, `_` or `-` |
| Slug.DistinctNamesShareSlug | server/src/models/Tag.ts:43-50 | every name and the same name followed by `!` are different names with the same slug, so the unique slug index can refuse a name nobody has used |
| Slug.Base36RoundTrip | server/src/models/Post.ts:139 | `Date.now().toString(36)` reads back as the number it was made from |
| Slug.PostSlugTimestamp | server/src/models/Post.ts:130-141 | the last hyphen-separated segment of a post slug is the base-36 save time |
| Slug.PostSlugsDistinct | server/src/models/Post.ts:130-141 | posts saved at different milliseconds get different slugs, whatever their titles |
| JsNumber.ParseIntOr | server/src/controllers/PostController.ts:40-41 | `parseInt(x) \|\| d` is never 0 when `d` is not, and is `d` for a missing parameter |
| JsNumber.ParseIntDecimal | server/src/controllers/PostController.ts:40-41 | `parseInt` reads back every integer written in decimal |
| JsNumber.ParseIntOrDecimal | server/src/controllers/PostController.ts:202-203 | a decimal page or limit is taken as written, except that 0 falls back to the default |
| JsNumber.ParseIntOrNoDigits | server/src/controllers/PostController.ts:202-203 | a parameter with no decimal digit in it, such as `abc` or `f`, falls back to the default |
| JsNumber.CeilDiv | server/src/repositories/PostRepository.ts:154 | `Math.ceil(a / b)` is the least multiple count covering `a`, for either sign of `b` |
| JsNumber.DigitsRoundTrip | server/src/controllers/PostController.ts:40-41 | the decimal digits of a number denote that number |
| Pagination.Pages | server/src/repositories/PostRepository.ts:154 | with a positive limit the page count is zero exactly when nothing matched |
| Pagination.Meta | server/src/controllers/PostController.ts:50-57 | with a positive limit and the page count of the total, `hasNext` holds iff some item lies beyond this page and `hasPrev` iff some item lies before it |
| Pagination.Window | server/src/repositories/PostRepository.ts:106-107 | a negative skip is refused; otherwise the page is the entries from the skip on, exactly `min(\|limit\|, items - skip)` of them, and none when the skip is past the end |
| Pagination.HasNextIffMoreItems | server/src/controllers/PostController.ts:50-57 | `hasNext` holds exactly when some match lies beyond the current page |
| Pagination.PageOfItem | server/src/repositories/PostRepository.ts:106 | every match appears on some page between 1 and the page count |
| Pagination.PageOfItemUnique | server/src/repositories/PostRepository.ts:106 | and on only one page |
| Pagination.WindowHolds | server/src/repositories/PostRepository.ts:106-107 | the page whose skip reaches up to an item lists it |
| Pagination.WindowsDisjoint | server/src/repositories/PostRepository.ts:106-107 | over items without repeats, no item is listed on two pages |
| Pagination.OrderedListingUnique | server/src/repositories/PostRepository.ts:140-149 | two repeat-free listings of the same items, both sorted by an order with no ties, are the same listing |
| Labels.NewLabel | server/src/models/Category.ts:9-34 | a label is created iff its trimmed name is non-empty and within the length limit; it gets the slug of its name, count 0 and, for a category, the default colour |
| Labels.PreSaveLabel | server/src/models/Tag.ts:35-40 | after the hook a new or renamed label's slug is a well-formed slug of its current name; a label whose slug already follows its name is saved unchanged |
| Labels.PreSaveLabelIdempotent | server/src/models/Tag.ts:35-40 | saving a second time changes nothing the first save produced |
| Labels.DefaultColorIsHex | server/src/models/Category.ts:26-30 | the default colour is a valid hex colour |
| LabelRegistry.FindBy | server/src/repositories/PostRepository.ts:117-124 | `findOne({ slug })`, and likewise `findOne({ name })` at lines 182 and 197, finds the first label whose slug or name has the value, and misses only when none has it |
| LabelRegistry.ResolveOne | server/src/repositories/PostRepository.ts:181-187 | an existing name reuses its id and changes nothing; a new one appends a label with count 0 |
| LabelRegistry.ResolveOneFails | server/src/repositories/PostRepository.ts:181-187 | resolving fails iff the name is new and is invalid or its slug is already taken |
| LabelRegistry.Create | server/src/repositories/PostRepository.ts:184-185 | saving a new label appends it under the next id, or fails leaving the collection unchanged |
| LabelRegistry.Resolve | server/src/repositories/PostRepository.ts:178-191 | the collection only grows, with zero counts, and the i-th id names the i-th trimmed name |
| LabelRegistry.ResolveReusesExisting | server/src/repositories/PostRepository.ts:193-206 | a name already present resolves to its existing id, never to a duplicate |
| LabelRegistry.AdjustTotal | server/src/repositories/PostRepository.ts:208-220 | `AdjustCounts` moves the sum of all counts by the delta once per distinct listed label, however often `$in` repeats it |
| LabelRegistry.ListedCountsDistinct | server/src/repositories/PostRepository.ts:208-220 | the number of listed labels counts each id once |
| PostModel.ReadTimeBounds | server/src/models/Post.ts:144-148 | read time is at least one minute and is the word count divided by 200, rounded up |
| PostModel.StripTags | server/src/models/Post.ts:122 | stripping tags leaves no `<...>` tag and keeps only characters of the input |
| PostModel.StripTagsIdempotent | server/src/models/Post.ts:122 | text without tags is left as it is |
| PostModel.ExcerptShape | server/src/models/Post.ts:120-124 | the excerpt is the plain text, or its first 150 characters plus `...`, within the 500 limit |
| PostModel.PreSave | server/src/models/Post.ts:107-127 | the hook changes only slug, read time, `publishedAt` and excerpt, each under its own condition |
| PostModel.SavesKeepSetOnceFields | server/src/models/Post.ts:107-127 | across any number of saves, `publishedAt` and an explicit excerpt never change, and neither does the slug unless the title does |
| PostModel.DocumentErrors | server/src/models/Post.ts:13-85 | a post validates iff its title, content, excerpt and SEO fields meet their required and length rules |
| PostModel.SaveNewPost | server/src/repositories/PostRepository.ts:12-19 | a new post gets the author, the trimmed title, a slug, read time, zero counters, its status and `publishedAt` only when published |
| PostModel.UpdateErrors | server/src/repositories/PostRepository.ts:67-70 | the update validators refuse exactly the given fields that break their rules |
| PostModel.ApplyUpdate | server/src/repositories/PostRepository.ts:67-70 | an update sets only the given fields; slug, read time, `publishedAt`, author and counters stay |
| PostModel.UpdateKeepsDocumentValid | server/src/repositories/PostRepository.ts:67-70 | a valid post updated with a validated update is still valid |
| PostRepository.EmptyValid | server/src/repositories/PostRepository.ts:208-220 | the empty database satisfies the count invariant |
| PostRepository.FindById | server/src/repositories/PostRepository.ts:28-33 | the lookup finds the post iff its id is stored |
| PostRepository.FindPostBySlug | server/src/repositories/PostRepository.ts:35-40 | a found post has that slug |
| PostRepository.FindPostBySlugExact | server/src/models/Post.ts:19-24 | slugs are unique, so the lookup finds the one post with that slug and misses only when there is none |
| PostRepository.Create | server/src/repositories/PostRepository.ts:7-26 | creation succeeds iff every label name resolves, the new document validates and its slug is free; the stored post is then exactly the one `SaveNewPost` builds from the request with the resolved labels, under a fresh id, and the invariant holds |
| PostRepository.CreateThenFind | server/src/repositories/PostRepository.ts:7-40 | a created post is found by its id and by its slug, which is the slug of its trimmed title at the save time |
| PostRepository.Update | server/src/repositories/PostRepository.ts:42-73 | the corrected update of a stored post succeeds iff the given label names resolve and the update validators pass; the stored post is then exactly `ApplyUpdate` of the old one; it keeps the invariant, rewrites only that post, keeps slug and author, and re-resolves only the lists given |
| PostRepository.EmptyUpdateStampsOnly | server/src/repositories/PostRepository.ts:42-73 | an update with no fields succeeds and only stamps `updatedAt` |
| PostRepository.UpdateAsWritten | server/src/repositories/PostRepository.ts:42-73 | the update as written: a missing post gives null; an invalid update fails with the posts unchanged |
| PostRepository.UpdateAsWrittenBreaksCounts | server/src/repositories/PostRepository.ts:47-65 | when the update as written fails after moving category counts, the stored counts no longer match the posts |
| PostRepository.UpdateAgreesWhenAsWrittenSucceeds | server/src/repositories/PostRepository.ts:42-73 | whenever the update as written succeeds, the corrected one has the same outcome |
| PostRepository.Delete | server/src/repositories/PostRepository.ts:75-85 | deletion removes exactly that post, reports whether it existed and keeps the invariant |
| PostRepository.DeleteUndoesInsert | server/src/repositories/PostRepository.ts:75-85 | deleting an inserted post restores the posts and every pre-existing label's count |
| PostRepository.DeleteUndoesCreate | server/src/repositories/PostRepository.ts:7-26 | `delete` after `create` restores the posts and all earlier counts |
| PostRepository.Bump | server/src/repositories/PostRepository.ts:158-176 | `$inc` moves one counter of that post by the delta and touches nothing else |
| PostRepository.BumpMovesOneCounter | server/src/repositories/PostRepository.ts:158-176 | the counters not named keep their values |
| PostRepository.LikeThenUnlike | server/src/repositories/PostRepository.ts:162-168 | a like followed by an unlike leaves the like count unchanged |
| PostRepository.Run | server/src/repositories/PostRepository.ts:7-176 | any sequence of repository writes, failing or not, keeps every label count exact (with `update` corrected as in the `PostRepository.ts` row of Findings) |
| PostQuery.ResolveSlug | server/src/repositories/PostRepository.ts:116-128 | a truthy slug resolves to a label with the set-up slug; an unknown one resolves to nothing |
| PostQuery.MatchesFilters | server/src/repositories/PostRepository.ts:92-138 | a post matches the query object iff it has the asked status (published by default), matches a non-empty text query, references a label with the asked category and tag slug whenever such a label exists, has the asked author, and was created within the inclusive date range |
| PostQuery.LabelledIffResolved | server/src/repositories/PostRepository.ts:116-128 | with unique slugs, referencing a label with the slug is referencing the one `findOne` returns |
| PostQuery.UnknownSlugIsNoFilter | server/src/repositories/PostRepository.ts:116-128 | an unknown category or tag slug filters nothing out |
| PostQuery.DefaultStatusIsPublished | server/src/repositories/PostRepository.ts:92-104 | without a status filter only published posts match |
| PostQuery.FindAll | server/src/repositories/PostRepository.ts:87-156 | the page is exactly the window at `skip` of all matches in sort order; total counts all matches |
| PostQuery.EveryMatchListed | server/src/repositories/PostRepository.ts:106-149 | with a positive limit every matching post is listed on some page between 1 and `pages` |
| PostQuery.ListedOnOnePage | server/src/repositories/PostRepository.ts:106-149 | no post is listed on two different pages |
| PostQuery.FindAllIgnoresTieOrder | server/src/repositories/PostRepository.ts:87-156 | when no two matching posts tie on the sort key, any two sort orders the database may return give the same page |
| PostQuery.SelectIgnoresTieOrder | server/src/repositories/PostRepository.ts:140-149 | without ties on the key, the sorted selection of matches does not depend on the enumeration order |
| PostQuery.ListedOnOnePageAcrossQueries | server/src/repositories/PostRepository.ts:106-149 | without ties, no post is listed on two pages even when each page is a separate query with its own tie order |
| PostQuery.EveryMatchListedAcrossQueries | server/src/repositories/PostRepository.ts:106-149 | without ties, every matching post is listed on some page between 1 and `pages` whatever order that page's query returns |
| PostQuery.MatchIndex | server/src/repositories/PostRepository.ts:140-149 | a matching post has a place in the sorted selection, whose length is the match count |
| PostQuery.SelectFacts | server/src/repositories/PostRepository.ts:140-149 | filtering a sorted enumeration gives each match exactly once, still sorted |
| PostQuery.WindowKeeps | server/src/repositories/PostRepository.ts:106-107 | a page of a distinct sorted list is distinct, sorted and drawn from it |
| UserModel.UsernameError | server/src/models/User.ts:26-34 | a username passes iff it has 3 to 30 letters, digits or underscores |
| UserModel.EmailError | server/src/models/User.ts:35-42 | an email passes iff it matches `^\S+@\S+\.\S+$` |
| UserModel.MatchEmail | server/src/models/User.ts:41 | the scan accepts exactly the strings the email pattern describes |
| UserModel.PasswordError | server/src/models/User.ts:43-48 | a password passes iff it has at least 6 characters |
| UserModel.PersonNameError | server/src/models/User.ts:49-60 | a name passes iff it has 1 to 50 characters |
| UserModel.UserErrors | server/src/models/User.ts:25-60 | a new user has no error iff every trimmed or lowercased field meets its rule |
| UserModel.NewUser | server/src/repositories/UserRepository.ts:5-8 | a user is built iff validation passes, from the normalised fields and the hashed password |
| UserModel.NewUserDefaults | server/src/models/User.ts:61-98 | a new user has role `user`, is unverified, has the default preferences and no tokens |
| UserModel.DefaultsValid | server/src/models/User.ts:25-102 | a user built from a validated request is itself valid |
| UserModel.StoredKeysNormal | server/src/models/User.ts:26-42 | a stored username is trimmed and a stored email is trimmed and lowercased |
| UserModel.PreSaveUser | server/src/models/User.ts:123-133 | the hook replaces the password by its hash only when it was modified |
| UserModel.GenerateResetToken | server/src/models/User.ts:141-146 | the token returned is the one stored, expiring ten minutes later; nothing else changes |
| UserModel.ToJson | server/src/models/User.ts:105-114 | serialisation drops exactly the password and the four token fields |
| UserModel.ToJsonHidesSecrets | server/src/models/User.ts:105-114 | no password or token reaches a response, while username, email and preferences do |
| UserRepository.FindById | server/src/repositories/UserRepository.ts:10-12 | the lookup finds the user iff the id is stored |
| UserRepository.FindByEmail | server/src/repositories/UserRepository.ts:14-16 | the lookup matches the lowercased, trimmed email and misses only when nobody has it |
| UserRepository.FindByUsername | server/src/repositories/UserRepository.ts:18-20 | the lookup matches the trimmed username and misses only when nobody has it |
| UserRepository.FindByEmailExact | server/src/repositories/UserRepository.ts:14-16 | emails are unique, so the lookup finds the one user with that email |
| UserRepository.FindByResetToken | server/src/repositories/UserRepository.ts:52-57 | a user is found only by an unexpired matching token, and found whenever one holds it |
| UserRepository.FindAnyResetToken | server/src/repositories/UserRepository.ts:52-57 | the same query with `{"$ne": null}` as the token finds a user holding any live reset token, and misses only when nobody does |
| UserRepository.FindByEmailVerificationToken | server/src/repositories/UserRepository.ts:59-64 | the same for verification tokens |
| UserRepository.TokenExpiresAtDeadline | server/src/repositories/UserRepository.ts:55 | a token is no longer accepted at the exact moment it expires (`$gt`) |
| UserRepository.AddUser | server/src/models/User.ts:29-38 | the unique indexes refuse a taken username or email; otherwise the user goes in under the next id |
| UserRepository.Create | server/src/repositories/UserRepository.ts:5-8 | creation succeeds iff validation passes and the normalised username and email are free |
| UserRepository.LookupsMissIffFree | server/src/repositories/UserRepository.ts:14-20 | the lookups `register` makes miss exactly when the unique indexes would accept the user |
| UserRepository.UpdatePassword | server/src/repositories/UserRepository.ts:66-75 | a password change always stores the hash (the path is unselected, so it is always modified), clears the reset token and touches only that user; a missing user gives null |
| UserRepository.ResetTokenSingleUse | server/src/repositories/UserRepository.ts:66-75 | after a reset the same token no longer finds that user |
| UserRepository.ResetTokenGone | server/src/repositories/UserRepository.ts:66-75 | with a single holder, after a reset the token finds nobody |
| UserRepository.VerifyEmail | server/src/repositories/UserRepository.ts:77-87 | verification marks the user verified and clears the token; a missing user gives null |
| UserRepository.VerificationTokenSingleUse | server/src/repositories/UserRepository.ts:77-87 | a used verification token no longer finds the user |
| UserRepository.Save | server/src/services/AuthService.ts:36 | saving a user with unchanged keys keeps the store valid and rewrites only that user |
| UserRepository.SetVerificationToken | server/src/services/AuthService.ts:33-36 | the token and expiry are stored on that user, nothing else changes |
| UserRepository.FindAll | server/src/repositories/UserRepository.ts:34-50 | the page is exactly the window at `skip` of all users newest first, with total and page count |
| UserRepository.EveryUserListed | server/src/repositories/UserRepository.ts:34-50 | with a positive limit every user is listed on some page between 1 and `pages` |
| UserRepository.UserOnOnePage | server/src/repositories/UserRepository.ts:34-50 | no user is listed on two different pages |
| UserRepository.UserListingIgnoresTieOrder | server/src/repositories/UserRepository.ts:34-50 | when no two users share a creation time, any two newest-first orders give the same page |
| UserRepository.UserOnOnePageAcrossQueries | server/src/repositories/UserRepository.ts:34-50 | without ties, no user is listed on two pages even when each page is a separate query |
| UserRepository.EveryUserListedAcrossQueries | server/src/repositories/UserRepository.ts:34-50 | without ties, every user is listed on some page between 1 and `pages` whatever order that page's query returns |
| UserRepository.OrderedCountsUsers | server/src/repositories/UserRepository.ts:41-47 | an enumeration of the users, newest first, lists each user once |
| AuthService.Register | server/src/services/AuthService.ts:17-58 | registering fails on a taken email first, then a taken username, with nothing stored; it succeeds iff the request is valid, both are free and the verification mail goes out; a failed mail fails the request after the user is stored |
| AuthService.RegisterFree | server/src/services/AuthService.ts:29-36 | with both keys free, registration fails only with the validation errors |
| AuthService.RegisterAddsOneUser | server/src/services/AuthService.ts:29-57 | a registration that gets past the checks adds one user under a fresh id with a verification token valid for a day, whether or not the mail goes out; with the mail sent it returns the profile and token |
| AuthService.MailFailureBlocksRetry | server/src/services/AuthService.ts:30-39 | after a registration whose mail failed, registering the same request again is refused as a taken email |
| AuthService.RegisterInsertsThenEnrols | server/src/services/AuthService.ts:29-39 | a registration past the checks stores the insert followed by the save of the verification token, and with the mail sent it is exactly that |
| AuthService.Enrol | server/src/services/AuthService.ts:33-57 | the token save touches only the new user, and the reply holds its profile without the password |
| AuthService.Login | server/src/services/AuthService.ts:60-92 | login succeeds iff the email is known and the password matches; an unknown email and a wrong password give the same 401 |
| AuthService.RegisterThenLogin | server/src/services/AuthService.ts:17-92 | whoever gets past the register checks can then log in with the same credentials, as the same user, even when the verification mail failed |
| AuthService.VerifyEmail | server/src/services/AuthService.ts:94-102 | verification fails iff no live token matches, and the token cannot be used again |
| AuthService.ForgotPassword | server/src/services/AuthService.ts:104-118 | an unknown email gives 404 with nothing stored; otherwise only that user gets the new token with a ten-minute expiry and the password stays; it succeeds iff the mail goes out, and a failed mail fails the request with the token stored |
| AuthService.ResetPassword | server/src/services/AuthService.ts:120-128 | an unknown or expired token gives 400; otherwise the holder's password is updated |
| AuthService.ForgotThenReset | server/src/services/AuthService.ts:104-128 | for a known email the token stored finds its user until it expires and is refused from then on, whether or not the mail went out |
| AuthService.ForgotLeavesOneHolder | server/src/services/AuthService.ts:110-112 | for a known email, a fresh reset token is held by the one user it was made for |
| AuthService.ChangePassword | server/src/services/AuthService.ts:130-143 | an unknown user gives 404 and a wrong current password 400; otherwise the password is updated |
| AuthService.NoEmptyEmail | server/src/services/AuthService.ts:131 | the `\|\| ''` fallback finds nobody, since no stored user has an empty email |
| AuthService.RefreshToken | server/src/services/AuthService.ts:145-153 | a new token is issued iff the user still exists |
| AuthMiddleware.ReplaceFirst | server/src/middleware/auth.ts:12 | `replace` with a string pattern rewrites only the first occurrence |
| AuthMiddleware.ExtractToken | server/src/middleware/auth.ts:12 | a token exists iff a header does, and is never longer than it |
| AuthMiddleware.BearerRoundTrip | server/src/middleware/auth.ts:12 | a `Bearer <token>` header gives back exactly the token |
| AuthMiddleware.BareHeaderIsToken | server/src/middleware/auth.ts:12 | a header without `Bearer ` is taken whole as the token |
| AuthMiddleware.PrefixRemovedInsideHeader | server/src/middleware/auth.ts:12 | for every header `a + "Bearer " + b` where the prefix does not occur earlier, the token is `a + b`: the prefix is removed wherever it first occurs, not only at the start |
| AuthMiddleware.Authenticate | server/src/middleware/auth.ts:10-30 | no token gives "No token provided"; a bad token or a vanished user gives "Token is not valid"; otherwise the user's id and role |
| AuthMiddleware.Authorize | server/src/middleware/auth.ts:32-44 | no user gives 401, an unlisted role 403; the request passes iff the role is listed |
| AuthMiddleware.OptionalAuth | server/src/middleware/auth.ts:46-61 | without a token the request continues anonymously |
| AuthMiddleware.OptionalAuthAgrees | server/src/middleware/auth.ts:46-61 | `optionalAuth` attaches a user exactly when `authenticate` would pass, and the same user |
| AuthMiddleware.AuthenticatedListedRolePasses | server/src/middleware/auth.ts:32-44 | an authenticated user with a listed role passes `authorize` |
| PostController.CanModifyAsWritten | server/src/controllers/PostController.ts:117 | the ownership test as written lets exactly the admins through |
| PostController.AuthorRefusedAsWritten | server/src/controllers/PostController.ts:143 | the test as written refuses a post's own author |
| PostController.CanModifyExtendsAsWritten | server/src/controllers/PostController.ts:117-119 | the corrected test allows all the written one does, and differs only for the non-admin author |
| PostController.ListFilters | server/src/controllers/PostController.ts:30-42 | fails with a `CastError` on `createdAt` exactly when a truthy date parameter is an Invalid Date; otherwise the parameters pass through, dates are present iff truthy and are the parsed dates, sort and order default to `createdAt` descending, and page and limit default to 1 and 10 and are never 0 |
| PostController.MyFilters | server/src/controllers/PostController.ts:200-205 | "my posts" filters on the requester as author and nothing else |
| PostController.List | server/src/controllers/PostController.ts:44-61 | the reply lists exactly the window of the matches in sort order; its pagination carries the total and page count, and `hasNext` says whether matches lie beyond the page |
| PostController.GetAll | server/src/controllers/PostController.ts:28-63 | fails iff a truthy date parameter is an Invalid Date (a `CastError`, whatever the page) or the skip is negative; otherwise lists exactly the window of the matches, each existing, published unless a status is asked for, by the requested author and created within the inclusive date range |
| PostController.GetMyPosts | server/src/controllers/PostController.ts:198-227 | fails only on a negative skip; lists exactly the window of the requester's published posts |
| PostController.MyPostsIsAuthorListing | server/src/controllers/PostController.ts:198-227 | "my posts" is the general listing with the requester as author filter |
| PostController.GetById | server/src/controllers/PostController.ts:65-84 | a missing post gives 404; otherwise the post as read, with its view count then raised by one |
| PostController.GetBySlug | server/src/controllers/PostController.ts:86-105 | 404 iff no post has the normalised slug; otherwise that post |
| PostController.GetBySlugIsGetById | server/src/controllers/PostController.ts:86-105 | reading by slug is reading by the id that slug names |
| PostController.CreatePost | server/src/controllers/PostController.ts:14-26 | creation succeeds iff the labels resolve, the document validates and its slug is free; the reply (201) carries exactly the post `SaveNewPost` builds with the requester as author, stored under a fresh id |
| PostController.UpdatePost | server/src/controllers/PostController.ts:107-131 | 404 for a missing post, 403 for anyone but its author or an admin; success iff the post exists, the requester may modify it, the labels resolve and the update validates, and the stored post is then `ApplyUpdate` of the old one; the posts change only on success (through the corrected `update` and ownership check of Findings) |
| PostController.DeletePost | server/src/controllers/PostController.ts:133-156 | a post is deleted iff it exists and the requester is its author or an admin (with the corrected ownership check of Findings) |
| PostController.OnlyOwnerOrAdminDeletes | server/src/controllers/PostController.ts:133-156 | another user's post is left untouched by both update and delete (with the corrected ownership check of Findings) |
| PostController.Like | server/src/controllers/PostController.ts:158-196 | 404 for a missing post; otherwise the like count moves by one up or down |
| PostController.LikeThenUnlikeRestores | server/src/controllers/PostController.ts:158-196 | a like then an unlike restores the count |
| PostController.LikeTwiceCountsTwice | server/src/controllers/PostController.ts:158-176 | liking is not idempotent: two likes add two |
| PostController.UnlikeBelowZero | server/src/controllers/PostController.ts:178-196 | nothing stops an unlike from taking the count below zero |
| AuthController.Respond | server/src/controllers/AuthController.ts:13-25 | a handler passes a service error through unchanged and wraps a success with its status and message |
| AuthController.RegisterRequest | server/src/controllers/AuthController.ts:13-25 | 201 with the new user's id iff the registration is valid and free and the mail goes out; an invalid or taken one changes nothing; a failed mail is passed on as an error with the user already stored |
| AuthController.LoginRequest | server/src/controllers/AuthController.ts:27-39 | a successful login answers with the matched user; any failure is the single 401 |
| AuthController.VerifyEmailRequest | server/src/controllers/AuthController.ts:41-59 | a token that is not one non-empty string is refused with 400 before the service is called |
| AuthController.ForgotPasswordRequest | server/src/controllers/AuthController.ts:61-78 | a missing email gives 400; otherwise success iff the email is known and the mail goes out; any failure other than the mail leaves the store as it was |
| AuthController.ResetPasswordRequestAsWritten | server/src/controllers/AuthController.ts:80-98 | as written: a falsy token or password gives 400; a string token goes to the service; the unvalidated object `{"$ne": null}` succeeds iff some user holds a live reset token and the password is valid |
| AuthController.NotNullTokenTakesOver | server/src/routes/auth.ts:31 | whenever any user has a pending reset, the `{"$ne": null}` token sets the sender's password on a holder of a live token |
| AuthController.ResetPasswordRequest | server/src/controllers/AuthController.ts:80-98 | corrected: only a non-empty string token with a password reaches the service, and success means that string finds a live reset token |
| AuthController.ResetRequestAgreesOnStrings | server/src/controllers/AuthController.ts:80-98 | for a string token the corrected route and the route as written give the same outcome |
| AuthController.ForgotThenResetRequest | server/src/controllers/AuthController.ts:61-98 | through the routes, the token a forgot request stores resets a valid password before it expires |
| AuthController.ExpiredResetRequest | server/src/controllers/AuthController.ts:80-98 | through the routes, an expired token is refused as an invalid one |
| AuthController.ChangePasswordRequest | server/src/controllers/AuthController.ts:100-122 | both passwords are required; success needs the current one to match |
| AuthController.RefreshTokenRequest | server/src/controllers/AuthController.ts:124-136 | a fresh token for the requester iff the account still exists |
| AuthController.RegisterThenRefresh | server/src/controllers/AuthController.ts:13-136 | the token a refresh gives right after registering is the one registration gave |
| JoiValidation.FirstError | server/src/middleware/validation.ts:7-10 | the failing check that comes before every other failing one, or none iff every check passes |
| JoiValidation.StringError | server/src/middleware/validation.ts:21-25 | a string key passes iff it meets `required`, `valid`, non-emptiness and its rules, in Joi's order |
| JoiValidation.Validate | server/src/middleware/validation.ts:5-16 | the request passes iff every check does; otherwise 400 with the message of the first failing check in schema order |
| JoiValidation.UsernameRules | server/src/middleware/validation.ts:21 | the username passes iff it is 3 to 30 alphanumeric characters |
| JoiValidation.ValidateRegister | server/src/middleware/validation.ts:20-26 | a register body passes iff every field is present and meets its rule |
| JoiValidation.ValidateLogin | server/src/middleware/validation.ts:28-31 | a login body passes iff it has a valid email and a non-empty password |
| JoiValidation.ValidatePost | server/src/middleware/validation.ts:51-83 | a post body passes iff its fields and SEO block meet the create or update schema |
| JoiValidation.ValidateCategory | server/src/middleware/validation.ts:85-91 | a category body passes iff the name is present, lengths hold and a colour is hex |
| JoiValidation.ValidateTag | server/src/middleware/validation.ts:93-97 | a tag body passes iff the name is present, non-empty and at most 30 characters |
| JoiValidation.ValidateComment | server/src/middleware/validation.ts:99-104 | a comment body passes iff it has content within 1000 characters and a non-empty post id |
| JoiValidation.JoiUsernameMeetsModel | server/src/middleware/validation.ts:21 | every username the request schema accepts also passes the `User` schema |
| JoiValidation.ModelUsernameNotJoi | server/src/models/User.ts:33 | every username of 3 to 30 word characters holding an underscore is valid for the `User` schema but refused by the request schema |
| JoiValidation.BlankTitlePassesJoiOnly | server/src/middleware/validation.ts:53 | a non-empty whitespace title within 200 characters is accepted by the request schema exactly as a real title would be, and every post with a whitespace title fails the document's `required` after trimming |
| JoiValidation.JoiCommentContentWithinModel | server/src/middleware/validation.ts:101 | accepted comment content stays within the document limit, and fails there only if it is blank |
| JoiValidation.ArchivedOnlyOnUpdate | server/src/middleware/validation.ts:59 | every create body asking for `archived` is refused; on update `archived` is accepted exactly when `published` would be |
| JoiValidation.DefaultColorPassesJoi | server/src/middleware/validation.ts:89 | sending the category's default colour is accepted exactly when leaving the colour out is |
| CommentModel.ContentError | server/src/models/Comment.ts:12-17 | content passes iff it has 1 to 1000 characters |
| CommentModel.CommentErrors | server/src/models/Comment.ts:12-27 | a comment has no error iff the trimmed content is within limits and author and post are given |
| CommentModel.NewComment | server/src/models/Comment.ts:12-44 | a comment is built iff validation passes, with trimmed content, approved, no replies and no likes |
| CommentModel.BlankContentIsMissing | server/src/models/Comment.ts:12-17 | whitespace-only content is rejected as missing |
| CommentModel.BlankTrimsToEmpty | server/src/models/Comment.ts:15 | trimming whitespace-only text leaves nothing |
| ProtectedRoute.Route | client/src/components/Auth/ProtectedRoute.tsx:14-24 | a signed-out visitor goes to login; a signed-in one lacking the role (and not admin) goes home |
| ProtectedRoute.RenderIffAllowed | client/src/components/Auth/ProtectedRoute.tsx:14-24 | the children render iff the visitor is signed in and holds the role, is an admin, or no role is asked |

## Left out

- MongoDB's `$text` search is the parameter `textMatch`. `find().sort()` is the parameter `ordered`, required to list every post once in sort order. `new Date(...)` of the date filters is the parameter `parseDate`, which gives `None` for an Invalid Date.
- The listing routes (`getAll`, `getMyPosts`) take each query parameter as one string. Express also parses repeated or bracketed parameters (`?page=1&page=2`, `?status[$ne]=draft`) into arrays or objects, which those routes would pass on to `parseInt` or into the query object; this is modelled only for the auth routes (`AuthController.QueryValue`).
- Casting an id or an author parameter to an ObjectId, and the `CastError` a malformed one raises: ids are numbers in the model.
- PostQuery.FindAll: requires a non-zero limit. The controllers never pass 0, because `parseInt(x) || d` turns 0 into the default.
- UserRepository.FindAll: requires a non-zero limit for the same reason; it has no caller in the core.
- Joi's rejection of unknown keys and of values of the wrong JSON type, on the routes that run a schema (register, login, posts): those bodies are typed records of optional strings. `isPublic` (a boolean) is not modelled there.
- The forgot-password, reset-password and change-password routes run no schema (server/src/routes/auth.ts:30-31,36), so `express.json()` hands any JSON value to the handler. Only the reset token's `{"$ne": null}` case is modelled; see Findings.
- AuthController.ResetPasswordRequestAsWritten: among non-string tokens only `{"$ne": null}` is modelled (other operators such as `$regex` or `$gt` behave alike); the password is taken to be a string.
- AuthController.ForgotPasswordRequest: a non-string email such as `{"$ne": null}` reaches `User.findOne({ email })` as a query operator and would give a reset token to the first user found; the model takes the email to be a string.
- AuthController.ChangePasswordRequest: non-string passwords are not modelled; `bcrypt` throws on them and the request ends in a 500.
- Joi's `email()` and `uri()` checks are the parameters `isEmail` and `isUri`.
- `updateProfile` (Joi schema and route), `socialLinks`, `getProfile`, `logout`, and `UserRepository.update` and `delete`: no modelled operation calls them.
- JWT signing and verification are the parameters `sign` and `verify`; bcrypt hashing and comparison are `hashed` and `compare`.
- `crypto.randomBytes` and `Math.random` tokens are parameters. The e-mail transport is left out; whether `sendMail` succeeded is the parameter `mail` (`None`, or the reason it rejected with).
- AuthService.Register: since a rejected mail now fails the request after the user is stored, the model no longer promises that a registration past the checks succeeds; `RegisterAddsOneUser` and `RegisterThenLogin` state what holds in either case.
- AuthService.ForgotPassword: likewise it no longer promises success for a known email; the token is stored whether or not the mail goes out.
- `populate` of authors and labels: posts hold ids.
- Concurrency between requests; each operation is atomic.
- `incrementCommentCount`/`decrementCommentCount` are `PostRepository.Bump` on the comment counter, since no comment route is part of this model.
- Category descriptions and colours exist only through `Labels`; no category route is part of this model.
- `updatedAt` is set by every write (the `timestamps` option), including `$inc`, as Mongoose does for update queries.
- UserRepository.VerifyEmail: writing `undefined` into the token fields of a `findByIdAndUpdate` is taken to clear them, as Mongoose 5 does by setting them to null. Mongoose 6 and later drop such keys from the update instead, which would leave the token stored, though verifying it again only sets the flag once more. The dependency version is not part of this model. `UserRepository.VerificationTokenSingleUse` rests on this reading.
- A field sent as JSON `undefined` cannot be told apart from a missing one; both are `None`.
- Redis caching, rate limiting and the other client components are not part of this model.
- Text.ToLower: lowercases ASCII letters only. JavaScript's `toLowerCase` maps all of Unicode and can change the length (`İ` becomes two code units), so the model does not promise anything about non-ASCII text; `Text.LowerTrimFixed`, `UserModel.EmailError`, `PostQuery.SlugQuery`, and `Slug.Slugify` with its lemmas (`Slug.SlugifyIsSlug`, `Slug.SlugifyIdempotent`, `Slug.SlugifyFixesSlugs`, `Slug.SlugifyEmptyIff`, `Slug.DistinctNamesShareSlug`) inherit this. For example the name `İ` has the slug `i` in JavaScript and the empty slug in the model, and the Kelvin sign `K` (U+212A) lowercases to `k` in JavaScript and is dropped in the model.
- PostModel.ExcerptShape: counts characters as Unicode code points. JavaScript's `substring` and `length` count UTF-16 code units, so for text with characters outside the Basic Multilingual Plane the 150-character cut and the 500 limit fall at different places.
- PostModel.DocumentErrors: the same for the `maxlength` bounds of title, excerpt and the SEO fields, which Mongoose measures in UTF-16 code units.
- UserModel.UsernameError: the same for `minlength` and `maxlength`.
- UserModel.PasswordError: the same for `minlength`.
- UserModel.PersonNameError: the same for `maxlength`.
- Labels.NewLabel: the same for the name's `maxlength`.
- JoiValidation.StringError: the same for Joi's `min` and `max`, which count UTF-16 code units by default.
- CommentModel.ContentError: the same for the 1000-character bound.
- JsNumber.ParseIntOr: returns an unbounded integer. JavaScript numbers are doubles, so `parseInt` of a value beyond 2^53 loses precision (`9007199254740993` reads as `9007199254740992`), and very long digit strings become `Infinity`.
- Pagination.Skip: unbounded as well. The MongoDB driver refuses a skip that does not fit in a signed 64-bit integer, an error the model does not have.
- PostQuery.SortKeyOf: a sort on `categories` or `tags` (arrays, ordered by their least or greatest element), on the `seo` subdocument, on `_id` or `__v` is `Unconstrained` and accepts any order. A path no document has is `Unconstrained` too, which matches MongoDB, where every document then ties. Equal keys may come in any order in the model, as in MongoDB.
- PostRepository.Run: is stated over the corrected `update` of Findings, not the code as written, which can leave counts wrong.
- PostController.UpdatePost: is stated over the corrected ownership check and the corrected `update` of Findings. As written, a non-admin author gets 403 on their own post.
- PostController.DeletePost: is stated over the corrected ownership check of Findings.
- PostController.OnlyOwnerOrAdminDeletes: is stated over the corrected ownership check of Findings.
- AuthController.ForgotThenResetRequest: is stated over the corrected reset route of Findings; for the string token it sends, `AuthController.ResetRequestAgreesOnStrings` shows the route as written answers the same.
- AuthController.ExpiredResetRequest: the same.
- PostQuery.EveryMatchListed: assumes one enumeration order shared by every page query. MongoDB may break ties between equal sort keys differently from one query to the next; `PostQuery.EveryMatchListedAcrossQueries` drops the assumption when no two matching posts tie.
- PostQuery.ListedOnOnePage: the same assumption; `PostQuery.ListedOnOnePageAcrossQueries` drops it for tie-free keys. With ties and separate queries a post can show up on two pages or on none, which the model does not rule out.
- UserRepository.EveryUserListed: the same assumption; `UserRepository.EveryUserListedAcrossQueries` drops it when no two users share a creation time.
- UserRepository.UserOnOnePage: the same assumption; `UserRepository.UserOnOnePageAcrossQueries` drops it for distinct creation times.
- UserModel.ToJson: dates are numbers of milliseconds rather than ISO strings. `socialLinks` never appears, because only `updateProfile`, which is not modelled, writes it.

## Findings

| source | as written | input that shows it | evidently intended | confidence | as-written member | corrected member |
|---|---|---|---|---|---|---|
| server/src/controllers/PostController.ts:117 | `post.author._id.toString() !== req.user._id` compares a string with an ObjectId using `!==`, which is always true | the post's own author, with role `user`, asks to update or delete it | the author or an admin may modify | not executed | PostController.CanModifyAsWritten, PostController.AuthorRefusedAsWritten | PostController.CanModify, PostController.CanModifyExtendsAsWritten |
| server/src/controllers/AuthController.ts:80-98 | the reset-password route runs no schema, and the handler only tests `!token`, so a JSON object token reaches `findOne({ passwordResetToken: token, ... })` as a query operator | `{"token": {"$ne": null}, "password": "secret1"}` while any user has a pending reset: that user's password becomes `secret1` | only a non-empty string equal to a live reset token resets a password | not executed | AuthController.ResetPasswordRequestAsWritten, AuthController.NotNullTokenTakesOver | AuthController.ResetPasswordRequest, AuthController.ResetRequestAgreesOnStrings |
| server/src/repositories/PostRepository.ts:47-70 | label counts are moved before the tag names are resolved and before `findByIdAndUpdate` runs the update validators, so a failure there leaves counts moved for a post that did not change | update a post that has a category with categories `[]` and title `"   "` (the request schema accepts it, the trimmed title then fails `required`) | resolve both lists and validate the update, then move the counts | not executed | PostRepository.UpdateAsWritten, PostRepository.UpdateAsWrittenBreaksCounts | PostRepository.Update, PostRepository.UpdateAgreesWhenAsWrittenSucceeds |

=== FILE: auth_controller.dfy ===
/**
 * `AuthController`: the account routes. Each handler checks the fields it needs are
 * present (400 otherwise, before the service is called), calls `AuthService`, and wraps
 * the result with its status and message. An error from the service passes through
 * unchanged.
 */
module AuthController {
  import opened Wrappers
  import opened Errors
  import opened UserModel
  import opened UserRepository
  import opened AuthService
  import AuthMiddleware

  type Principal = AuthMiddleware.Principal

  const TokenRequired := AppError(StatusBadRequest, "Verification token is required")
  const EmailRequired := AppError(StatusBadRequest, "Email is required")
  const TokenAndPasswordRequired := AppError(StatusBadRequest, "Token and password are required")
  const PasswordsRequired := AppError(StatusBadRequest, "Current password and new password are required")

  const Registered := "User registered successfully. Please check your email to verify your account."

  /** A parsed query-string value: absent, one string, a repeated key, or a nested object. */
  datatype QueryValue = Absent | Text(text: string) | Repeated(items: seq<string>) | Nested

  /**
   * A JSON body field on a route without a request schema: absent, a string, or the
   * object `{"$ne": null}`, which `express.json()` parses and nothing rejects.
   */
  datatype BodyField = Missing | Str(text: string) | NotNull

  /** `!v` for a body field: only absence and the empty string are falsy; an object is truthy. */
  predicate Falsy(v: BodyField) {
    v.Missing? || (v.Str? && v.text == "")
  }

  /** `!v`: a body field that is absent or the empty string. */
  predicate Blank(v: Option<string>) {
    v.None? || v.value == ""
  }

  /** A service outcome answered with `status` and `message`; a failure is passed on as it is. */
  function Respond<T>(o: UserOutcome<T>, status: nat, message: string): (r: UserOutcome<Reply<T>>)
    ensures r.store == o.store
    ensures r.result.Ok? <==> o.result.Ok?
    ensures r.result.Err? ==> r.result.error == o.result.error
    ensures r.result.Ok? ==>
      && r.result.value.data == o.result.value && r.result.value.status == status
      && r.result.value.message == message
  {
    match o.result
    case Err(e) => UserOutcome(o.store, Err(e))
    case Ok(v) => UserOutcome(o.store, Ok(Reply(status, message, v)))
  }

  /** `register`: 201 with the new user's profile and token. */
  function RegisterRequest(s: UserStore, dto: CreateUserDto, hashed: string, verificationToken: string, now: int,
                           sign: UserId -> string, mail: Option<string>): (r: UserOutcome<Reply<Session>>)
    requires Valid(s)
    ensures Valid(r.store)
    ensures !RegisterSaves(s, dto) ==> r.result.Err? && r.store == s
    ensures r.result.Ok? <==>
      UserErrors(dto) == [] && FindByEmail(s, dto.email).None? && FindByUsername(s, dto.username).None? && mail.None?
    ensures RegisterSaves(s, dto) && mail.Some? ==> r.result == Err(MailFailed(mail.value)) && s.nextUserId in r.store.users
    ensures r.result.Ok? ==>
      && r.result.value.status == StatusCreated && r.result.value.message == Registered
      && r.result.value.data.user.id == s.nextUserId
  {
    var o := Register(s, dto, hashed, verificationToken, now, sign, mail);
    if RegisterSaves(s, dto) then
      RegisterAddsOneUser(s, dto, hashed, verificationToken, now, sign, mail);
      Respond(o, StatusCreated, Registered)
    else Respond(o, StatusCreated, Registered)
  }

  /** `login`: 200 with the profile and a token, or the single 401 for any bad credential. */
  function LoginRequest(s: UserStore, email: string, password: string, compare: (string, string) -> bool,
                        sign: UserId -> string): (r: Result<Reply<Session>, Error>)
    ensures r.Err? ==> r.error == BadCredentials
    ensures r.Ok? <==> FindByEmail(s, email).Some? && compare(password, s.users[FindByEmail(s, email).value].password)
    ensures r.Ok? ==> r.value.message == "Login successful" && r.value.data.user.id == FindByEmail(s, email).value
  {
    match Login(s, email, password, compare, sign)
    case Err(e) => Err(e)
    case Ok(session) => Ok(Reply(StatusOk, "Login successful", session))
  }

  /** `verifyEmail`: the token must be a single non-empty query string. */
  function VerifyEmailRequest(s: UserStore, token: QueryValue, now: int): (r: UserOutcome<Reply<Option<User>>>)
    requires Valid(s)
    ensures Valid(r.store)
    ensures !(token.Text? && token.text != "") ==> r == UserOutcome(s, Err(TokenRequired))
    ensures token.Text? && token.text != "" ==>
      r == Respond(AuthService.VerifyEmail(s, token.text, now), StatusOk, "Email verified successfully")
    ensures r.result.Ok? ==> token.Text? && FindByEmailVerificationToken(s, token.text, now).Some?
  {
    match token
    case Text(t) =>
      if t == "" then UserOutcome(s, Err(TokenRequired))
      else Respond(AuthService.VerifyEmail(s, t, now), StatusOk, "Email verified successfully")
    case _ => UserOutcome(s, Err(TokenRequired))
  }

  /** `forgotPassword`: the message is the service's. */
  function ForgotPasswordRequest(s: UserStore, email: Option<string>, resetToken: string, now: int, mail: Option<string>)
    : (r: UserOutcome<Reply<()>>)
    requires Valid(s)
    ensures Valid(r.store)
    ensures Blank(email) ==> r == UserOutcome(s, Err(EmailRequired))
    ensures !Blank(email) ==> (r.result.Ok? <==> FindByEmail(s, email.value).Some? && mail.None?)
    ensures r.result.Err? && !r.result.error.MailFailed? ==> r.store == s
    ensures !Blank(email) ==> r.store == ForgotPassword(s, email.value, resetToken, now, mail).store
    ensures r.result.Ok? ==> r.result.value.message == "Password reset email sent"
  {
    if Blank(email) then UserOutcome(s, Err(EmailRequired))
    else
      var o := ForgotPassword(s, email.value, resetToken, now, mail);
      match o.result
      case Err(e) => UserOutcome(o.store, Err(e))
      case Ok(message) => UserOutcome(o.store, Ok(Reply(StatusOk, message, ())))
  }

  /**
   * `resetPassword` as written: the route has no request schema, so `!token` is the only
   * check on the token. A string goes to the service; the object `{"$ne": null}` is truthy
   * and reaches `findByResetToken` as a query operator.
   */
  function ResetPasswordRequestAsWritten(s: UserStore, token: BodyField, password: Option<string>, hashed: string, now: int)
    : (r: UserOutcome<Reply<Option<User>>>)
    requires Valid(s)
    ensures Valid(r.store)
    ensures Falsy(token) || Blank(password) ==> r == UserOutcome(s, Err(TokenAndPasswordRequired))
    ensures token.Str? && token.text != "" && !Blank(password) ==>
      r == Respond(ResetPassword(s, token.text, password.value, hashed, now), StatusOk, "Password reset successfully")
    ensures token.NotNull? && !Blank(password) ==>
      (r.result.Ok? <==> FindAnyResetToken(s, now).Some? && PasswordError(password.value).None?)
    ensures r.result.Err? ==> r.store == s
  {
    if Falsy(token) || Blank(password) then UserOutcome(s, Err(TokenAndPasswordRequired))
    else if token.Str? then
      Respond(ResetPassword(s, token.text, password.value, hashed, now), StatusOk, "Password reset successfully")
    else
      var found := FindAnyResetToken(s, now);
      if found.None? then UserOutcome(s, Err(BadResetToken))
      else Respond(UpdatePassword(s, found.value, password.value, hashed, now), StatusOk, "Password reset successfully")
  }

  /**
   * Without knowing any token, the body `{"token": {"$ne": null}, "password": ...}` sets the
   * password of a user who merely has a reset pending: whoever `findOne` meets first.
   */
  lemma NotNullTokenTakesOver(s: UserStore, victim: UserId, password: string, hashed: string, now: int)
    requires Valid(s) && victim in s.users && HoldsLiveResetToken(s.users[victim], now)
    requires password != "" && PasswordError(password).None?
    ensures var r := ResetPasswordRequestAsWritten(s, NotNull, Some(password), hashed, now);
      && r.result.Ok?
      && var id := FindAnyResetToken(s, now).value;
         id in r.store.users && r.store.users[id].password == hashed
  {
  }

  /**
   * `resetPassword` with the token required to be a string, as the service's signature
   * means it: anything else is refused like a missing token.
   */
  function ResetPasswordRequest(s: UserStore, token: BodyField, password: Option<string>, hashed: string, now: int)
    : (r: UserOutcome<Reply<Option<User>>>)
    requires Valid(s)
    ensures Valid(r.store)
    ensures !token.Str? || token.text == "" || Blank(password) ==> r == UserOutcome(s, Err(TokenAndPasswordRequired))
    ensures token.Str? && token.text != "" && !Blank(password) ==>
      r == Respond(ResetPassword(s, token.text, password.value, hashed, now), StatusOk, "Password reset successfully")
    ensures r.result.Err? ==> r.store == s
    ensures r.result.Ok? ==> token.Str? && FindByResetToken(s, token.text, now).Some?
  {
    if !token.Str? || token.text == "" || Blank(password) then UserOutcome(s, Err(TokenAndPasswordRequired))
    else Respond(ResetPassword(s, token.text, password.value, hashed, now), StatusOk, "Password reset successfully")
  }

  /** The corrected route agrees with the route as written on every string token. */
  lemma ResetRequestAgreesOnStrings(s: UserStore, token: string, password: Option<string>, hashed: string, now: int)
    requires Valid(s)
    ensures ResetPasswordRequest(s, Str(token), password, hashed, now)
         == ResetPasswordRequestAsWritten(s, Str(token), password, hashed, now)
  {
  }

  /**
   * The token `forgotPassword` stores resets the password through the route until it
   * expires, whether or not the email carrying it went out.
   */
  lemma ForgotThenResetRequest(s: UserStore, email: string, token: string, now: int, mail: Option<string>,
                               password: string, hashed: string, later: int)
    requires Valid(s) && FindByEmail(s, email).Some? && token != "" && PasswordError(password).None?
    requires forall id :: id in s.users ==> s.users[id].passwordResetToken != Some(token)
    requires later < now + ResetTokenLifetime
    ensures var t := ForgotPasswordRequest(s, Some(email), token, now, mail).store;
      ResetPasswordRequest(t, Str(token), Some(password), hashed, later).result.Ok?
  {
    ForgotThenReset(s, email, token, now, mail, password, hashed, later);
  }

  /** At its expiry or later the same token is refused, as an invalid one is. */
  lemma ExpiredResetRequest(s: UserStore, email: string, token: string, now: int, mail: Option<string>,
                            password: string, hashed: string, later: int)
    requires Valid(s) && FindByEmail(s, email).Some? && token != "" && password != ""
    requires forall id :: id in s.users ==> s.users[id].passwordResetToken != Some(token)
    requires later >= now + ResetTokenLifetime
    ensures var t := ForgotPasswordRequest(s, Some(email), token, now, mail).store;
      ResetPasswordRequest(t, Str(token), Some(password), hashed, later).result == Err(BadResetToken)
  {
    ForgotThenReset(s, email, token, now, mail, password, hashed, later);
  }

  /** `changePassword`: for the authenticated user, with both passwords present. */
  function ChangePasswordRequest(s: UserStore, me: Principal, current: Option<string>, password: Option<string>,
                                 hashed: string, compare: (string, string) -> bool, now: int)
    : (r: UserOutcome<Reply<Option<User>>>)
    requires Valid(s)
    ensures Valid(r.store)
    ensures Blank(current) || Blank(password) ==> r == UserOutcome(s, Err(PasswordsRequired))
    ensures !Blank(current) && !Blank(password) ==>
      r == Respond(ChangePassword(s, me.id, current.value, password.value, hashed, compare, now),
                   StatusOk, "Password changed successfully")
    ensures r.result.Ok? ==> me.id in s.users && compare(current.value, s.users[me.id].password)
  {
    if Blank(current) || Blank(password) then UserOutcome(s, Err(PasswordsRequired))
    else
      Respond(ChangePassword(s, me.id, current.value, password.value, hashed, compare, now),
              StatusOk, "Password changed successfully")
  }

  /** `refreshToken`: a new token for the authenticated user, as long as the user still exists. */
  function RefreshTokenRequest(s: UserStore, me: Principal, sign: UserId -> string): (r: Result<Reply<string>, Error>)
    ensures r.Err? <==> me.id !in s.users
    ensures r.Err? ==> r.error == UserNotFound
    ensures r.Ok? ==> r.value.data == sign(me.id) && r.value.message == "Token refreshed successfully"
  {
    match RefreshToken(s, me.id, sign)
    case Err(e) => Err(e)
    case Ok(t) => Ok(Reply(StatusOk, "Token refreshed successfully", t))
  }

  /** The token `register` hands out identifies the same user as the one a later refresh hands out. */
  lemma RegisterThenRefresh(s: UserStore, dto: CreateUserDto, hashed: string, verificationToken: string, now: int,
                            sign: UserId -> string, mail: Option<string>, role: Role)
    requires Valid(s) && RegisterRequest(s, dto, hashed, verificationToken, now, sign, mail).result.Ok?
    ensures var r := RegisterRequest(s, dto, hashed, verificationToken, now, sign, mail);
      var me := AuthMiddleware.Principal(s.nextUserId, role);
      RefreshTokenRequest(r.store, me, sign) == Ok(Reply(StatusOk, "Token refreshed successfully", r.result.value.data.token))
  {
    RegisterAddsOneUser(s, dto, hashed, verificationToken, now, sign, mail);
  }
}

=== FILE: auth_middleware.dfy ===
/**
 * The `authenticate`, `authorize` and `optionalAuth` middleware. Verifying a JSON web
 * token is a parameter (`None` when `jwt.verify` throws, otherwise the id it carries);
 * the user lookup is `findById` on the users collection.
 */
module AuthMiddleware {
  import opened Wrappers
  import opened Errors
  import opened UserModel
  import opened UserRepository

  /** `req.user` as the later handlers see it: the id and role of the authenticated user. */
  datatype Principal = Principal(id: UserId, role: Role)

  const BearerPrefix: string := "Bearer "

  const NoToken := AppError(StatusUnauthorized, "Access denied. No token provided.")
  const InvalidToken := AppError(StatusUnauthorized, "Token is not valid.")
  const NotAuthenticated := AppError(StatusUnauthorized, "Access denied. Please authenticate.")
  const InsufficientRole := AppError(StatusForbidden, "Access denied. Insufficient permissions.")

  predicate OccursAt(s: string, pat: string, i: nat) {
    i + |pat| <= |s| && s[i..i + |pat|] == pat
  }

  /** The first position at or after `from` where `pat` occurs in `s`. */
  function IndexFrom(s: string, pat: string, from: nat): (r: Option<nat>)
    requires from <= |s|
    ensures r.Some? ==> from <= r.value && OccursAt(s, pat, r.value)
    ensures r.Some? ==> forall j :: from <= j < r.value ==> !OccursAt(s, pat, j)
    ensures r.None? <==> forall j :: from <= j <= |s| ==> !OccursAt(s, pat, j)
    decreases |s| - from
  {
    if OccursAt(s, pat, from) then Some(from)
    else if from == |s| then None
    else IndexFrom(s, pat, from + 1)
  }

  /** `String.prototype.indexOf`. */
  function IndexOf(s: string, pat: string): (r: Option<nat>)
    ensures r.Some? ==> OccursAt(s, pat, r.value) && forall j :: 0 <= j < r.value ==> !OccursAt(s, pat, j)
    ensures r.None? <==> forall j :: 0 <= j <= |s| ==> !OccursAt(s, pat, j)
  {
    IndexFrom(s, pat, 0)
  }

  /** `s.replace(pat, rep)` with a string pattern: only the first occurrence is replaced. */
  function ReplaceFirst(s: string, pat: string, rep: string): (r: string)
    ensures IndexOf(s, pat).None? ==> r == s
    ensures IndexOf(s, pat).Some? ==> var i := IndexOf(s, pat).value;
      && |r| == |s| - |pat| + |rep|
      && r[..i] == s[..i] && r[i..i + |rep|] == rep && r[i + |rep|..] == s[i + |pat|..]
  {
    match IndexOf(s, pat)
    case None => s
    case Some(i) => s[..i] + rep + s[i + |pat|..]
  }

  /** `req.header('Authorization')?.replace('Bearer ', '')`; `None` when there is no header. */
  function ExtractToken(header: Option<string>): (r: Option<string>)
    ensures header.None? <==> r.None?
    ensures r.Some? ==> |r.value| <= |header.value|
  {
    match header
    case None => None
    case Some(h) => Some(ReplaceFirst(h, BearerPrefix, ""))
  }

  /** A well-formed header gives back exactly the token it carries, whatever the token. */
  lemma BearerRoundTrip(token: string)
    ensures ExtractToken(Some(BearerPrefix + token)) == Some(token)
  {
    var h := BearerPrefix + token;
    assert OccursAt(h, BearerPrefix, 0) by {
      assert h[..|BearerPrefix|] == BearerPrefix;
    }
    assert IndexOf(h, BearerPrefix) == Some(0);
  }

  /** A header with no `Bearer ` in it is taken whole as the token. */
  lemma BareHeaderIsToken(h: string)
    requires forall j :: 0 <= j <= |h| ==> !OccursAt(h, BearerPrefix, j)
    ensures ExtractToken(Some(h)) == Some(h)
  {
  }

  /**
   * The prefix is removed wherever it first occurs, not only at the start: whatever
   * stands before it stays in the token.
   */
  lemma PrefixRemovedInsideHeader(a: string, b: string)
    requires forall j :: 0 <= j < |a| ==> !OccursAt(a + BearerPrefix + b, BearerPrefix, j)
    ensures ExtractToken(Some(a + BearerPrefix + b)) == Some(a + b)
  {
    var h := a + BearerPrefix + b;
    assert OccursAt(h, BearerPrefix, |a|) by {
      assert h[|a|..|a| + |BearerPrefix|] == BearerPrefix;
    }
    assert IndexOf(h, BearerPrefix) == Some(|a|);
    assert h[..|a|] == a && h[|a| + |BearerPrefix|..] == b;
  }

  /** `!token`: absent or empty. */
  predicate Missing(token: Option<string>) {
    token.None? || token.value == ""
  }

  /**
   * `authenticate`: a missing token, then a token that does not verify or names no user.
   * Both failures are 401; the two kinds of invalid token share one message.
   */
  function Authenticate(s: UserStore, header: Option<string>, verify: string -> Option<UserId>)
    : (r: Result<Principal, Error>)
    ensures r.Err? ==> r.error.AppError? && r.error.status == StatusUnauthorized
    ensures Missing(ExtractToken(header)) <==> r == Err(NoToken)
    ensures !Missing(ExtractToken(header)) ==> var v := verify(ExtractToken(header).value);
      && (r.Ok? <==> v.Some? && v.value in s.users)
      && (r.Ok? ==> r.value == Principal(v.value, s.users[v.value].role))
      && (r.Err? ==> r.error == InvalidToken)
  {
    var token := ExtractToken(header);
    if Missing(token) then Err(NoToken)
    else
      match verify(token.value)
      case None => Err(InvalidToken)
      case Some(id) =>
        match FindById(s, id)
        case None => Err(InvalidToken)
        case Some(u) => Ok(Principal(id, u.role))
  }

  /** `authorize(...roles)`: 401 without a user, checked before the role; 403 for a role not listed. */
  function Authorize(user: Option<Principal>, roles: seq<Role>): (r: Result<(), Error>)
    ensures user.None? <==> r == Err(NotAuthenticated)
    ensures user.Some? && user.value.role !in roles <==> r == Err(InsufficientRole)
    ensures r.Ok? <==> user.Some? && user.value.role in roles
  {
    if user.None? then Err(NotAuthenticated)
    else if user.value.role !in roles then Err(InsufficientRole)
    else Ok(())
  }

  /**
   * `optionalAuth`: a present token is verified and looked up; any failure continues
   * without a user. It never fails.
   */
  function OptionalAuth(s: UserStore, header: Option<string>, verify: string -> Option<UserId>)
    : (r: Option<Principal>)
    ensures Missing(ExtractToken(header)) ==> r.None?
  {
    var token := ExtractToken(header);
    if Missing(token) then None
    else
      match verify(token.value)
      case None => None
      case Some(id) => if id in s.users then Some(Principal(id, s.users[id].role)) else None
  }

  /** `optionalAuth` attaches a user exactly when `authenticate` would let the request through, and the same one. */
  lemma OptionalAuthAgrees(s: UserStore, header: Option<string>, verify: string -> Option<UserId>)
    ensures OptionalAuth(s, header, verify).Some? <==> Authenticate(s, header, verify).Ok?
    ensures OptionalAuth(s, header, verify).Some? ==>
      OptionalAuth(s, header, verify).value == Authenticate(s, header, verify).value
  {
  }

  /** An authenticated request whose user's role is listed passes `authorize`. */
  lemma AuthenticatedListedRolePasses(s: UserStore, header: Option<string>, verify: string -> Option<UserId>,
                                      roles: seq<Role>)
    requires Authenticate(s, header, verify).Ok?
    requires Authenticate(s, header, verify).value.role in roles
    ensures Authorize(Some(Authenticate(s, header, verify).value), roles).Ok?
  {
  }
}

=== FILE: auth_service.dfy ===
/**
 * `AuthService`: registration, login and the token-driven account flows, as
 * transitions of the users collection that either succeed or throw an `AppError`.
 * Random tokens, bcrypt hashes, `bcrypt.compare` and JWT signing arrive as parameters,
 * and so does the outcome of sending an email: `None` when it went out, or the reason
 * `sendMail` rejected it.
 */
module AuthService {
  import opened Wrappers
  import opened Errors
  import opened Text
  import opened UserModel
  import opened UserRepository

  /** Twenty-four hours. */
  const VerificationLifetime: nat := 24 * 60 * 60 * 1000

  /** The user object `register` and `login` return: the listed fields only, so never the password. */
  datatype Profile = Profile(
    id: UserId,
    username: string,
    email: string,
    firstName: string,
    lastName: string,
    avatar: Option<string>,
    role: Role,
    isEmailVerified: bool,
    preferences: Preferences)

  function ProfileOf(id: UserId, u: User): Profile {
    Profile(id, u.username, u.email, u.firstName, u.lastName, u.avatar, u.role, u.isEmailVerified, u.preferences)
  }

  datatype Session = Session(user: Profile, token: string)

  const EmailExists := AppError(StatusBadRequest, "User with this email already exists")
  const UsernameTakenError := AppError(StatusBadRequest, "Username is already taken")
  const BadCredentials := AppError(StatusUnauthorized, "Invalid email or password")
  const BadVerificationToken := AppError(StatusBadRequest, "Invalid or expired verification token")
  const UnknownEmail := AppError(StatusNotFound, "No user found with this email address")
  const BadResetToken := AppError(StatusBadRequest, "Invalid or expired reset token")
  const UserNotFound := AppError(StatusNotFound, "User not found")
  const WrongPassword := AppError(StatusBadRequest, "Current password is incorrect")

  /** `register` gets as far as saving the new user: valid, and neither key taken. */
  predicate RegisterSaves(s: UserStore, dto: CreateUserDto) {
    UserErrors(dto) == [] && FindByEmail(s, dto.email).None? && FindByUsername(s, dto.username).None?
  }

  /**
   * `register`: the email lookup, then the username lookup, then the insert; the new
   * user is saved again with a verification token good for a day, and only then is the
   * verification email sent. A failed send fails the request, but the saves stay.
   */
  function Register(s: UserStore, dto: CreateUserDto, hashed: string, verificationToken: string, now: int,
                    sign: UserId -> string, mail: Option<string>): (r: UserOutcome<Session>)
    requires Valid(s)
    ensures Valid(r.store)
    ensures !RegisterSaves(s, dto) ==> r.result.Err? && r.store == s
    ensures FindByEmail(s, dto.email).Some? ==> r.result == Err(EmailExists)
    ensures FindByEmail(s, dto.email).None? && FindByUsername(s, dto.username).Some? ==>
      r.result == Err(UsernameTakenError)
    ensures r.result.Err? ==> !r.result.error.DuplicateKey?
    ensures r.result.Ok? <==> RegisterSaves(s, dto) && mail.None?
    ensures RegisterSaves(s, dto) && mail.Some? ==> r.result == Err(MailFailed(mail.value))
  {
    if FindByEmail(s, dto.email).Some? then UserOutcome(s, Err(EmailExists))
    else if FindByUsername(s, dto.username).Some? then UserOutcome(s, Err(UsernameTakenError))
    else
      LookupsMissIffFree(s, dto.username, dto.email);
      var saved := RegisterFree(s, dto, hashed, verificationToken, now, sign);
      if saved.result.Ok? && mail.Some? then UserOutcome(saved.store, Err(MailFailed(mail.value)))
      else saved
  }

  /** `register` once neither the username nor the email is taken: validate, insert, save the token. */
  function RegisterFree(s: UserStore, dto: CreateUserDto, hashed: string, verificationToken: string, now: int,
                        sign: UserId -> string): (r: UserOutcome<Session>)
    requires Valid(s) && !UsernameTaken(s, Trim(dto.username)) && !EmailTaken(s, EmailKey(dto.email))
    ensures Valid(r.store)
    ensures r.result.Err? ==> r.store == s && r.result.error == ValidationError(UserErrors(dto))
    ensures r.result.Ok? <==> UserErrors(dto) == []
  {
    var c := Create(s, dto, hashed, now);
    if c.result.Err? then UserOutcome(s, c.result.PropagateFailure())
    else Enrol(c.store, c.result.value, verificationToken, now, sign)
  }

  /**
   * A `register` that gets to the insert adds exactly one user, under the next id, holding
   * the verification token good for a day, whether or not the email then goes out; when
   * it does, the reply is that user's profile and token.
   */
  lemma RegisterAddsOneUser(s: UserStore, dto: CreateUserDto, hashed: string, verificationToken: string, now: int,
                            sign: UserId -> string, mail: Option<string>)
    requires Valid(s) && RegisterSaves(s, dto)
    ensures var r := Register(s, dto, hashed, verificationToken, now, sign, mail); var id := s.nextUserId;
      && id !in s.users && id in r.store.users && r.store.nextUserId == id + 1
      && r.store.users == s.users[id := r.store.users[id]]
      && r.store.users[id].emailVerificationToken == Some(verificationToken)
      && r.store.users[id].emailVerificationExpires == Some(now + VerificationLifetime)
      && (r.result.Ok? ==> r.result.value == Session(ProfileOf(id, r.store.users[id]), sign(id)))
  {
    var id := s.nextUserId;
    RegisterInsertsThenEnrols(s, dto, hashed, verificationToken, now, sign, mail);
    var c := Create(s, dto, hashed, now).store;
    var e := Enrol(c, id, verificationToken, now, sign).store;
    OverwriteTwice(s.users, id, c.users[id], e.users[id]);
  }

  /**
   * A `register` that gets to the insert stores what the insert under the next id followed
   * by the save of its token stores; when the email goes out, it answers as that save does.
   */
  lemma RegisterInsertsThenEnrols(s: UserStore, dto: CreateUserDto, hashed: string, verificationToken: string,
                                  now: int, sign: UserId -> string, mail: Option<string>)
    requires Valid(s) && RegisterSaves(s, dto)
    ensures Create(s, dto, hashed, now).result == Ok(s.nextUserId) && s.nextUserId !in s.users
    ensures Register(s, dto, hashed, verificationToken, now, sign, mail).store
         == Enrol(Create(s, dto, hashed, now).store, s.nextUserId, verificationToken, now, sign).store
    ensures mail.None? ==>
      Register(s, dto, hashed, verificationToken, now, sign, mail)
      == Enrol(Create(s, dto, hashed, now).store, s.nextUserId, verificationToken, now, sign)
  {
    LookupsMissIffFree(s, dto.username, dto.email);
  }

  /**
   * When the verification email fails, the account is stored all the same, so sending the
   * same registration again is refused: the email is already taken.
   */
  lemma MailFailureBlocksRetry(s: UserStore, dto: CreateUserDto, hashed: string, verificationToken: string, now: int,
                               sign: UserId -> string, reason: string,
                               hashed': string, verificationToken': string, now': int, mail': Option<string>)
    requires Valid(s) && RegisterSaves(s, dto)
    ensures Register(s, dto, hashed, verificationToken, now, sign, Some(reason)).result == Err(MailFailed(reason))
    ensures var t := Register(s, dto, hashed, verificationToken, now, sign, Some(reason)).store;
      Register(t, dto, hashed', verificationToken', now', sign, mail').result == Err(EmailExists)
  {
    var t := Register(s, dto, hashed, verificationToken, now, sign, Some(reason)).store;
    var id := s.nextUserId;
    RegisterAddsOneUser(s, dto, hashed, verificationToken, now, sign, Some(reason));
    RegisterInsertsThenEnrols(s, dto, hashed, verificationToken, now, sign, Some(reason));
    var c := Create(s, dto, hashed, now);
    NewUserDefaults(dto, hashed, now);
    assert t.users[id].email == c.store.users[id].email;
    FindByEmailExact(t, id, dto.email);
  }

  /** `register` after the insert: the new user is saved again with its verification token. */
  function Enrol(s: UserStore, id: UserId, verificationToken: string, now: int, sign: UserId -> string)
    : (r: UserOutcome<Session>)
    requires Valid(s) && id in s.users
    ensures Valid(r.store) && r.result.Ok? && r.store.nextUserId == s.nextUserId && id in r.store.users
    ensures r.store.users == s.users[id := r.store.users[id]]
    ensures r.store.users[id].emailVerificationToken == Some(verificationToken)
    ensures r.store.users[id].emailVerificationExpires == Some(now + VerificationLifetime)
    ensures r.result.value == Session(ProfileOf(id, r.store.users[id]), sign(id))
  {
    var saved := SetVerificationToken(s, id, verificationToken, now + VerificationLifetime, now);
    UserOutcome(saved, Ok(Session(ProfileOf(id, saved.users[id]), sign(id))))
  }

  lemma OverwriteTwice<K, V>(m: map<K, V>, k: K, a: V, b: V)
    ensures m[k := a][k := b] == m[k := b]
  {
  }

  /** `login`: an unknown email and a wrong password are indistinguishable to the caller. */
  function Login(s: UserStore, email: string, password: string, compare: (string, string) -> bool,
                 sign: UserId -> string): (r: Result<Session, Error>)
    ensures r.Err? ==> r.error == BadCredentials
    ensures r.Ok? <==> FindByEmail(s, email).Some? && compare(password, s.users[FindByEmail(s, email).value].password)
    ensures r.Ok? ==> var id := FindByEmail(s, email).value;
      r.value == Session(ProfileOf(id, s.users[id]), sign(id))
  {
    var found := FindByEmail(s, email);
    if found.None? then Err(BadCredentials)
    else
      var id := found.value;
      if !compare(password, s.users[id].password) then Err(BadCredentials)
      else Ok(Session(ProfileOf(id, s.users[id]), sign(id)))
  }

  /**
   * Whoever gets through to the insert can log in with the same email and password, as the
   * same user, even when the verification email failed.
   */
  lemma RegisterThenLogin(s: UserStore, dto: CreateUserDto, hashed: string, verificationToken: string, now: int,
                          sign: UserId -> string, mail: Option<string>, compare: (string, string) -> bool)
    requires Valid(s) && compare(dto.password, hashed)
    requires RegisterSaves(s, dto)
    ensures var t := Register(s, dto, hashed, verificationToken, now, sign, mail).store;
      Login(t, dto.email, dto.password, compare, sign).Ok?
      && Login(t, dto.email, dto.password, compare, sign).value.user.id == s.nextUserId
  {
    var r := Register(s, dto, hashed, verificationToken, now, sign, mail);
    var id := s.nextUserId;
    RegisterAddsOneUser(s, dto, hashed, verificationToken, now, sign, mail);
    RegisterInsertsThenEnrols(s, dto, hashed, verificationToken, now, sign, mail);
    var c := Create(s, dto, hashed, now);
    NewUserDefaults(dto, hashed, now);
    assert r.store.users[id].email == c.store.users[id].email && r.store.users[id].password == hashed;
    FindByEmailExact(r.store, id, dto.email);
  }

  /** `verifyEmail`: an unknown or expired token is rejected; otherwise the address is verified. */
  function VerifyEmail(s: UserStore, token: string, now: int): (r: UserOutcome<Option<User>>)
    requires Valid(s)
    ensures Valid(r.store)
    ensures FindByEmailVerificationToken(s, token, now).None? <==> r.result.Err?
    ensures r.result.Err? ==> r.store == s && r.result.error == BadVerificationToken
    ensures r.result.Ok? ==> var id := FindByEmailVerificationToken(s, token, now).value;
      && r.result.value.Some? && id in r.store.users && r.store.users[id].isEmailVerified
      && r.store.users == s.users[id := r.result.value.value]
      && FindByEmailVerificationToken(r.store, token, now) != Some(id)
  {
    var found := FindByEmailVerificationToken(s, token, now);
    if found.None? then UserOutcome(s, Err(BadVerificationToken))
    else
      VerificationTokenSingleUse(s, token, now, now);
      UserRepository.VerifyEmail(s, found.value, now)
  }

  /**
   * `forgotPassword`: an unknown email gives 404; otherwise a fresh reset token is stored,
   * and then the reset email is sent. A failed send fails the request, but the token stays.
   */
  function ForgotPassword(s: UserStore, email: string, resetToken: string, now: int, mail: Option<string>)
    : (r: UserOutcome<string>)
    requires Valid(s)
    ensures Valid(r.store)
    ensures FindByEmail(s, email).None? ==> r == UserOutcome(s, Err(UnknownEmail))
    ensures r.result.Ok? <==> FindByEmail(s, email).Some? && mail.None?
    ensures FindByEmail(s, email).Some? && mail.Some? ==> r.result == Err(MailFailed(mail.value))
    ensures r.result.Ok? ==> r.result.value == "Password reset email sent"
    ensures FindByEmail(s, email).Some? ==> var id := FindByEmail(s, email).value;
      && id in r.store.users
      && r.store.users == s.users[id := r.store.users[id]]
      && r.store.users[id].passwordResetToken == Some(resetToken)
      && r.store.users[id].passwordResetExpires == Some(now + ResetTokenLifetime)
      && r.store.users[id].password == s.users[id].password
  {
    var found := FindByEmail(s, email);
    if found.None? then UserOutcome(s, Err(UnknownEmail))
    else
      var id := found.value;
      var (u', _) := GenerateResetToken(s.users[id], resetToken, now);
      var saved := Save(s, id, u', now);
      if mail.Some? then UserOutcome(saved, Err(MailFailed(mail.value)))
      else UserOutcome(saved, Ok("Password reset email sent"))
  }

  /** `resetPassword`: an unknown or expired token gives 400; otherwise the password is replaced. */
  function ResetPassword(s: UserStore, token: string, password: string, hashed: string, now: int)
    : (r: UserOutcome<Option<User>>)
    requires Valid(s)
    ensures Valid(r.store)
    ensures FindByResetToken(s, token, now).None? ==> r == UserOutcome(s, Err(BadResetToken))
    ensures r.result.Err? ==> r.store == s
    ensures FindByResetToken(s, token, now).Some? ==>
      r == UpdatePassword(s, FindByResetToken(s, token, now).value, password, hashed, now)
  {
    var found := FindByResetToken(s, token, now);
    if found.None? then UserOutcome(s, Err(BadResetToken))
    else UpdatePassword(s, found.value, password, hashed, now)
  }

  /**
   * A reset token stored by `forgotPassword` (and held by nobody else) works until its
   * expiry and not at it or after, whether or not the email carrying it went out.
   */
  lemma ForgotThenReset(s: UserStore, email: string, token: string, now: int, mail: Option<string>,
                        password: string, hashed: string, later: int)
    requires Valid(s) && FindByEmail(s, email).Some?
    requires forall id :: id in s.users ==> s.users[id].passwordResetToken != Some(token)
    ensures var t := ForgotPassword(s, email, token, now, mail).store;
      var id := FindByEmail(s, email).value;
      && (later < now + ResetTokenLifetime ==> FindByResetToken(t, token, later) == Some(id))
      && (later >= now + ResetTokenLifetime ==> ResetPassword(t, token, password, hashed, later).result == Err(BadResetToken))
  {
    var t := ForgotPassword(s, email, token, now, mail).store;
    var id := FindByEmail(s, email).value;
    ForgotLeavesOneHolder(s, email, token, now, mail);
    var found := FindByResetToken(t, token, later);
    if later < now + ResetTokenLifetime {
      assert Live(t.users[id].passwordResetToken, t.users[id].passwordResetExpires, token, later);
    } else {
      assert found.None?;
    }
  }

  /** After `forgotPassword`, sent or not, the user it found is the only one holding the new token. */
  lemma ForgotLeavesOneHolder(s: UserStore, email: string, token: string, now: int, mail: Option<string>)
    requires Valid(s) && FindByEmail(s, email).Some?
    requires forall id :: id in s.users ==> s.users[id].passwordResetToken != Some(token)
    ensures var t := ForgotPassword(s, email, token, now, mail).store;
      forall a :: a in t.users && a != FindByEmail(s, email).value ==> t.users[a].passwordResetToken != Some(token)
  {
    var t := ForgotPassword(s, email, token, now, mail).store;
    var id := FindByEmail(s, email).value;
    forall a | a in t.users && a != id
      ensures t.users[a].passwordResetToken != Some(token)
    {
      assert t.users[a] == s.users[a];
    }
  }

  /**
   * `changePassword`: the user is looked up by id and then again by that user's email
   * (an empty email when the id is unknown), and the current password must match.
   */
  function ChangePassword(s: UserStore, userId: UserId, current: string, password: string, hashed: string,
                          compare: (string, string) -> bool, now: int): (r: UserOutcome<Option<User>>)
    requires Valid(s)
    ensures Valid(r.store)
    ensures userId !in s.users ==> r == UserOutcome(s, Err(UserNotFound))
    ensures r.result.Err? ==> r.store == s
    ensures userId in s.users && !compare(current, s.users[userId].password) ==>
      r == UserOutcome(s, Err(WrongPassword))
    ensures userId in s.users && compare(current, s.users[userId].password) ==>
      r == UpdatePassword(s, userId, password, hashed, now)
  {
    var byId := FindById(s, userId);
    var email := if byId.Some? then byId.value.email else "";
    var found := FindByEmail(s, email);
    NoEmptyEmail(s);
    if found.None? then UserOutcome(s, Err(UserNotFound))
    else
      assert byId.Some? && found.value == userId by {
        if byId.Some? {
          OwnEmailFindsSelf(s, userId);
        }
      }
      if !compare(current, s.users[found.value].password) then UserOutcome(s, Err(WrongPassword))
      else UpdatePassword(s, userId, password, hashed, now)
  }

  /** A stored email is already normalised, so looking it up finds its owner. */
  lemma OwnEmailFindsSelf(s: UserStore, userId: UserId)
    requires Valid(s) && userId in s.users
    ensures FindByEmail(s, s.users[userId].email) == Some(userId)
  {
    StoredKeysNormal(s.users[userId]);
    FindByEmailExact(s, userId, s.users[userId].email);
  }

  /** No stored user has an empty email, so a lookup of `""` finds nobody. */
  lemma NoEmptyEmail(s: UserStore)
    requires Valid(s)
    ensures FindByEmail(s, "").None?
  {
    assert EmailKey("") == "";
  }

  /** `refreshToken`: 404 for an unknown id, otherwise a token for it. */
  function RefreshToken(s: UserStore, userId: UserId, sign: UserId -> string): (r: Result<string, Error>)
    ensures r.Err? <==> userId !in s.users
    ensures r.Err? ==> r.error == UserNotFound
    ensures r.Ok? ==> r.value == sign(userId)
  {
    if FindById(s, userId).None? then Err(UserNotFound) else Ok(sign(userId))
  }
}

=== FILE: collections.dfy ===
/**
 * Facts about the collections every repository shares: sequences of ids without
 * repeats, and `findOne` over a collection whose ids are handed out in increasing order.
 */
module Collections {
  import opened Wrappers

  /** No entry occurs twice. */
  predicate Distinct<T(==)>(s: seq<T>) {
    forall i, j :: 0 <= i < j < |s| ==> s[i] != s[j]
  }

  function Elems<T>(s: seq<T>): set<T> {
    set x | x in s
  }

  /** A sequence without repeats is as long as the set of its entries is large. */
  lemma {:induction false} DistinctCard<T>(s: seq<T>)
    requires Distinct(s)
    ensures |Elems(s)| == |s|
  {
    if s != [] {
      var tail := s[1..];
      assert Distinct(tail) by {
        forall i, j | 0 <= i < j < |tail| ensures tail[i] != tail[j] {
          assert tail[i] == s[i + 1] && tail[j] == s[j + 1];
        }
      }
      DistinctCard(tail);
      assert s[0] !in tail by {
        forall m | 0 <= m < |tail| ensures tail[m] != s[0] {
          assert tail[m] == s[m + 1];
        }
      }
      assert Elems(s) == Elems(tail) + {s[0]};
    }
  }

  /**
   * `findOne(filter)` on a collection keyed by ids below `bound`: the first id in
   * `[from, bound)` whose document satisfies `p`, in insertion order.
   */
  function FindFrom<T>(docs: map<nat, T>, p: T -> bool, from: nat, bound: nat): (r: Option<nat>)
    requires from <= bound
    ensures r.Some? ==> from <= r.value < bound && r.value in docs && p(docs[r.value])
    ensures r.Some? ==> forall id :: from <= id < r.value && id in docs ==> !p(docs[id])
    ensures r.None? <==> forall id :: from <= id < bound && id in docs ==> !p(docs[id])
    decreases bound - from
  {
    if from == bound then None
    else if from in docs && p(docs[from]) then Some(from)
    else FindFrom(docs, p, from + 1, bound)
  }
}

=== FILE: comment.dfy ===
/**
 * The `Comment` document: trimmed content of at most 1000 characters, required author
 * and post references, an optional parent and the schema defaults.
 */
module CommentModel {
  import opened Wrappers
  import opened Errors
  import opened Text
  import opened PostModel

  type CommentId = nat

  /** Times are milliseconds since the epoch. */
  datatype Comment = Comment(
    content: string,
    author: UserId,
    post: PostId,
    parent: Option<CommentId>,
    replies: seq<CommentId>,
    isApproved: bool,
    likeCount: int,
    createdAt: int,
    updatedAt: int)

  const ContentMax: nat := 1000

  /** The paths given to `new Comment(...)`; an absent reference is `None`. */
  datatype CommentDto = CommentDto(content: string, author: Option<UserId>, post: Option<PostId>, parent: Option<CommentId>)

  /** The first failing validator of `content`, after the `trim` setter. */
  function ContentError(content: string): (r: Option<string>)
    ensures r.None? <==> 1 <= |content| <= ContentMax
  {
    if content == "" then Some("Comment content is required")
    else if |content| > ContentMax then Some("Comment cannot exceed 1000 characters")
    else None
  }

  /** The default message of a `required: true` validator. */
  function RequiredPath(path: string): string {
    "Path `" + path + "` is required."
  }

  function Msg(e: Option<string>): (r: seq<string>)
    ensures r == [] <==> e.None?
    ensures |r| <= 1
  {
    if e.None? then [] else [e.value]
  }

  /** Every failing path in schema order, one message each. */
  function CommentErrors(dto: CommentDto): (errs: seq<string>)
    ensures errs == [] <==> 1 <= |Trim(dto.content)| <= ContentMax && dto.author.Some? && dto.post.Some?
    ensures |errs| <= 3
  {
    Msg(ContentError(Trim(dto.content)))
    + (if dto.author.None? then [RequiredPath("author")] else [])
    + (if dto.post.None? then [RequiredPath("post")] else [])
  }

  /** A stored comment: content trimmed, non-empty, within the bound. */
  predicate ValidComment(c: Comment) {
    Trim(c.content) == c.content && 1 <= |c.content| <= ContentMax
  }

  /** `new Comment(dto).save()`: the `trim` setter, the defaults, then validation. */
  function NewComment(dto: CommentDto, now: int): (r: Result<Comment, Error>)
    ensures r.Err? <==> CommentErrors(dto) != []
    ensures r.Err? ==> r.error == ValidationError(CommentErrors(dto))
    ensures r.Ok? ==> ValidComment(r.value)
    ensures r.Ok? ==> var c := r.value;
      && c.content == Trim(dto.content) && Some(c.author) == dto.author && Some(c.post) == dto.post
      && c.parent == dto.parent && c.replies == [] && c.isApproved && c.likeCount == 0
      && c.createdAt == now && c.updatedAt == now
  {
    var errs := CommentErrors(dto);
    if errs != [] then Err(ValidationError(errs))
    else
      TrimIdempotent(dto.content);
      Ok(Comment(Trim(dto.content), dto.author.value, dto.post.value, dto.parent, [], true, 0, now, now))
  }

  /** Content made only of whitespace is rejected as missing, whatever its length. */
  lemma BlankContentIsMissing(dto: CommentDto)
    requires forall i :: 0 <= i < |dto.content| ==> IsSpace(dto.content[i])
    ensures NewComment(dto, 0).Err?
    ensures CommentErrors(dto)[0] == "Comment content is required"
  {
    BlankTrimsToEmpty(dto.content);
  }

  /** Trimming a string of whitespace leaves nothing. */
  lemma {:induction false} BlankTrimsToEmpty(s: string)
    requires forall i :: 0 <= i < |s| ==> IsSpace(s[i])
    ensures Trim(s) == ""
  {
    TrimStartBlank(s);
  }

  lemma {:induction false} TrimStartBlank(s: string)
    requires forall i :: 0 <= i < |s| ==> IsSpace(s[i])
    ensures TrimStart(s) == ""
    decreases |s|
  {
    if s != [] {
      TrimStartBlank(s[1..]);
    }
  }
}

=== FILE: labels.dfy ===
/**
 * The `Category` and `Tag` documents. Both are name-keyed labels with a derived
 * slug and a `postCount`; a category also carries a description and a colour.
 */
module Labels {
  import opened Wrappers
  import opened Errors
  import opened Text
  import opened Slug

  datatype Kind = CategoryKind | TagKind

  datatype Label =
    | Category(name: string, slug: string, description: Option<string>, color: string, postCount: int)
    | Tag(name: string, slug: string, postCount: int)

  function KindOf(l: Label): Kind {
    if l.Category? then CategoryKind else TagKind
  }

  /** `maxlength` of the name: 50 for a category, 30 for a tag. */
  function NameMax(kind: Kind): nat {
    if kind == CategoryKind then 50 else 30
  }

  const DescriptionMax: nat := 200
  const DefaultColor: string := "#6366f1"

  /** `^#([A-Fa-f0-9]{6}|[A-Fa-f0-9]{3})$` */
  predicate IsHexColor(s: string) {
    && (|s| == 4 || |s| == 7)
    && s[0] == '#'
    && forall i :: 1 <= i < |s| ==> IsHexDigit(s[i])
  }

  /** The default colour satisfies the pattern it is validated against. */
  lemma DefaultColorIsHex()
    ensures IsHexColor(DefaultColor)
  {
  }

  function RequiredMessage(kind: Kind): string {
    if kind == CategoryKind then "Category name is required" else "Tag name is required"
  }

  function TooLongMessage(kind: Kind): string {
    if kind == CategoryKind then "Category name cannot exceed 50 characters"
    else "Tag name cannot exceed 30 characters"
  }

  /** A stored name: trimmed, non-empty, within the bound of its kind. */
  predicate ValidName(name: string, kind: Kind) {
    Trim(name) == name && 1 <= |name| <= NameMax(kind)
  }

  /**
   * The pre-save hook: the slug follows the name whenever the name is new or modified.
   * A saved label's slug is then a well-formed slug of its name, and a label whose slug
   * already follows its name is saved unchanged.
   */
  function PreSaveLabel(l: Label, isNew: bool, nameModified: bool): (r: Label)
    ensures r == l.(slug := r.slug)
    ensures isNew || nameModified ==> r.slug == Slugify(l.name)
    ensures !isNew && !nameModified ==> r == l
    ensures isNew || nameModified || l.slug == Slugify(l.name) ==> r.slug == Slugify(r.name) && IsSlug(r.slug)
    ensures l.slug == Slugify(l.name) ==> r == l
  {
    SlugifyIsSlug(l.name);
    if isNew || nameModified then l.(slug := Slugify(l.name)) else l
  }

  /** Saving again with the name untouched keeps what the first save produced. */
  lemma PreSaveLabelIdempotent(l: Label, isNew: bool, nameModified: bool)
    ensures var once := PreSaveLabel(l, isNew, nameModified);
      PreSaveLabel(once, false, false) == once && PreSaveLabel(once, isNew, nameModified) == once
  {
  }

  /**
   * `new Category({ name })` / `new Tag({ name })` followed by `save()`: the `trim`
   * setter, the schema defaults, validation, then the pre-save hook.
   */
  function NewLabel(kind: Kind, name: string): (r: Result<Label, Error>)
    ensures r.Err? <==> !ValidName(Trim(name), kind)
    ensures r.Ok? ==> var l := r.value;
      && KindOf(l) == kind
      && l.name == Trim(name) && ValidName(l.name, kind)
      && l.slug == Slugify(l.name)
      && l.postCount == 0
      && (l.Category? ==> l.color == DefaultColor && IsHexColor(l.color) && l.description.None?)
  {
    var n := Trim(name);
    TrimIdempotent(name);
    DefaultColorIsHex();
    if n == "" then Err(ValidationError([RequiredMessage(kind)]))
    else if |n| > NameMax(kind) then Err(ValidationError([TooLongMessage(kind)]))
    else
      var created := if kind == CategoryKind then Category(n, "", None, DefaultColor, 0) else Tag(n, "", 0);
      Ok(PreSaveLabel(created, true, true))
  }
}

=== FILE: numbers.dfy ===
/** JavaScript number primitives the server relies on: `Math.ceil(a / b)` and `parseInt(s) || d`. */
module JsNumber {
  import opened Text
  import opened Wrappers

  /** `Math.ceil(a / b)` for integers, `b != 0`, as the mathematical ceiling. */
  function CeilDiv(a: int, b: int): (r: int)
    requires b != 0
    ensures b > 0 ==> (r - 1) * b < a <= r * b
    ensures b < 0 ==> r * b <= a < (r - 1) * b
  {
    if b > 0 then
      (if a % b == 0 then a / b else a / b + 1)
    else
      // For a negative divisor Dafny's Euclidean quotient is already the ceiling.
      a / b
  }

  /** The result of `parseInt`: `NaN` or an integer (`-0` is folded into `0`). */
  datatype Parsed = NaN | Num(value: int)

  function DecimalValue(c: char): nat requires IsDigit(c) { (c - '0') as nat }

  function HexValue(c: char): nat
    requires IsHexDigit(c)
    ensures HexValue(c) < 16
  {
    if IsDigit(c) then (c - '0') as nat
    else if 'a' <= c <= 'f' then (c - 'a') as nat + 10
    else (c - 'A') as nat + 10
  }

  predicate IsRadixDigit(c: char, hex: bool) { if hex then IsHexDigit(c) else IsDigit(c) }

  function RadixDigitValue(c: char, hex: bool): nat
    requires IsRadixDigit(c, hex)
  {
    if hex then HexValue(c) else DecimalValue(c)
  }

  /** The longest prefix of radix digits. */
  function DigitPrefix(s: string, hex: bool): (r: string)
    ensures |r| <= |s| && r == s[..|r|]
    ensures forall i :: 0 <= i < |r| ==> IsRadixDigit(r[i], hex)
    ensures |r| < |s| ==> !IsRadixDigit(s[|r|], hex)
  {
    if s == [] || !IsRadixDigit(s[0], hex) then [] else [s[0]] + DigitPrefix(s[1..], hex)
  }

  function DigitsValue(s: string, hex: bool): nat
    requires forall i :: 0 <= i < |s| ==> IsRadixDigit(s[i], hex)
  {
    if s == [] then 0
    else DigitsValue(s[..|s| - 1], hex) * (if hex then 16 else 10) + RadixDigitValue(s[|s| - 1], hex)
  }

  /**
   * `parseInt(s)` with no radix, as ECMAScript defines it: skip leading white space,
   * read an optional sign, switch to base 16 after `0x`/`0X`, then read the longest
   * run of digits; no digit at all gives `NaN`.
   */
  function ParseInt(s: string): Parsed {
    var t := TrimStart(s);
    if t != [] && t[0] == '-' then Negate(ParseUnsigned(t[1..]))
    else if t != [] && t[0] == '+' then ParseUnsigned(t[1..])
    else ParseUnsigned(t)
  }

  function Negate(p: Parsed): Parsed {
    match p
    case NaN => NaN
    case Num(v) => Num(-v)
  }

  /** The digits after the sign: base 16 after a `0x`/`0X` prefix, base 10 otherwise. */
  function ParseUnsigned(u: string): Parsed {
    var hex := |u| >= 2 && u[0] == '0' && (u[1] == 'x' || u[1] == 'X');
    var digits := DigitPrefix(if hex then u[2..] else u, hex);
    if digits == [] then NaN else Num(DigitsValue(digits, hex))
  }

  /**
   * `parseInt(param) || d` for a query parameter that may be absent
   * (`parseInt(undefined)` is `NaN`); `NaN`, `0` and `-0` are falsy.
   */
  function ParseIntOr(param: Option<string>, d: int): (r: int)
    ensures d != 0 ==> r != 0
    ensures param.None? ==> r == d
  {
    match param
    case None => d
    case Some(s) =>
      match ParseInt(s)
      case Num(v) => if v != 0 then v else d
      case NaN => d
  }

  // ---- the canonical decimal rendering, for the round trip ----------------

  function DecimalDigit(d: nat): (c: char)
    requires d < 10
    ensures IsDigit(c) && DecimalValue(c) == d
  {
    '0' + d as char
  }

  function Digits(n: nat): (r: string)
    ensures |r| >= 1
    ensures forall i :: 0 <= i < |r| ==> IsDigit(r[i])
  {
    if n < 10 then [DecimalDigit(n)] else Digits(n / 10) + [DecimalDigit(n % 10)]
  }

  /** The decimal text of an integer: what a client puts in `?page=`. */
  function DecimalString(n: int): string {
    (if n < 0 then "-" else "") + Digits(if n < 0 then -n else n)
  }

  lemma {:induction false} DigitsRoundTrip(n: nat)
    ensures DigitsValue(Digits(n), false) == n
  {
    if n >= 10 {
      var s := Digits(n);
      assert s[..|s| - 1] == Digits(n / 10);
      DigitsRoundTrip(n / 10);
    }
  }

  lemma {:induction false} DigitPrefixAll(s: string, hex: bool)
    requires forall i :: 0 <= i < |s| ==> IsRadixDigit(s[i], hex)
    ensures DigitPrefix(s, hex) == s
  {
    if s != [] {
      DigitPrefixAll(s[1..], hex);
    }
  }

  lemma ParseUnsignedDigits(n: nat)
    ensures ParseUnsigned(Digits(n)) == Num(n)
  {
    var d := Digits(n);
    DigitPrefixAll(d, false);
    DigitsRoundTrip(n);
    assert !(|d| >= 2 && d[0] == '0' && (d[1] == 'x' || d[1] == 'X')) by {
      if |d| >= 2 { assert IsDigit(d[1]); }
    }
  }

  /** `parseInt` reads back the decimal text of every integer. */
  lemma ParseIntDecimal(n: int)
    ensures ParseInt(DecimalString(n)) == Num(n)
  {
    var m := if n < 0 then -n else n;
    var d := Digits(m);
    var s := DecimalString(n);
    assert !IsSpace(s[0]);
    assert TrimStart(s) == s;
    ParseUnsignedDigits(m);
    if n < 0 {
      assert s[1..] == d;
    } else {
      assert s == d;
    }
  }

  /** A page or limit given as decimal text passes through, except `0`, which falls back. */
  lemma ParseIntOrDecimal(n: int, d: int)
    ensures ParseIntOr(Some(DecimalString(n)), d) == if n == 0 then d else n
  {
    ParseIntDecimal(n);
  }

  /**
   * Text with no decimal digit in it falls back to the default. Letters such as `abc`
   * or `f` are not digits in base 10, and base 16 needs a leading `0x`, whose `0` is one.
   */
  lemma ParseIntOrNoDigits(s: string, d: int)
    requires forall i :: 0 <= i < |s| ==> !IsDigit(s[i])
    ensures ParseIntOr(Some(s), d) == d
  {
    var t := TrimStart(s);
    TrimStartSuffix(s);
    assert forall i :: 0 <= i < |t| ==> !IsDigit(t[i]);
    var u := if t != [] && (t[0] == '-' || t[0] == '+') then t[1..] else t;
    assert forall i :: 0 <= i < |u| ==> !IsDigit(u[i]);
    assert u == [] || !IsDigit(u[0]);
    assert ParseUnsigned(u) == NaN;
  }
}

=== FILE: pagination.dfy ===
/**
 * Pagination arithmetic shared by the post and user listings:
 * `skip = (page - 1) * limit`, `pages = Math.ceil(total / limit)`,
 * `hasNext = page < pages`, `hasPrev = page > 1`.
 */
module Pagination {
  import opened Wrappers
  import opened Errors
  import opened JsNumber
  import opened Collections

  function Skip(page: int, limit: int): int {
    (page - 1) * limit
  }

  function Abs(x: int): nat { if x < 0 then -x else x }

  function Min(a: int, b: int): int { if a <= b then a else b }

  /** `Math.ceil(total / limit)`; the callers never pass a zero limit. */
  function Pages(total: nat, limit: int): (r: int)
    requires limit != 0
    ensures limit > 0 ==> r >= 0 && (total == 0 <==> r == 0)
    ensures limit < 0 ==> r <= 0
  {
    CeilDiv(total, limit)
  }

  /** The `pagination` object of a list response. */
  datatype PageInfo = PageInfo(page: int, limit: int, total: nat, pages: int, hasNext: bool, hasPrev: bool)

  /**
   * With a positive limit and `pages` computed from `total`, `hasNext` says that items lie
   * beyond this page and `hasPrev` that items lie before it.
   */
  function Meta(page: int, limit: int, total: nat, pages: int): (r: PageInfo)
    ensures r.hasNext <==> page < pages
    ensures r.hasPrev <==> page > 1
    ensures r.page == page && r.limit == limit && r.total == total && r.pages == pages
    ensures limit > 0 && page >= 1 && pages == Pages(total, limit) ==> (r.hasNext <==> Skip(page + 1, limit) < total)
    ensures limit > 0 ==> (r.hasPrev <==> Skip(page, limit) > 0)
  {
    FlagsMeaning(page, limit, total, pages);
    PageInfo(page, limit, total, pages, page < pages, page > 1)
  }

  lemma FlagsMeaning(page: int, limit: int, total: nat, pages: int)
    ensures limit > 0 && page >= 1 && pages == Pages(total, limit) ==> (page < pages <==> Skip(page + 1, limit) < total)
    ensures limit > 0 ==> (page > 1 <==> Skip(page, limit) > 0)
  {
    if limit > 0 {
      SkipPositive(page, limit);
      if page >= 1 && pages == Pages(total, limit) {
        HasNextIffMoreItems(page, limit, total);
      }
    }
  }

  /** With a positive limit, some items are skipped exactly from the second page on. */
  lemma SkipPositive(page: int, limit: int)
    requires limit > 0
    ensures Skip(page, limit) > 0 <==> page > 1
  {
    if page > 1 {
      MulMono(1, page - 1, limit);
    } else {
      MulMono(page - 1, 0, limit);
    }
  }

  /**
   * `.skip(skip).limit(limit)` on a cursor over `items`. The database refuses a
   * negative skip; a negative limit returns `|limit|` documents in a single batch.
   */
  function Window<T>(items: seq<T>, page: int, limit: int): (r: Result<seq<T>, Error>)
    requires limit != 0
    ensures r.Err? <==> Skip(page, limit) < 0
    ensures r.Ok? ==> |r.value| <= Abs(limit)
    ensures r.Ok? ==> r.value == [] || Skip(page, limit) + |r.value| <= |items|
    ensures r.Ok? ==> forall i :: 0 <= i < |r.value| ==> r.value[i] == items[Skip(page, limit) + i]
    ensures r.Ok? && Skip(page, limit) + Abs(limit) <= |items| ==> |r.value| == Abs(limit)
    ensures r.Ok? ==> |r.value| == if Skip(page, limit) >= |items| then 0 else Min(Abs(limit), |items| - Skip(page, limit))
  {
    var skip := Skip(page, limit);
    if skip < 0 then Err(QueryRejected("skip value must be non-negative"))
    else
      var from := if skip < |items| then skip else |items|;
      var to := if from + Abs(limit) < |items| then from + Abs(limit) else |items|;
      Ok(items[from..to])
  }

  lemma MulMono(a: int, b: int, c: int)
    requires a <= b && c > 0
    ensures a * c <= b * c
  {
  }

  /** With a positive limit, a next page exists exactly when the items do not end on this page. */
  lemma HasNextIffMoreItems(page: int, limit: int, total: nat)
    requires limit > 0 && page >= 1
    ensures page < Pages(total, limit) <==> Skip(page + 1, limit) < total
  {
    var r := Pages(total, limit);
    assert (r - 1) * limit < total <= r * limit;
    assert Skip(page + 1, limit) == page * limit;
    if page < r {
      MulMono(page, r - 1, limit);
    } else {
      MulMono(r, page, limit);
    }
  }

  /** With a positive limit, item `k` lies on page `k / limit + 1`, and that page is in `1..pages`. */
  lemma {:induction false} PageOfItem(k: nat, limit: int, total: nat)
    requires limit > 0 && k < total
    ensures var p := k / limit + 1;
      1 <= p <= Pages(total, limit) && Skip(p, limit) <= k < Skip(p, limit) + limit
  {
    var p := k / limit + 1;
    var r := Pages(total, limit);
    assert Skip(p, limit) == (k / limit) * limit;
    assert (r - 1) * limit < total <= r * limit;
    if p > r {
      MulMono(r, p - 1, limit);
      assert false;
    }
  }

  /** The page of item `k`, with a positive limit. */
  lemma PageFor(k: nat, limit: int, total: nat) returns (page: int)
    requires limit > 0 && k < total
    ensures 1 <= page <= Pages(total, limit) && 0 <= Skip(page, limit) <= k < Skip(page, limit) + limit
  {
    PageOfItem(k, limit, total);
    page := k / limit + 1;
    MulMono(0, page - 1, limit);
  }

  /** No other page holds item `k`: pages do not overlap. */
  lemma {:induction false} PageOfItemUnique(k: nat, limit: int, q: int)
    requires limit > 0 && Skip(q, limit) <= k < Skip(q, limit) + limit
    ensures q == k / limit + 1
  {
    var p := k / limit + 1;
    assert Skip(p, limit) == (k / limit) * limit;
    if q < p {
      MulMono(q, p - 1, limit);
      assert false;
    } else if q > p {
      MulMono(p, q - 1, limit);
      assert false;
    }
  }

  /** The page whose skip reaches up to item `k` holds it. */
  lemma WindowHolds<T>(items: seq<T>, page: int, limit: int, k: nat)
    requires limit > 0 && k < |items| && 0 <= Skip(page, limit) <= k < Skip(page, limit) + limit
    ensures Window(items, page, limit).Ok? && items[k] in Window(items, page, limit).value
  {
    var w := Window(items, page, limit).value;
    assert w[k - Skip(page, limit)] == items[k];
  }

  /** Over items without repeats, no item is on two different pages. */
  lemma WindowsDisjoint<T>(items: seq<T>, p1: int, p2: int, limit: int, x: T)
    requires limit > 0 && Distinct(items)
    requires Window(items, p1, limit).Ok? && x in Window(items, p1, limit).value
    requires Window(items, p2, limit).Ok? && x in Window(items, p2, limit).value
    ensures p1 == p2
  {
    var w1, w2 := Window(items, p1, limit).value, Window(items, p2, limit).value;
    var i1 :| 0 <= i1 < |w1| && w1[i1] == x;
    var i2 :| 0 <= i2 < |w2| && w2[i2] == x;
    var k1, k2 := Skip(p1, limit) + i1, Skip(p2, limit) + i2;
    assert items[k1] == x && items[k2] == x;
    assert k1 == k2;
    PageOfItemUnique(k1, limit, p1);
    PageOfItemUnique(k1, limit, p2);
  }

  lemma HeadIn<T>(s: seq<T>)
    ensures s != [] ==> s[0] in s
  {
  }

  /**
   * Two listings of the same items without repeats, both ordered by `le` and with no two
   * items tied under it, are the same listing: a sort on a key without ties leaves the
   * database no choice.
   */
  lemma {:induction false} OrderedListingUnique<T>(a: seq<T>, b: seq<T>, le: (T, T) -> bool)
    requires Distinct(a) && Distinct(b)
    requires forall x :: x in a <==> x in b
    requires forall i, j :: 0 <= i < j < |a| ==> le(a[i], a[j])
    requires forall i, j :: 0 <= i < j < |b| ==> le(b[i], b[j])
    requires forall i, j :: 0 <= i < j < |a| ==> !le(a[j], a[i])
    ensures a == b
  {
    if a == [] {
      HeadIn(b);
    } else {
      assert a[0] in b;
      var m :| 0 <= m < |b| && b[m] == a[0];
      assert b[0] in a;
      var n :| 0 <= n < |a| && a[n] == b[0];
      if m != 0 {
        assert false;
      }
      var a', b' := a[1..], b[1..];
      forall x ensures x in a' <==> x in b' {
        if x in a' {
          var i :| 0 <= i < |a'| && a'[i] == x;
          assert a[i + 1] == x && x != a[0];
          assert x in b;
          var j :| 0 <= j < |b| && b[j] == x;
          assert j != 0;
          assert b'[j - 1] == x;
        }
        if x in b' {
          var j :| 0 <= j < |b'| && b'[j] == x;
          assert b[j + 1] == x && x != b[0];
          assert x in a;
          var i :| 0 <= i < |a| && a[i] == x;
          assert i != 0;
          assert a'[i - 1] == x;
        }
      }
      forall i, j | 0 <= i < j < |a'| ensures a'[i] != a'[j] && le(a'[i], a'[j]) && !le(a'[j], a'[i]) {
        assert a'[i] == a[i + 1] && a'[j] == a[j + 1];
      }
      forall i, j | 0 <= i < j < |b'| ensures b'[i] != b'[j] && le(b'[i], b'[j]) {
        assert b'[i] == b[i + 1] && b'[j] == b[j + 1];
      }
      OrderedListingUnique(a', b', le);
      assert a == [a[0]] + a' && b == [b[0]] + b';
    }
  }
}

=== FILE: post_controller.dfy ===
/**
 * `PostController`: the post routes. Each handler looks the post up, answers 404 when it
 * is missing, checks who may change it, and hands the write to the repository. The
 * requester is the principal `authenticate` attached; the database's order of all posts
 * and full-text matching are parameters, as in the repository's listing.
 */
module PostController {
  import opened Wrappers
  import opened Errors
  import opened Text
  import opened JsNumber
  import opened PostModel
  import opened PostRepository
  import opened PostQuery
  import opened Pagination
  import UserModel
  import Slug
  import AuthMiddleware

  type Principal = AuthMiddleware.Principal

  const PostNotFound := AppError(StatusNotFound, "Post not found")
  const NotAllowedToUpdate := AppError(StatusForbidden, "Not authorized to update this post")
  const NotAllowedToDelete := AppError(StatusForbidden, "Not authorized to delete this post")

  // ---- who may change a post ------------------------------------------------

  /** The two kinds of value on either side of the ownership test. */
  datatype JsValue = JsString(text: string) | JsObjectId(id: UserId)

  /** `===`: values of different kinds are never strictly equal. */
  predicate StrictEquals(a: JsValue, b: JsValue) {
    a == b
  }

  /**
   * The ownership test as the handlers write it: the populated author's id turned into a
   * string, against `req.user._id`, which is still an ObjectId.
   */
  function CanModifyAsWritten(author: UserId, me: Principal): (r: bool)
    ensures r <==> me.role == UserModel.AdminRole
  {
    !(!StrictEquals(JsString(DecimalString(author)), JsObjectId(me.id)) && me.role != UserModel.AdminRole)
  }

  /** As written, an author who is not an admin is refused their own post. */
  lemma AuthorRefusedAsWritten(author: UserId)
    ensures !CanModifyAsWritten(author, AuthMiddleware.Principal(author, UserModel.UserRole))
    ensures CanModify(author, AuthMiddleware.Principal(author, UserModel.UserRole))
  {
  }

  /** The test the comment beside it describes: the author, or an admin. */
  function CanModify(author: UserId, me: Principal): (r: bool)
  {
    author == me.id || me.role == UserModel.AdminRole
  }

  /** The corrected test allows everything the written one does, and differs from it only for authors. */
  lemma CanModifyExtendsAsWritten(author: UserId, me: Principal)
    ensures CanModifyAsWritten(author, me) ==> CanModify(author, me)
    ensures CanModify(author, me) != CanModifyAsWritten(author, me) <==>
      author == me.id && me.role != UserModel.AdminRole
  {
  }

  // ---- listing --------------------------------------------------------------

  /** The query string of `GET /posts`; `author` has already been cast to an id. */
  datatype ListQuery = ListQuery(
    q: Option<string>,
    category: Option<string>,
    tag: Option<string>,
    author: Option<UserId>,
    status: Option<string>,
    dateFrom: Option<string>,
    dateTo: Option<string>,
    sortBy: Option<string>,
    sortOrder: Option<string>,
    page: Option<string>,
    limit: Option<string>)

  /** The query string of `GET /posts/my`. */
  datatype PageQuery = PageQuery(sortBy: Option<string>, sortOrder: Option<string>, page: Option<string>, limit: Option<string>)

  /** `value || fallback` on a query parameter. */
  function OrElse(v: Option<string>, fallback: string): (r: Option<string>)
    ensures r.Some?
    ensures Truthy(v) ==> r == v
    ensures !Truthy(v) ==> r == Some(fallback)
  {
    if Truthy(v) then v else Some(fallback)
  }

  /**
   * `new Date(value)` of a truthy date parameter is a valid date. Reading a date is the
   * parameter `parseDate`, which gives `None` for an Invalid Date.
   */
  predicate DateOk(v: Option<string>, parseDate: string -> Option<int>) {
    Truthy(v) ==> parseDate(v.value).Some?
  }

  /** Both date parameters of a listing are absent, empty or valid dates. */
  predicate DatesOk(q: ListQuery, parseDate: string -> Option<int>) {
    DateOk(q.dateFrom, parseDate) && DateOk(q.dateTo, parseDate)
  }

  /** `value ? new Date(value) : undefined` for a value that is not an Invalid Date. */
  function DateParam(v: Option<string>, parseDate: string -> Option<int>): (r: Option<int>)
    requires DateOk(v, parseDate)
    ensures r.Some? <==> Truthy(v)
    ensures r.Some? ==> parseDate(v.value) == r
  {
    if Truthy(v) then parseDate(v.value) else None
  }

  /** The sort `getAll` asks for: `sortBy || 'createdAt'`, descending unless `sortOrder` says otherwise. */
  function ListSort(q: ListQuery): SortKey {
    SortKeyOf(OrElse(q.sortBy, "createdAt").value)
  }

  function ListDesc(q: ListQuery): bool {
    OrElse(q.sortOrder, "desc").value == "desc"
  }

  /** The `createdAt` path a date filter is cast into. */
  const CreatedAtCast := CastError("createdAt")

  /**
   * The filters `getAll` builds: the defaults applied to sort, order, page and limit.
   * An Invalid Date is put into `createdAt.$gte` or `$lte` by `findAll`, and Mongoose
   * refuses to cast it there, so both of its queries reject; `findAll` writes nothing
   * before them, so the failure is taken here.
   */
  function ListFilters(q: ListQuery, parseDate: string -> Option<int>): (r: Result<SearchFilters, Error>)
    ensures r.Err? <==> !DatesOk(q, parseDate)
    ensures r.Err? ==> r.error == CreatedAtCast
    ensures r.Ok? ==> var f := r.value;
      && f.query == q.q && f.category == q.category && f.tag == q.tag
      && f.author == q.author && f.status == q.status
      && (f.dateFrom.Some? <==> Truthy(q.dateFrom))
      && (f.dateTo.Some? <==> Truthy(q.dateTo))
      && (f.dateFrom.Some? ==> parseDate(q.dateFrom.value) == f.dateFrom)
      && (f.dateTo.Some? ==> parseDate(q.dateTo.value) == f.dateTo)
      && f.sortBy.Some? && f.sortOrder.Some? && f.page.Some? && f.limit.Some?
      && SortOf(f) == ListSort(q) && DescOf(f) == ListDesc(q)
      && f.page.value != 0 && f.limit.value != 0
      && (q.page.None? ==> f.page == Some(1))
      && (q.limit.None? ==> f.limit == Some(10))
  {
    if !DatesOk(q, parseDate) then Err(CreatedAtCast)
    else Ok(SearchFilters(
      query := q.q,
      category := q.category,
      tag := q.tag,
      author := q.author,
      status := q.status,
      dateFrom := DateParam(q.dateFrom, parseDate),
      dateTo := DateParam(q.dateTo, parseDate),
      sortBy := OrElse(q.sortBy, "createdAt"),
      sortOrder := OrElse(q.sortOrder, "desc"),
      page := Some(ParseIntOr(q.page, 1)),
      limit := Some(ParseIntOr(q.limit, 10))))
  }

  /** The filters `getMyPosts` builds: the requester as author and nothing else. */
  function MyFilters(me: Principal, q: PageQuery): (f: SearchFilters)
    ensures f.author == Some(me.id) && f.status.None?
    ensures f.query.None? && f.category.None? && f.tag.None? && f.dateFrom.None? && f.dateTo.None?
    ensures f.page.Some? && f.limit.Some? && f.limit.value != 0
  {
    SearchFilters(
      query := None, category := None, tag := None,
      author := Some(me.id), status := None, dateFrom := None, dateTo := None,
      sortBy := OrElse(q.sortBy, "createdAt"),
      sortOrder := OrElse(q.sortOrder, "desc"),
      page := Some(ParseIntOr(q.page, 1)),
      limit := Some(ParseIntOr(q.limit, 10)))
  }

  /** The `data` of a list response: the page of posts and its `pagination` object. */
  datatype ListData = ListData(posts: seq<PostId>, pagination: PageInfo)

  /** The shared tail of `getAll` and `getMyPosts`: the listing and its pagination object. */
  function List(s: Store, f: SearchFilters, ordered: seq<PostId>, textMatch: (Post, string) -> bool)
    : (r: Result<Reply<ListData>, Error>)
    requires Enumerates(ordered, s.posts) && SortedBy(ordered, s.posts, SortOf(f), DescOf(f))
    requires f.page.Some? && f.limit.Some? && f.limit.value != 0
    ensures r.Err? <==> Skip(f.page.value, f.limit.value) < 0
    ensures r.Ok? ==> var d := r.value.data;
      && r.value.status == StatusOk
      && d.pagination.page == f.page.value && d.pagination.limit == f.limit.value
      && d.pagination.total == |MatchingIds(s.posts, BuildCriteria(s, f), textMatch)|
      && d.pagination.pages == Pages(d.pagination.total, f.limit.value)
      && (d.pagination.hasNext <==> f.page.value < d.pagination.pages)
      && (d.pagination.hasPrev <==> f.page.value > 1)
      && |d.posts| <= Abs(f.limit.value)
      && forall x :: x in d.posts ==> x in MatchingIds(s.posts, BuildCriteria(s, f), textMatch)
    ensures r.Ok? ==> r.value.data.posts == Window(Select(ordered, s.posts, BuildCriteria(s, f), textMatch), f.page.value, f.limit.value).value
    ensures r.Ok? && f.limit.value > 0 && f.page.value >= 1 ==>
      (r.value.data.pagination.hasNext <==> Skip(f.page.value + 1, f.limit.value) < r.value.data.pagination.total)
  {
    match FindAll(s, f, ordered, textMatch)
    case Err(e) => Err(e)
    case Ok(l) =>
      Ok(Reply(StatusOk, "", ListData(l.ids, Meta(f.page.value, f.limit.value, l.total, l.pages))))
  }

  /** Every listed post is stored and matches the filter. */
  lemma ListedMatch(s: Store, f: SearchFilters, ordered: seq<PostId>, textMatch: (Post, string) -> bool)
    requires Enumerates(ordered, s.posts) && SortedBy(ordered, s.posts, SortOf(f), DescOf(f))
    requires f.page.Some? && f.limit.Some? && f.limit.value != 0
    ensures var r := List(s, f, ordered, textMatch);
      r.Ok? ==> forall x :: x in r.value.data.posts ==> x in s.posts && Matches(s.posts[x], BuildCriteria(s, f), textMatch)
  {
  }

  /**
   * `getAll`: the public listing. A truthy date parameter that is not a date makes the
   * request fail with Mongoose's `CastError`; otherwise only a negative skip fails it.
   */
  function GetAll(s: Store, q: ListQuery, parseDate: string -> Option<int>, ordered: seq<PostId>,
                  textMatch: (Post, string) -> bool): (r: Result<Reply<ListData>, Error>)
    requires Enumerates(ordered, s.posts)
    requires SortedBy(ordered, s.posts, ListSort(q), ListDesc(q))
    ensures !DatesOk(q, parseDate) ==> r == Err(CreatedAtCast)
    ensures r.Err? <==> !DatesOk(q, parseDate) || Skip(ParseIntOr(q.page, 1), ParseIntOr(q.limit, 10)) < 0
    ensures q.page.None? && DatesOk(q, parseDate) ==> r.Ok?
    ensures r.Ok? ==> forall x :: x in r.value.data.posts ==>
      && x in s.posts && (q.status.None? ==> s.posts[x].status == Published)
      && (q.author.Some? ==> s.posts[x].author == q.author.value)
      && (Truthy(q.dateFrom) ==> parseDate(q.dateFrom.value).value <= s.posts[x].createdAt)
      && (Truthy(q.dateTo) ==> s.posts[x].createdAt <= parseDate(q.dateTo.value).value)
    ensures r.Ok? ==> ListFilters(q, parseDate).Ok?
    ensures r.Ok? ==> var c := BuildCriteria(s, ListFilters(q, parseDate).value);
      r.value.data.posts == Window(Select(ordered, s.posts, c, textMatch), ParseIntOr(q.page, 1), ParseIntOr(q.limit, 10)).value
  {
    match ListFilters(q, parseDate)
    case Err(e) => Err(e)
    case Ok(f) =>
      assert q.page.None? ==> Skip(PageOf(f), LimitOf(f)) == 0;
      assert PageOf(f) == f.page.value == ParseIntOr(q.page, 1) && LimitOf(f) == f.limit.value == ParseIntOr(q.limit, 10);
      ListedMatch(s, f, ordered, textMatch);
      List(s, f, ordered, textMatch)
  }

  /** `getMyPosts`: the requester's own posts; with no status filter, only the published ones. */
  function GetMyPosts(s: Store, me: Principal, q: PageQuery, ordered: seq<PostId>,
                      textMatch: (Post, string) -> bool): (r: Result<Reply<ListData>, Error>)
    requires Enumerates(ordered, s.posts)
    requires SortedBy(ordered, s.posts, SortOf(MyFilters(me, q)), DescOf(MyFilters(me, q)))
    ensures q.page.None? ==> r.Ok?
    ensures r.Ok? ==> forall x :: x in r.value.data.posts ==>
      x in s.posts && s.posts[x].author == me.id && s.posts[x].status == Published
    ensures r.Err? <==> var f := MyFilters(me, q); Skip(PageOf(f), LimitOf(f)) < 0
    ensures r.Ok? ==> var f := MyFilters(me, q);
      r.value.data.posts == Window(Select(ordered, s.posts, BuildCriteria(s, f), textMatch), PageOf(f), LimitOf(f)).value
  {
    var f := MyFilters(me, q);
    assert q.page.None? ==> Skip(PageOf(f), LimitOf(f)) == 0;
    assert PageOf(f) == f.page.value && LimitOf(f) == f.limit.value;
    ListedMatch(s, f, ordered, textMatch);
    List(s, f, ordered, textMatch)
  }

  /** `getMyPosts` is the public listing restricted to the requester, with the same paging and order. */
  lemma MyPostsIsAuthorListing(s: Store, me: Principal, q: PageQuery, parseDate: string -> Option<int>,
                               ordered: seq<PostId>, textMatch: (Post, string) -> bool)
    requires Enumerates(ordered, s.posts)
    requires SortedBy(ordered, s.posts, SortOf(MyFilters(me, q)), DescOf(MyFilters(me, q)))
    ensures var all := ListQuery(None, None, None, Some(me.id), None, None, None, q.sortBy, q.sortOrder, q.page, q.limit);
      GetMyPosts(s, me, q, ordered, textMatch) == GetAll(s, all, parseDate, ordered, textMatch)
  {
    var all := ListQuery(None, None, None, Some(me.id), None, None, None, q.sortBy, q.sortOrder, q.page, q.limit);
    assert ListFilters(all, parseDate) == Ok(MyFilters(me, q));
  }

  // ---- reading one post -----------------------------------------------------

  /** `getById`: the post as it was read, then one more view recorded. */
  function GetById(s: Store, pid: PostId, now: nat): (r: Outcome<Reply<Post>>)
    requires Valid(s)
    ensures Valid(r.store)
    ensures r.result.Err? <==> pid !in s.posts
    ensures r.result.Err? ==> r.result.error == PostNotFound && r.store == s
    ensures r.result.Ok? ==>
      && r.result.value.status == StatusOk && r.result.value.data == s.posts[pid]
      && r.store.posts.Keys == s.posts.Keys && pid in r.store.posts
      && r.store.posts[pid].viewCount == r.result.value.data.viewCount + 1
      && r.store.posts[pid].likeCount == s.posts[pid].likeCount
      && forall q :: q in s.posts && q != pid ==> r.store.posts[q] == s.posts[q]
  {
    match FindById(s, pid)
    case None => Outcome(s, Err(PostNotFound))
    case Some(p) => Outcome(Bump(s, pid, Views, 1, now), Ok(Reply(StatusOk, "", p)))
  }

  /** `getBySlug`: the slug goes through the path's `lowercase` and `trim` setters before the lookup. */
  function GetBySlug(s: Store, slug: string, now: nat): (r: Outcome<Reply<Post>>)
    requires Valid(s)
    ensures Valid(r.store)
    ensures r.result.Err? <==> forall pid :: pid in s.posts ==> s.posts[pid].slug != SlugQuery(slug)
    ensures r.result.Err? ==> r.result.error == PostNotFound && r.store == s
    ensures r.result.Ok? ==> r.result.value.data.slug == SlugQuery(slug)
  {
    FindPostBySlugExact(s, SlugQuery(slug));
    match FindPostBySlug(s, SlugQuery(slug))
    case None => Outcome(s, Err(PostNotFound))
    case Some(pid) => GetById(s, pid, now)
  }

  /** Reading a post by its slug is reading it by its id. */
  lemma GetBySlugIsGetById(s: Store, pid: PostId, slug: string, now: nat)
    requires Valid(s) && pid in s.posts && s.posts[pid].slug == SlugQuery(slug)
    ensures GetBySlug(s, slug, now) == GetById(s, pid, now)
  {
    FindPostBySlugExact(s, SlugQuery(slug));
  }

  // ---- writes ---------------------------------------------------------------

  /** `create`: the requester becomes the author; 201 with the stored post. */
  function CreatePost(s: Store, me: Principal, dto: CreatePostDto, now: nat): (r: Outcome<Reply<Post>>)
    requires Valid(s)
    ensures Valid(r.store)
    ensures r.result.Err? ==> r.store.posts == s.posts
    ensures r.result.Ok? ==>
      && r.result.value.status == StatusCreated && r.result.value.message == "Post created successfully"
      && s.nextPostId !in s.posts && r.store.posts == s.posts[s.nextPostId := r.result.value.data]
      && r.result.value.data.author == me.id && r.result.value.data.title == Trim(dto.title)
    ensures r.result.Ok? <==>
      && LabelsResolve(s, Some(dto.categories.GetOr([])), Some(dto.tags.GetOr([])))
      && DocumentErrors(NewPost(dto, me.id, [], [], now)) == []
      && FindPostBySlug(s, Slug.PostSlug(Trim(dto.title), now)).None?
    ensures r.result.Ok? ==> var p := r.result.value.data;
      SaveNewPost(dto, me.id, p.categories, p.tags, now) == Ok(p)
  {
    var c := PostRepository.Create(s, dto, me.id, now);
    match c.result
    case Err(e) => Outcome(c.store, Err(e))
    case Ok(pid) => Outcome(c.store, Ok(Reply(StatusCreated, "Post created successfully", c.store.posts[pid])))
  }

  /** `update`: 404, then 403, then the repository's update. */
  function UpdatePost(s: Store, me: Principal, pid: PostId, u: UpdatePostDto, now: nat): (r: Outcome<Reply<Option<Post>>>)
    requires Valid(s)
    ensures Valid(r.store)
    ensures pid !in s.posts ==> r == Outcome(s, Err(PostNotFound))
    ensures pid in s.posts && !CanModify(s.posts[pid].author, me) ==> r == Outcome(s, Err(NotAllowedToUpdate))
    ensures r.store.posts != s.posts ==> r.result.Ok? && pid in s.posts && CanModify(s.posts[pid].author, me)
    ensures r.result.Ok? ==>
      && pid in s.posts && CanModify(s.posts[pid].author, me)
      && r.result.value.message == "Post updated successfully"
      && pid in r.store.posts && r.store.posts == s.posts[pid := r.store.posts[pid]]
      && r.result.value.data == Some(r.store.posts[pid])
      && r.store.posts[pid].author == s.posts[pid].author
    ensures r.result.Ok? ==> var p' := r.store.posts[pid];
      p' == ApplyUpdate(s.posts[pid], u, p'.categories, p'.tags, now)
    ensures r.result.Ok? <==>
      && pid in s.posts && CanModify(s.posts[pid].author, me)
      && LabelsResolve(s, u.categories, u.tags) && UpdateErrors(u) == []
  {
    match FindById(s, pid)
    case None => Outcome(s, Err(PostNotFound))
    case Some(p) =>
      if !CanModify(p.author, me) then Outcome(s, Err(NotAllowedToUpdate))
      else
        var o := PostRepository.Update(s, pid, u, now);
        match o.result
        case Err(e) => Outcome(o.store, Err(e))
        case Ok(updated) => Outcome(o.store, Ok(Reply(StatusOk, "Post updated successfully", updated)))
  }

  /** `delete`: 404, then 403, then the repository's delete. */
  function DeletePost(s: Store, me: Principal, pid: PostId): (r: Outcome<Reply<()>>)
    requires Valid(s)
    ensures Valid(r.store)
    ensures pid !in s.posts ==> r == Outcome(s, Err(PostNotFound))
    ensures pid in s.posts && !CanModify(s.posts[pid].author, me) ==> r == Outcome(s, Err(NotAllowedToDelete))
    ensures r.result.Ok? <==> pid in s.posts && CanModify(s.posts[pid].author, me)
    ensures r.result.Ok? ==> r.result.value.message == "Post deleted successfully" && r.store.posts == s.posts - {pid}
  {
    match FindById(s, pid)
    case None => Outcome(s, Err(PostNotFound))
    case Some(p) =>
      if !CanModify(p.author, me) then Outcome(s, Err(NotAllowedToDelete))
      else Outcome(PostRepository.Delete(s, pid).store, Ok(Reply(StatusOk, "Post deleted successfully", ())))
  }

  /** Nobody but the author or an admin can remove a post. */
  lemma OnlyOwnerOrAdminDeletes(s: Store, me: Principal, pid: PostId)
    requires Valid(s) && pid in s.posts && s.posts[pid].author != me.id && me.role != UserModel.AdminRole
    ensures DeletePost(s, me, pid).store == s
    ensures UpdatePost(s, me, pid, UpdatePostDto(None, None, None, None, None, None, None, None, None), 0).store == s
  {
  }

  /** `likePost` (`delta` 1) and `unlikePost` (`delta` -1): any signed-in user, no per-user record. */
  function Like(s: Store, pid: PostId, like: bool, now: nat): (r: Outcome<Reply<()>>)
    requires Valid(s)
    ensures Valid(r.store)
    ensures r.result.Err? <==> pid !in s.posts
    ensures r.result.Err? ==> r.result.error == PostNotFound && r.store == s
    ensures r.result.Ok? ==>
      && r.result.value.message == (if like then "Post liked successfully" else "Post unliked successfully")
      && r.store.posts.Keys == s.posts.Keys
      && r.store.posts[pid].likeCount == s.posts[pid].likeCount + (if like then 1 else -1)
      && r.store.posts[pid].viewCount == s.posts[pid].viewCount
  {
    match FindById(s, pid)
    case None => Outcome(s, Err(PostNotFound))
    case Some(_) =>
      var delta := if like then 1 else -1;
      var message := if like then "Post liked successfully" else "Post unliked successfully";
      Outcome(Bump(s, pid, Likes, delta, now), Ok(Reply(StatusOk, message, ())))
  }

  /** Nothing stops a user liking twice: each like counts. */
  lemma LikeTwiceCountsTwice(s: Store, pid: PostId, now: nat)
    requires Valid(s) && pid in s.posts
    ensures Like(Like(s, pid, true, now).store, pid, true, now).store.posts[pid].likeCount == s.posts[pid].likeCount + 2
  {
  }

  /** An unlike is not checked against an earlier like, so the count can go below zero. */
  lemma UnlikeBelowZero(s: Store, pid: PostId, now: nat)
    requires Valid(s) && pid in s.posts && s.posts[pid].likeCount == 0
    ensures Like(s, pid, false, now).store.posts[pid].likeCount == -1
  {
  }

  /** A like then an unlike of the same post restores its like count. */
  lemma LikeThenUnlikeRestores(s: Store, pid: PostId, now: nat, later: nat)
    requires Valid(s) && pid in s.posts
    ensures Like(Like(s, pid, true, now).store, pid, false, later).store.posts[pid].likeCount == s.posts[pid].likeCount
  {
  }
}

=== FILE: post_model.dfy ===
/**
 * The `Post` document: its fields and defaults, the schema validation run on
 * `save()`, and the pre-save hook that derives `slug`, `readTime`,
 * `publishedAt` and `excerpt`.
 */
module PostModel {
  import opened Wrappers
  import opened Errors
  import opened Text
  import opened Slug
  import opened JsNumber

  type UserId = nat
  type PostId = nat
  type CategoryId = nat
  type TagId = nat

  datatype Status = Draft | Published | Archived

  function StatusName(s: Status): string {
    match s
    case Draft => "draft"
    case Published => "published"
    case Archived => "archived"
  }

  datatype Seo = Seo(metaTitle: Option<string>, metaDescription: Option<string>, keywords: seq<string>)

  const NoSeo := Seo(None, None, [])

  /** Times are milliseconds since the epoch. */
  datatype Post = Post(
    title: string,
    slug: string,
    content: string,
    excerpt: Option<string>,
    featuredImage: Option<string>,
    author: UserId,
    categories: seq<CategoryId>,
    tags: seq<TagId>,
    status: Status,
    isPublic: bool,
    viewCount: int,
    likeCount: int,
    commentCount: int,
    readTime: int,
    seo: Seo,
    publishedAt: Option<int>,
    createdAt: int,
    updatedAt: int)

  const TitleMax: nat := 200
  const ExcerptMax: nat := 500
  const MetaTitleMax: nat := 60
  const MetaDescriptionMax: nat := 160
  const WordsPerMinute: nat := 200
  const ExcerptLength: nat := 150

  // ---- read time ------------------------------------------------------------

  /** `s.split(/\s+/)`: the pieces between maximal runs of white space (empty pieces included). */
  function SplitOnSpaceRuns(s: string): (r: seq<string>)
    ensures |r| >= 1
    ensures forall k :: 0 <= k < |r| ==> NoSpace(r[k])
  {
    if s == [] then [""]
    else
      var rest := SplitOnSpaceRuns(s[1..]);
      if !IsSpace(s[0]) then [[s[0]] + rest[0]] + rest[1..]
      else if |s| > 1 && IsSpace(s[1]) then rest
      else [""] + rest
  }

  /** The number of maximal runs of white space in `s`. */
  function SpaceRuns(s: string): nat {
    if s == [] then 0
    else (if IsSpace(s[0]) && !(|s| > 1 && IsSpace(s[1])) then 1 else 0) + SpaceRuns(s[1..])
  }

  function Concat(pieces: seq<string>): string {
    if pieces == [] then [] else pieces[0] + Concat(pieces[1..])
  }

  function NonSpace(s: string): string {
    if s == [] then [] else (if IsSpace(s[0]) then [] else [s[0]]) + NonSpace(s[1..])
  }

  /** Splitting yields one piece more than there are white-space runs, and loses only white space. */
  lemma {:induction false} SplitPieces(s: string)
    ensures |SplitOnSpaceRuns(s)| == 1 + SpaceRuns(s)
    ensures Concat(SplitOnSpaceRuns(s)) == NonSpace(s)
  {
    if s != [] {
      SplitPieces(s[1..]);
      var rest := SplitOnSpaceRuns(s[1..]);
      assert rest == [rest[0]] + rest[1..];
      assert Concat(rest) == rest[0] + Concat(rest[1..]);
      if !IsSpace(s[0]) {
        var r := [[s[0]] + rest[0]] + rest[1..];
        assert r[1..] == rest[1..];
        assert Concat(r) == [s[0]] + rest[0] + Concat(rest[1..]);
      } else if |s| > 1 && IsSpace(s[1]) {
      } else {
        assert ([""] + rest)[1..] == rest;
      }
    }
  }

  function WordCount(content: string): nat {
    |SplitOnSpaceRuns(content)|
  }

  /** `Math.ceil(wordCount / 200)`. */
  function ReadTime(content: string): int {
    CeilDiv(WordCount(content), WordsPerMinute)
  }

  /** The read time is the least whole number of minutes covering the words, and at least 1. */
  lemma ReadTimeBounds(content: string)
    ensures ReadTime(content) >= 1
    ensures (ReadTime(content) - 1) * WordsPerMinute < WordCount(content) <= ReadTime(content) * WordsPerMinute
  {
  }

  // ---- excerpt --------------------------------------------------------------

  function FirstIndex(s: string, c: char): (i: nat)
    requires c in s
    ensures i < |s| && s[i] == c && c !in s[..i]
  {
    if s[0] == c then 0 else 1 + FirstIndex(s[1..], c)
  }

  /** No `<` is followed, anywhere later, by a `>`: the text holds no tag. */
  predicate NoTags(s: string) {
    forall i, j :: 0 <= i < j < |s| && s[i] == '<' ==> s[j] != '>'
  }

  /** `replace(/<[^>]*>/g, '')`: each `<` up to the next `>` is removed; a `<` with no `>` after it stays. */
  function StripTags(s: string): (r: string)
    ensures |r| <= |s|
    ensures forall i :: 0 <= i < |r| ==> r[i] in s
    ensures NoTags(r)
    ensures '<' !in s ==> r == s
    decreases |s|
  {
    if s == [] then []
    else if s[0] == '<' && '>' in s[1..] then
      var rest := s[1..];
      StripTags(rest[FirstIndex(rest, '>') + 1..])
    else
      [s[0]] + StripTags(s[1..])
  }

  /** Text without tags is left alone, so stripping twice is stripping once. */
  lemma {:induction false} StripTagsIdempotent(s: string)
    requires NoTags(s)
    ensures StripTags(s) == s
  {
    if s != [] {
      var rest := s[1..];
      if s[0] == '<' {
        assert '>' !in rest by {
          forall j | 0 <= j < |rest| ensures rest[j] != '>' {
            assert rest[j] == s[j + 1];
          }
        }
      }
      assert NoTags(rest) by {
        forall i, j | 0 <= i < j < |rest| && rest[i] == '<' ensures rest[j] != '>' {
          assert rest[i] == s[i + 1] && rest[j] == s[j + 1];
        }
      }
      StripTagsIdempotent(rest);
      assert StripTags(s) == [s[0]] + StripTags(rest);
      assert [s[0]] + rest == s;
    }
  }

  /** The excerpt generated from `content`: 150 characters of the tag-free text, plus `...` when cut. */
  function Excerpt(content: string): string {
    var plain := StripTags(content);
    Take(plain, ExcerptLength) + (if |plain| > ExcerptLength then "..." else "")
  }

  /**
   * A generated excerpt is the whole tag-free text when that fits in 150 characters;
   * otherwise its first 150 characters followed by `...`. Either way it is at most
   * 153 characters long, well inside the 500-character bound of the field.
   */
  lemma ExcerptShape(content: string)
    ensures var plain := StripTags(content);
      && |Excerpt(content)| <= ExcerptLength + 3 < ExcerptMax
      && (|plain| <= ExcerptLength ==> Excerpt(content) == plain)
      && (|plain| > ExcerptLength ==>
            Excerpt(content)[..ExcerptLength] == plain[..ExcerptLength] && Excerpt(content)[ExcerptLength..] == "...")
  {
    var plain := StripTags(content);
    if |plain| > ExcerptLength {
      assert |Excerpt(content)| == ExcerptLength + 3;
    }
  }

  // ---- the pre-save hook ----------------------------------------------------

  /** What the document knows about itself when `save()` runs. */
  datatype SaveContext = SaveContext(
    isNew: bool, titleModified: bool, contentModified: bool, statusModified: bool, now: nat)

  /** `!this.excerpt` is false only for a non-empty string. */
  predicate HasExcerpt(p: Post) {
    p.excerpt.Some? && p.excerpt.value != ""
  }

  function PreSave(p: Post, ctx: SaveContext): (r: Post)
    ensures r == p.(slug := r.slug, readTime := r.readTime, publishedAt := r.publishedAt, excerpt := r.excerpt)
    ensures ctx.isNew || ctx.titleModified ==> r.slug == PostSlug(p.title, ctx.now)
    ensures !ctx.isNew && !ctx.titleModified ==> r.slug == p.slug
    ensures ctx.isNew || ctx.contentModified ==> r.readTime == ReadTime(p.content) && r.readTime >= 1
    ensures !ctx.isNew && !ctx.contentModified ==> r.readTime == p.readTime
    ensures p.publishedAt.Some? ==> r.publishedAt == p.publishedAt
    ensures r.publishedAt != p.publishedAt <==> ctx.statusModified && p.status == Published && p.publishedAt.None?
    ensures r.publishedAt != p.publishedAt ==> r.publishedAt == Some(ctx.now)
    ensures HasExcerpt(p) ==> r.excerpt == p.excerpt
    ensures !HasExcerpt(p) && p.content != "" ==> r.excerpt == Some(Excerpt(p.content))
    ensures !HasExcerpt(p) && p.content == "" ==> r.excerpt == p.excerpt
  {
    ReadTimeBounds(p.content);
    var slug := if ctx.isNew || ctx.titleModified then PostSlug(p.title, ctx.now) else p.slug;
    var readTime := if ctx.isNew || ctx.contentModified then ReadTime(p.content) else p.readTime;
    var publishedAt :=
      if ctx.statusModified && p.status == Published && p.publishedAt.None? then Some(ctx.now as int)
      else p.publishedAt;
    var excerpt := if !HasExcerpt(p) && p.content != "" then Some(Excerpt(p.content)) else p.excerpt;
    p.(slug := slug, readTime := readTime, publishedAt := publishedAt, excerpt := excerpt)
  }

  /** A document saved once per context, in order. */
  function SaveAll(p: Post, ctxs: seq<SaveContext>): Post
    decreases |ctxs|
  {
    if ctxs == [] then p else SaveAll(PreSave(p, ctxs[0]), ctxs[1..])
  }

  /**
   * Once `publishedAt` is set, no later save changes it, whatever the status does
   * (published, archived, published again). A slug is kept by every save that is not
   * a first save and does not modify the title; a non-empty excerpt is never replaced.
   */
  lemma {:induction false} SavesKeepSetOnceFields(p: Post, ctxs: seq<SaveContext>)
    ensures p.publishedAt.Some? ==> SaveAll(p, ctxs).publishedAt == p.publishedAt
    ensures HasExcerpt(p) ==> SaveAll(p, ctxs).excerpt == p.excerpt
    ensures (forall k :: 0 <= k < |ctxs| ==> !ctxs[k].isNew && !ctxs[k].titleModified) ==>
      SaveAll(p, ctxs).slug == p.slug
    decreases |ctxs|
  {
    if ctxs != [] {
      SavesKeepSetOnceFields(PreSave(p, ctxs[0]), ctxs[1..]);
    }
  }

  // ---- creation -------------------------------------------------------------

  /** The body of a create request after the route's validation. */
  datatype CreatePostDto = CreatePostDto(
    title: string,
    content: string,
    excerpt: Option<string>,
    featuredImage: Option<string>,
    categories: Option<seq<string>>,
    tags: Option<seq<string>>,
    status: Option<Status>,
    isPublic: Option<bool>,
    seo: Option<Seo>)

  /**
   * `new Post({...dto, author, categories, tags})`: the document before validation and
   * hooks, with the schema's defaults and its `trim` setter on the title applied.
   */
  function NewPost(dto: CreatePostDto, author: UserId, categories: seq<CategoryId>, tags: seq<TagId>, now: nat): Post {
    Post(
      title := Trim(dto.title),
      slug := "",
      content := dto.content,
      excerpt := dto.excerpt,
      featuredImage := dto.featuredImage,
      author := author,
      categories := categories,
      tags := tags,
      status := dto.status.GetOr(Draft),
      isPublic := dto.isPublic.GetOr(true),
      viewCount := 0,
      likeCount := 0,
      commentCount := 0,
      readTime := 0,
      seo := dto.seo.GetOr(NoSeo),
      publishedAt := None,
      createdAt := now,
      updatedAt := now)
  }

  function TooLong(s: Option<string>, max: nat): bool {
    s.Some? && |s.value| > max
  }

  /** The schema validators, in path order; an empty list means the document is valid. */
  function DocumentErrors(p: Post): (errs: seq<string>)
    ensures errs == [] <==>
      && p.title != "" && |p.title| <= TitleMax && p.content != ""
      && !TooLong(p.excerpt, ExcerptMax)
      && !TooLong(p.seo.metaTitle, MetaTitleMax)
      && !TooLong(p.seo.metaDescription, MetaDescriptionMax)
  {
    (if p.title == "" then ["Title is required"] else [])
    + (if |p.title| > TitleMax then ["Title cannot exceed 200 characters"] else [])
    + (if p.content == "" then ["Content is required"] else [])
    + (if TooLong(p.excerpt, ExcerptMax) then ["Excerpt cannot exceed 500 characters"] else [])
    + (if TooLong(p.seo.metaTitle, MetaTitleMax) then ["Meta title cannot exceed 60 characters"] else [])
    + (if TooLong(p.seo.metaDescription, MetaDescriptionMax) then ["Meta description cannot exceed 160 characters"] else [])
  }

  /**
   * `post.save()` of a new document: validation runs first, then the pre-save hook
   * with every supplied path counting as modified.
   */
  function SaveNewPost(dto: CreatePostDto, author: UserId, categories: seq<CategoryId>, tags: seq<TagId>, now: nat)
    : (r: Result<Post, Error>)
    ensures r.Err? <==> DocumentErrors(NewPost(dto, author, categories, tags, now)) != []
    ensures r.Ok? ==> var p := r.value;
      && p.title == Trim(dto.title) && p.content == dto.content
      && p.author == author && p.categories == categories && p.tags == tags
      && p.slug == PostSlug(p.title, now)
      && p.readTime == ReadTime(p.content) && p.readTime >= 1
      && p.status == dto.status.GetOr(Draft)
      && p.viewCount == 0 && p.likeCount == 0 && p.commentCount == 0
      && (p.publishedAt.Some? <==> p.status == Published)
      && (p.publishedAt.Some? ==> p.publishedAt.value == now)
      && p.createdAt == now && p.updatedAt == now
      && p.excerpt == (if dto.excerpt.Some? && dto.excerpt.value != "" then dto.excerpt else Some(Excerpt(dto.content)))
      && p.featuredImage == dto.featuredImage && p.isPublic == dto.isPublic.GetOr(true)
      && p.seo == dto.seo.GetOr(NoSeo)
    ensures r.Ok? ==> DocumentErrors(r.value) == []
  {
    ExcerptShape(dto.content);
    var doc := NewPost(dto, author, categories, tags, now);
    var errs := DocumentErrors(doc);
    if errs != [] then Err(ValidationError(errs))
    else
      var ctx := SaveContext(isNew := true, titleModified := true, contentModified := true,
                             statusModified := dto.status.Some?, now := now);
      Ok(PreSave(doc, ctx))
  }

  // ---- update ---------------------------------------------------------------

  /** The body of an update request: every field may be absent. */
  datatype UpdatePostDto = UpdatePostDto(
    title: Option<string>,
    content: Option<string>,
    excerpt: Option<string>,
    featuredImage: Option<string>,
    categories: Option<seq<string>>,
    tags: Option<seq<string>>,
    status: Option<Status>,
    isPublic: Option<bool>,
    seo: Option<Seo>)

  /**
   * The validators `findByIdAndUpdate(..., { runValidators: true })` runs: only those of
   * the paths the update sets, on the values after the `trim` setter.
   */
  function UpdateErrors(u: UpdatePostDto): (errs: seq<string>)
    ensures errs == [] <==>
      && (u.title.Some? ==> Trim(u.title.value) != "" && |Trim(u.title.value)| <= TitleMax)
      && (u.content.Some? ==> u.content.value != "")
      && !TooLong(u.excerpt, ExcerptMax)
      && (u.seo.Some? ==> !TooLong(u.seo.value.metaTitle, MetaTitleMax)
                          && !TooLong(u.seo.value.metaDescription, MetaDescriptionMax))
  {
    var title := if u.title.Some? then Some(Trim(u.title.value)) else None;
    (if title.Some? && title.value == "" then ["Title is required"] else [])
    + (if TooLong(title, TitleMax) then ["Title cannot exceed 200 characters"] else [])
    + (if u.content.Some? && u.content.value == "" then ["Content is required"] else [])
    + (if TooLong(u.excerpt, ExcerptMax) then ["Excerpt cannot exceed 500 characters"] else [])
    + (if u.seo.Some? && TooLong(u.seo.value.metaTitle, MetaTitleMax) then ["Meta title cannot exceed 60 characters"] else [])
    + (if u.seo.Some? && TooLong(u.seo.value.metaDescription, MetaDescriptionMax) then ["Meta description cannot exceed 160 characters"] else [])
  }

  /**
   * The document `findByIdAndUpdate` writes: the fields the update sets (the title
   * through its `trim` setter, `seo` as a whole), the resolved ids, and `updatedAt`.
   * No save hook runs, so slug, read time, excerpt and `publishedAt` stay as they were.
   */
  function ApplyUpdate(p: Post, u: UpdatePostDto, categories: seq<CategoryId>, tags: seq<TagId>, now: nat): (r: Post)
    ensures r.slug == p.slug && r.readTime == p.readTime && r.publishedAt == p.publishedAt
    ensures r.author == p.author && r.createdAt == p.createdAt
    ensures r.viewCount == p.viewCount && r.likeCount == p.likeCount && r.commentCount == p.commentCount
    ensures r.title == (if u.title.Some? then Trim(u.title.value) else p.title)
    ensures r.content == u.content.GetOr(p.content) && r.status == u.status.GetOr(p.status)
    ensures u.excerpt.Some? ==> r.excerpt == u.excerpt
    ensures u.excerpt.None? ==> r.excerpt == p.excerpt
    ensures r.seo == u.seo.GetOr(p.seo) && r.isPublic == u.isPublic.GetOr(p.isPublic)
    ensures r.featuredImage == (if u.featuredImage.Some? then u.featuredImage else p.featuredImage)
    ensures r.categories == categories && r.tags == tags && r.updatedAt == now
  {
    p.(title := if u.title.Some? then Trim(u.title.value) else p.title,
       content := u.content.GetOr(p.content),
       excerpt := if u.excerpt.Some? then u.excerpt else p.excerpt,
       featuredImage := if u.featuredImage.Some? then u.featuredImage else p.featuredImage,
       categories := categories,
       tags := tags,
       status := u.status.GetOr(p.status),
       isPublic := u.isPublic.GetOr(p.isPublic),
       seo := u.seo.GetOr(p.seo),
       updatedAt := now)
  }

  /** An update that passes its validators keeps a valid document valid. */
  lemma UpdateKeepsDocumentValid(p: Post, u: UpdatePostDto, categories: seq<CategoryId>, tags: seq<TagId>, now: nat)
    requires DocumentErrors(p) == [] && UpdateErrors(u) == []
    ensures DocumentErrors(ApplyUpdate(p, u, categories, tags, now)) == []
  {
  }
}

=== FILE: post_query.dfy ===
/**
 * `PostRepository.findAll`: the filter built from `SearchFilters`, the sorted and
 * paginated window of matching posts, and the count of all matches.
 *
 * Full-text matching (`$text`) is the `textMatch` parameter; the order the database
 * sorts all posts into is the `ordered` parameter, constrained by the sort key.
 */
module PostQuery {
  import opened Wrappers
  import opened Errors
  import opened Text
  import opened Labels
  import opened LabelRegistry
  import opened PostModel
  import opened PostRepository
  import opened Pagination
  import opened Collections

  /**
   * The `sortBy` paths of a post document. Sorting on an array (`categories`, `tags`),
   * on the `seo` subdocument, on `_id`, or on a path no document has is `Unconstrained`.
   */
  datatype SortKey =
    | CreatedAt | UpdatedAt | ViewCount | LikeCount | CommentCount | ReadTime | Author
    | Title | SlugPath | Content | StatusPath
    | PublishedAt | Excerpt | FeaturedImage | IsPublic
    | Unconstrained

  function SortKeyOf(name: string): SortKey {
    if name == "createdAt" then CreatedAt
    else if name == "updatedAt" then UpdatedAt
    else if name == "viewCount" then ViewCount
    else if name == "likeCount" then LikeCount
    else if name == "commentCount" then CommentCount
    else if name == "readTime" then ReadTime
    else if name == "author" then Author
    else if name == "title" then Title
    else if name == "slug" then SlugPath
    else if name == "content" then Content
    else if name == "status" then StatusPath
    else if name == "publishedAt" then PublishedAt
    else if name == "excerpt" then Excerpt
    else if name == "featuredImage" then FeaturedImage
    else if name == "isPublic" then IsPublic
    else Unconstrained
  }

  /**
   * `SearchFilters` as the repository receives them; `None` is an absent property.
   * Dates are already milliseconds since the epoch.
   */
  datatype SearchFilters = SearchFilters(
    query: Option<string>,
    category: Option<string>,
    tag: Option<string>,
    author: Option<UserId>,
    status: Option<string>,
    dateFrom: Option<int>,
    dateTo: Option<int>,
    sortBy: Option<string>,
    sortOrder: Option<string>,
    page: Option<int>,
    limit: Option<int>)

  const NoFilters := SearchFilters(None, None, None, None, None, None, None, None, None, None, None)

  /** A property is used only when truthy: present and not the empty string. */
  predicate Truthy(s: Option<string>) {
    s.Some? && s.value != ""
  }

  /** The query object handed to `find` and `countDocuments`. */
  datatype Criteria = Criteria(
    status: string,
    text: Option<string>,
    category: Option<CategoryId>,
    tag: Option<TagId>,
    author: Option<UserId>,
    from: Option<int>,
    to: Option<int>)

  /** A slug in a query goes through the `lowercase` and `trim` setters of the slug path. */
  function SlugQuery(slug: string): string {
    ToLower(Trim(slug))
  }

  /** The label a truthy slug filter resolves to; an unknown slug resolves to nothing. */
  function ResolveSlug(reg: seq<Label>, slug: Option<string>): (r: Option<nat>)
    ensures r.Some? ==> Truthy(slug) && r.value < |reg| && reg[r.value].slug == SlugQuery(slug.value)
    ensures r.None? <==> !Truthy(slug) || forall j :: 0 <= j < |reg| ==> reg[j].slug != SlugQuery(slug.value)
  {
    if Truthy(slug) then FindBy(reg, SlugKey, SlugQuery(slug.value)) else None
  }

  function BuildCriteria(s: Store, f: SearchFilters): (c: Criteria)
    ensures c.status == f.status.GetOr("published")
    ensures c.text.Some? <==> Truthy(f.query)
    ensures c.text.Some? ==> c.text == f.query
    ensures c.category == ResolveSlug(s.categories, f.category)
    ensures c.tag == ResolveSlug(s.tags, f.tag)
    ensures c.author == f.author
    ensures c.from == f.dateFrom && c.to == f.dateTo
  {
    Criteria(
      status := f.status.GetOr("published"),
      text := if Truthy(f.query) then f.query else None,
      category := ResolveSlug(s.categories, f.category),
      tag := ResolveSlug(s.tags, f.tag),
      author := f.author,
      from := f.dateFrom,
      to := f.dateTo)
  }

  /** `createdAt: { $gte: from, $lte: to }`: both ends inclusive, either may be absent. */
  predicate InRange(t: int, from: Option<int>, to: Option<int>) {
    (from.Some? ==> from.value <= t) && (to.Some? ==> t <= to.value)
  }

  /** A document matches the query object when it satisfies every condition present. */
  predicate Matches(p: Post, c: Criteria, textMatch: (Post, string) -> bool) {
    && StatusName(p.status) == c.status
    && (c.text.Some? ==> textMatch(p, c.text.value))
    && (c.category.Some? ==> c.category.value in p.categories)
    && (c.tag.Some? ==> c.tag.value in p.tags)
    && (c.author.Some? ==> p.author == c.author.value)
    && InRange(p.createdAt, c.from, c.to)
  }

  /**
   * A post passes a category or tag filter when the filter is absent or empty, when no
   * label carries the queried slug, or when the post references a label that does.
   */
  predicate Labelled(refs: seq<nat>, reg: seq<Label>, slug: Option<string>) {
    (Truthy(slug) && exists j :: 0 <= j < |reg| && reg[j].slug == SlugQuery(slug.value)) ==>
      exists j :: j in refs && 0 <= j < |reg| && reg[j].slug == SlugQuery(slug.value)
  }

  /**
   * What the query object selects, stated in the filters' own terms: the status asked
   * for (published by default), the text query when it is non-empty, the category and
   * tag by slug, the author, and `createdAt` within the inclusive date range.
   */
  lemma MatchesFilters(s: Store, f: SearchFilters, p: Post, textMatch: (Post, string) -> bool)
    requires WellFormed(s.categories, CategoryKind) && WellFormed(s.tags, TagKind)
    ensures Matches(p, BuildCriteria(s, f), textMatch) <==>
      && StatusName(p.status) == f.status.GetOr("published")
      && (Truthy(f.query) ==> textMatch(p, f.query.value))
      && Labelled(p.categories, s.categories, f.category)
      && Labelled(p.tags, s.tags, f.tag)
      && (f.author.Some? ==> p.author == f.author.value)
      && InRange(p.createdAt, f.dateFrom, f.dateTo)
  {
    LabelledIffResolved(p.categories, s.categories, CategoryKind, f.category);
    LabelledIffResolved(p.tags, s.tags, TagKind, f.tag);
  }

  /** With unique slugs, referencing a label with the slug is referencing the one `findOne` returns. */
  lemma LabelledIffResolved(refs: seq<nat>, reg: seq<Label>, kind: Kind, slug: Option<string>)
    requires WellFormed(reg, kind)
    ensures Labelled(refs, reg, slug) <==> (ResolveSlug(reg, slug).Some? ==> ResolveSlug(reg, slug).value in refs)
  {
    var r := ResolveSlug(reg, slug);
    if r.Some? {
      if Labelled(refs, reg, slug) {
        var j :| j in refs && 0 <= j < |reg| && reg[j].slug == SlugQuery(slug.value);
        assert j == r.value;
      }
    }
  }

  /**
   * A category or tag slug that names no label adds no condition: the posts matched are
   * those matched with that filter left out.
   */
  lemma UnknownSlugIsNoFilter(s: Store, f: SearchFilters, p: Post, textMatch: (Post, string) -> bool)
    requires ResolveSlug(s.categories, f.category).None? && ResolveSlug(s.tags, f.tag).None?
    ensures Matches(p, BuildCriteria(s, f), textMatch) == Matches(p, BuildCriteria(s, f.(category := None, tag := None)), textMatch)
  {
  }

  /** Without a `status` filter only published posts are listed. */
  lemma DefaultStatusIsPublished(s: Store, f: SearchFilters, p: Post, textMatch: (Post, string) -> bool)
    requires f.status.None? && Matches(p, BuildCriteria(s, f), textMatch)
    ensures p.status == Published
  {
  }

  // ---- the order of the database ---------------------------------------------

  /** Code-point order on strings, which is the byte order of their UTF-8 encoding that a sort on a string path uses. */
  predicate LexLe(a: string, b: string)
    decreases |a|
  {
    a == [] || (b != [] && (a[0] < b[0] || (a[0] == b[0] && LexLe(a[1..], b[1..]))))
  }

  /** A missing value sorts before every present one. */
  predicate OptIntLe(a: Option<int>, b: Option<int>) {
    a.None? || (b.Some? && a.value <= b.value)
  }

  predicate OptTextLe(a: Option<string>, b: Option<string>) {
    a.None? || (b.Some? && LexLe(a.value, b.value))
  }

  /** `a` may come before `b` in an ascending sort on `k`; author ids order like the ObjectIds they stand for. */
  predicate KeyLe(a: Post, b: Post, k: SortKey) {
    match k
    case CreatedAt => a.createdAt <= b.createdAt
    case UpdatedAt => a.updatedAt <= b.updatedAt
    case ViewCount => a.viewCount <= b.viewCount
    case LikeCount => a.likeCount <= b.likeCount
    case CommentCount => a.commentCount <= b.commentCount
    case ReadTime => a.readTime <= b.readTime
    case Author => a.author <= b.author
    case Title => LexLe(a.title, b.title)
    case SlugPath => LexLe(a.slug, b.slug)
    case Content => LexLe(a.content, b.content)
    case StatusPath => LexLe(StatusName(a.status), StatusName(b.status))
    case PublishedAt => OptIntLe(a.publishedAt, b.publishedAt)
    case Excerpt => OptTextLe(a.excerpt, b.excerpt)
    case FeaturedImage => OptTextLe(a.featuredImage, b.featuredImage)
    case IsPublic => !a.isPublic || b.isPublic
    case Unconstrained => true
  }

  /** `a` may come before `b` under `{ [sortBy]: desc ? -1 : 1 }`. */
  predicate InOrder(a: Post, b: Post, k: SortKey, desc: bool) {
    if desc then KeyLe(b, a, k) else KeyLe(a, b, k)
  }

  /** Every id names a post, and earlier ids come first in the sort. */
  predicate SortedBy(ids: seq<PostId>, posts: map<PostId, Post>, k: SortKey, desc: bool) {
    && (forall i :: 0 <= i < |ids| ==> ids[i] in posts)
    && forall i, j :: 0 <= i < j < |ids| ==> InOrder(posts[ids[i]], posts[ids[j]], k, desc)
  }

  /** `ordered` lists every stored post exactly once. */
  predicate Enumerates(ordered: seq<PostId>, posts: map<PostId, Post>) {
    && Distinct(ordered)
    && (forall pid :: pid in posts ==> pid in ordered)
    && (forall i :: 0 <= i < |ordered| ==> ordered[i] in posts)
  }

  // ---- selection -------------------------------------------------------------

  /** The ids of `ids`, in their order, whose posts match. */
  function Select(ids: seq<PostId>, posts: map<PostId, Post>, c: Criteria, textMatch: (Post, string) -> bool)
    : (r: seq<PostId>)
    ensures forall x :: x in r <==> x in ids && x in posts && Matches(posts[x], c, textMatch)
    ensures |r| <= |ids|
  {
    if ids == [] then []
    else
      var rest := Select(ids[1..], posts, c, textMatch);
      if ids[0] in posts && Matches(posts[ids[0]], c, textMatch) then [ids[0]] + rest else rest
  }

  /** Selecting keeps ids distinct. */
  lemma {:induction false} SelectDistinct(ids: seq<PostId>, posts: map<PostId, Post>, c: Criteria, textMatch: (Post, string) -> bool)
    requires Distinct(ids)
    ensures Distinct(Select(ids, posts, c, textMatch))
  {
    if ids != [] {
      assert Distinct(ids[1..]) by {
        forall i, j | 0 <= i < j < |ids[1..]| ensures ids[1..][i] != ids[1..][j] {
          assert ids[1..][i] == ids[i + 1] && ids[1..][j] == ids[j + 1];
        }
      }
      SelectDistinct(ids[1..], posts, c, textMatch);
      var rest := Select(ids[1..], posts, c, textMatch);
      assert ids[0] !in ids[1..];
      assert ids[0] !in rest;
    }
  }

  /** Selecting keeps the sort order. */
  lemma {:induction false} SelectSorted(ids: seq<PostId>, posts: map<PostId, Post>, c: Criteria,
                                        textMatch: (Post, string) -> bool, k: SortKey, desc: bool)
    requires SortedBy(ids, posts, k, desc)
    ensures SortedBy(Select(ids, posts, c, textMatch), posts, k, desc)
  {
    if ids != [] {
      var tail := ids[1..];
      assert SortedBy(tail, posts, k, desc) by {
        forall i, j | 0 <= i < j < |tail|
          ensures InOrder(posts[tail[i]], posts[tail[j]], k, desc)
        {
          assert tail[i] == ids[i + 1] && tail[j] == ids[j + 1];
        }
      }
      SelectSorted(tail, posts, c, textMatch, k, desc);
      var rest := Select(tail, posts, c, textMatch);
      if ids[0] in posts && Matches(posts[ids[0]], c, textMatch) {
        forall j | 0 <= j < |rest| ensures InOrder(posts[ids[0]], posts[rest[j]], k, desc) {
          assert rest[j] in tail;
          var m :| 0 <= m < |tail| && tail[m] == rest[j];
          assert ids[m + 1] == rest[j];
        }
        ConsSorted(ids[0], rest, posts, k, desc);
      }
    }
  }

  /** A sorted list stays sorted with an element in front that may precede all of it. */
  lemma ConsSorted(x: PostId, rest: seq<PostId>, posts: map<PostId, Post>, k: SortKey, desc: bool)
    requires x in posts && SortedBy(rest, posts, k, desc)
    requires forall j :: 0 <= j < |rest| ==> InOrder(posts[x], posts[rest[j]], k, desc)
    ensures SortedBy([x] + rest, posts, k, desc)
  {
    var r := [x] + rest;
    forall i, j | 0 <= i < j < |r|
      ensures InOrder(posts[r[i]], posts[r[j]], k, desc)
    {
      if i > 0 {
        assert r[i] == rest[i - 1] && r[j] == rest[j - 1];
      }
    }
  }

  /** The posts the query object matches, as `countDocuments` counts them. */
  function MatchingIds(posts: map<PostId, Post>, c: Criteria, textMatch: (Post, string) -> bool): set<PostId> {
    set pid | pid in posts && Matches(posts[pid], c, textMatch)
  }

  // ---- findAll ---------------------------------------------------------------

  /** What `findAll` returns: the page of posts, the number of matches, and `Math.ceil(total / limit)`. */
  datatype Listing = Listing(ids: seq<PostId>, total: nat, pages: int)

  /** The defaults of the destructuring: page 1, limit 10, newest first. */
  function PageOf(f: SearchFilters): int { f.page.GetOr(1) }
  function LimitOf(f: SearchFilters): int { f.limit.GetOr(10) }
  function SortOf(f: SearchFilters): SortKey { SortKeyOf(f.sortBy.GetOr("createdAt")) }
  function DescOf(f: SearchFilters): bool { f.sortOrder.GetOr("desc") == "desc" }

  function FindAll(s: Store, f: SearchFilters, ordered: seq<PostId>, textMatch: (Post, string) -> bool)
    : (r: Result<Listing, Error>)
    requires Enumerates(ordered, s.posts) && SortedBy(ordered, s.posts, SortOf(f), DescOf(f))
    requires LimitOf(f) != 0
    ensures r.Err? <==> Skip(PageOf(f), LimitOf(f)) < 0
    ensures r.Ok? ==> r.value.total == |MatchingIds(s.posts, BuildCriteria(s, f), textMatch)|
    ensures r.Ok? ==> r.value.pages == Pages(r.value.total, LimitOf(f))
    ensures r.Ok? ==> |r.value.ids| <= Abs(LimitOf(f)) && Distinct(r.value.ids)
    ensures r.Ok? ==> forall x :: x in r.value.ids ==> x in MatchingIds(s.posts, BuildCriteria(s, f), textMatch)
    ensures r.Ok? ==> SortedBy(r.value.ids, s.posts, SortOf(f), DescOf(f))
    ensures r.Ok? ==> r.value.ids == Window(Select(ordered, s.posts, BuildCriteria(s, f), textMatch), PageOf(f), LimitOf(f)).value
  {
    var c := BuildCriteria(s, f);
    var all := Select(ordered, s.posts, c, textMatch);
    SelectFacts(ordered, s.posts, c, textMatch, SortOf(f), DescOf(f));
    WindowKeeps(all, PageOf(f), LimitOf(f), s.posts, SortOf(f), DescOf(f));
    match Window(all, PageOf(f), LimitOf(f))
    case Err(e) => Err(e)
    case Ok(window) => Ok(Listing(window, |all|, Pages(|all|, LimitOf(f))))
  }

  /** The selection from an enumeration of all posts: distinct, sorted, one entry per match. */
  lemma SelectFacts(ordered: seq<PostId>, posts: map<PostId, Post>, c: Criteria,
                    textMatch: (Post, string) -> bool, k: SortKey, desc: bool)
    requires Enumerates(ordered, posts) && SortedBy(ordered, posts, k, desc)
    ensures var all := Select(ordered, posts, c, textMatch);
      Distinct(all) && SortedBy(all, posts, k, desc) && |all| == |MatchingIds(posts, c, textMatch)|
  {
    var all := Select(ordered, posts, c, textMatch);
    SelectDistinct(ordered, posts, c, textMatch);
    SelectSorted(ordered, posts, c, textMatch, k, desc);
    DistinctCard(all);
    assert Elems(all) == MatchingIds(posts, c, textMatch);
  }

  /** A page of a distinct sorted list is distinct and sorted, and holds only entries of the list. */
  lemma WindowKeeps(all: seq<PostId>, page: int, limit: int, posts: map<PostId, Post>, k: SortKey, desc: bool)
    requires limit != 0 && Distinct(all) && SortedBy(all, posts, k, desc)
    ensures var w := Window(all, page, limit);
      w.Ok? ==> Distinct(w.value) && SortedBy(w.value, posts, k, desc) && forall x :: x in w.value ==> x in all
  {
    var w := Window(all, page, limit);
    if w.Ok? {
      var window, from := w.value, Skip(page, limit);
      forall i, j | 0 <= i < j < |window|
        ensures window[i] != window[j] && InOrder(posts[window[i]], posts[window[j]], k, desc)
      {
        assert window[i] == all[from + i] && window[j] == all[from + j];
      }
      forall x | x in window ensures x in all {
        var i :| 0 <= i < |window| && window[i] == x;
        assert all[from + i] == x;
      }
    }
  }

  /** The same filters on another page: the criteria, the sort and the limit stay. */
  function OnPage(f: SearchFilters, page: int): (g: SearchFilters)
    ensures PageOf(g) == page && LimitOf(g) == LimitOf(f) && SortOf(g) == SortOf(f) && DescOf(g) == DescOf(f)
  {
    f.(page := Some(page))
  }

  /**
   * With a positive limit, every matching post is listed on some page between 1 and
   * `pages`: no match is lost between pages.
   */
  lemma EveryMatchListed(s: Store, f: SearchFilters, ordered: seq<PostId>, textMatch: (Post, string) -> bool, pid: PostId)
    requires Enumerates(ordered, s.posts) && SortedBy(ordered, s.posts, SortOf(f), DescOf(f))
    requires LimitOf(f) > 0
    requires pid in MatchingIds(s.posts, BuildCriteria(s, f), textMatch)
    ensures exists page :: (1 <= page <= Pages(|MatchingIds(s.posts, BuildCriteria(s, f), textMatch)|, LimitOf(f))
      && FindAll(s, OnPage(f, page), ordered, textMatch).Ok? && pid in FindAll(s, OnPage(f, page), ordered, textMatch).value.ids)
  {
    var page := PageListing(s, f, ordered, textMatch, pid);
  }

  lemma PageListing(s: Store, f: SearchFilters, ordered: seq<PostId>, textMatch: (Post, string) -> bool, pid: PostId)
    returns (page: int)
    requires Enumerates(ordered, s.posts) && SortedBy(ordered, s.posts, SortOf(f), DescOf(f))
    requires LimitOf(f) > 0
    requires pid in MatchingIds(s.posts, BuildCriteria(s, f), textMatch)
    ensures 1 <= page <= Pages(|MatchingIds(s.posts, BuildCriteria(s, f), textMatch)|, LimitOf(f))
    ensures FindAll(s, OnPage(f, page), ordered, textMatch).Ok? && pid in FindAll(s, OnPage(f, page), ordered, textMatch).value.ids
  {
    var c, limit := BuildCriteria(s, f), LimitOf(f);
    var all := Select(ordered, s.posts, c, textMatch);
    var k := MatchIndex(ordered, s.posts, c, textMatch, pid);
    page := PageFor(k, limit, |all|);
    WindowHolds(all, page, limit, k);
    var g := OnPage(f, page);
    SameCriteria(s, f, page);
    var r := FindAll(s, g, ordered, textMatch);
    assert r.Ok? && r.value.ids == Window(all, page, limit).value;
  }

  /** Changing the page leaves the query object as it was. */
  lemma SameCriteria(s: Store, f: SearchFilters, page: int)
    ensures BuildCriteria(s, OnPage(f, page)) == BuildCriteria(s, f)
  {
  }

  /** A matching post has a place in the selection from an enumeration of all posts. */
  lemma MatchIndex(ordered: seq<PostId>, posts: map<PostId, Post>, c: Criteria, textMatch: (Post, string) -> bool, pid: PostId)
    returns (k: nat)
    requires Enumerates(ordered, posts) && pid in MatchingIds(posts, c, textMatch)
    ensures k < |Select(ordered, posts, c, textMatch)| && Select(ordered, posts, c, textMatch)[k] == pid
    ensures |Select(ordered, posts, c, textMatch)| == |MatchingIds(posts, c, textMatch)|
  {
    var all := Select(ordered, posts, c, textMatch);
    SelectDistinct(ordered, posts, c, textMatch);
    DistinctCard(all);
    assert Elems(all) == MatchingIds(posts, c, textMatch);
    assert pid in all;
    k :| 0 <= k < |all| && all[k] == pid;
  }

  /** No matching post is listed on two different pages. */
  lemma ListedOnOnePage(s: Store, f: SearchFilters, ordered: seq<PostId>, textMatch: (Post, string) -> bool,
                        pid: PostId, p1: int, p2: int)
    requires Enumerates(ordered, s.posts) && SortedBy(ordered, s.posts, SortOf(f), DescOf(f))
    requires LimitOf(f) > 0
    requires FindAll(s, OnPage(f, p1), ordered, textMatch).Ok? && pid in FindAll(s, OnPage(f, p1), ordered, textMatch).value.ids
    requires FindAll(s, OnPage(f, p2), ordered, textMatch).Ok? && pid in FindAll(s, OnPage(f, p2), ordered, textMatch).value.ids
    ensures p1 == p2
  {
    var c, limit := BuildCriteria(s, f), LimitOf(f);
    var all := Select(ordered, s.posts, c, textMatch);
    SelectDistinct(ordered, s.posts, c, textMatch);
    assert BuildCriteria(s, OnPage(f, p1)) == c && BuildCriteria(s, OnPage(f, p2)) == c;
    WindowsDisjoint(all, p1, p2, limit, pid);
  }

  // ---- separate queries ------------------------------------------------------

  /**
   * No two of the given posts tie on the sort key. MongoDB fixes no order among posts
   * whose keys are equal, and each page is a query of its own.
   */
  ghost predicate NoTies(posts: map<PostId, Post>, ids: set<PostId>, k: SortKey) {
    forall a, b :: a in ids && b in ids && a in posts && b in posts && a != b ==>
      !(KeyLe(posts[a], posts[b], k) && KeyLe(posts[b], posts[a], k))
  }

  /**
   * When no two matches tie on the key, every order the sort may walk gives the same
   * page: which posts a page lists does not depend on how ties would have been broken.
   */
  lemma FindAllIgnoresTieOrder(s: Store, f: SearchFilters, o1: seq<PostId>, o2: seq<PostId>, textMatch: (Post, string) -> bool)
    requires Enumerates(o1, s.posts) && SortedBy(o1, s.posts, SortOf(f), DescOf(f))
    requires Enumerates(o2, s.posts) && SortedBy(o2, s.posts, SortOf(f), DescOf(f))
    requires LimitOf(f) != 0
    requires NoTies(s.posts, MatchingIds(s.posts, BuildCriteria(s, f), textMatch), SortOf(f))
    ensures FindAll(s, f, o1, textMatch) == FindAll(s, f, o2, textMatch)
  {
    SelectIgnoresTieOrder(o1, o2, s.posts, BuildCriteria(s, f), textMatch, SortOf(f), DescOf(f));
  }

  /** The selection from a sorted enumeration, when no two matches tie, is the same for every such enumeration. */
  lemma SelectIgnoresTieOrder(o1: seq<PostId>, o2: seq<PostId>, posts: map<PostId, Post>, c: Criteria,
                              textMatch: (Post, string) -> bool, k: SortKey, desc: bool)
    requires Enumerates(o1, posts) && SortedBy(o1, posts, k, desc)
    requires Enumerates(o2, posts) && SortedBy(o2, posts, k, desc)
    requires NoTies(posts, MatchingIds(posts, c, textMatch), k)
    ensures Select(o1, posts, c, textMatch) == Select(o2, posts, c, textMatch)
  {
    var a, b := Select(o1, posts, c, textMatch), Select(o2, posts, c, textMatch);
    SelectFacts(o1, posts, c, textMatch, k, desc);
    SelectFacts(o2, posts, c, textMatch, k, desc);
    var le := (x: PostId, y: PostId) => x in posts && y in posts && InOrder(posts[x], posts[y], k, desc);
    forall i, j | 0 <= i < j < |a| ensures le(a[i], a[j]) && !le(a[j], a[i]) {
      assert a[i] in MatchingIds(posts, c, textMatch) && a[j] in MatchingIds(posts, c, textMatch);
    }
    forall i, j | 0 <= i < j < |b| ensures le(b[i], b[j]) {
    }
    OrderedListingUnique(a, b, le);
  }

  /**
   * When no two matches tie on the key, no matching post is listed on two different
   * pages, even if each page query walks its own order.
   */
  lemma ListedOnOnePageAcrossQueries(s: Store, f: SearchFilters, o1: seq<PostId>, o2: seq<PostId>,
                                     textMatch: (Post, string) -> bool, pid: PostId, p1: int, p2: int)
    requires Enumerates(o1, s.posts) && SortedBy(o1, s.posts, SortOf(f), DescOf(f))
    requires Enumerates(o2, s.posts) && SortedBy(o2, s.posts, SortOf(f), DescOf(f))
    requires LimitOf(f) > 0
    requires NoTies(s.posts, MatchingIds(s.posts, BuildCriteria(s, f), textMatch), SortOf(f))
    requires FindAll(s, OnPage(f, p1), o1, textMatch).Ok? && pid in FindAll(s, OnPage(f, p1), o1, textMatch).value.ids
    requires FindAll(s, OnPage(f, p2), o2, textMatch).Ok? && pid in FindAll(s, OnPage(f, p2), o2, textMatch).value.ids
    ensures p1 == p2
  {
    SameCriteria(s, f, p2);
    FindAllIgnoresTieOrder(s, OnPage(f, p2), o1, o2, textMatch);
    ListedOnOnePage(s, f, o1, textMatch, pid, p1, p2);
  }

  /**
   * When no two matches tie on the key, a match is listed on one page whatever order
   * that page's query walks, so a reader paging through separate queries meets it.
   */
  lemma EveryMatchListedAcrossQueries(s: Store, f: SearchFilters, o1: seq<PostId>, o2: seq<PostId>,
                                      textMatch: (Post, string) -> bool, pid: PostId)
    returns (page: int)
    requires Enumerates(o1, s.posts) && SortedBy(o1, s.posts, SortOf(f), DescOf(f))
    requires Enumerates(o2, s.posts) && SortedBy(o2, s.posts, SortOf(f), DescOf(f))
    requires LimitOf(f) > 0
    requires NoTies(s.posts, MatchingIds(s.posts, BuildCriteria(s, f), textMatch), SortOf(f))
    requires pid in MatchingIds(s.posts, BuildCriteria(s, f), textMatch)
    ensures 1 <= page <= Pages(|MatchingIds(s.posts, BuildCriteria(s, f), textMatch)|, LimitOf(f))
    ensures FindAll(s, OnPage(f, page), o2, textMatch).Ok? && pid in FindAll(s, OnPage(f, page), o2, textMatch).value.ids
  {
    page := PageListing(s, f, o1, textMatch, pid);
    SameCriteria(s, f, page);
    FindAllIgnoresTieOrder(s, OnPage(f, page), o1, o2, textMatch);
  }
}

=== FILE: post_repo.dfy ===
/**
 * `PostRepository`: posts together with the category and tag collections they
 * reference. The central invariant is the one the repository maintains by hand:
 * every label's `postCount` equals the number of posts that reference it.
 */
module PostRepository {
  import opened Wrappers
  import opened Errors
  import opened Text
  import opened Slug
  import opened Labels
  import opened LabelRegistry
  import opened PostModel
  import opened Collections

  /**
   * The three collections. Post ids are handed out from `nextPostId` upwards and never
   * reused, which stands in for ObjectId freshness; label ids are indexes.
   */
  datatype Store = Store(posts: map<PostId, Post>, nextPostId: PostId, categories: seq<Label>, tags: seq<Label>)

  /** The collections after an operation, and what it returned or threw. */
  datatype Outcome<T> = Outcome(store: Store, result: Result<T, Error>)

  const Empty := Store(map[], 0, [], [])

  function Refs(p: Post, kind: Kind): seq<nat> {
    if kind == CategoryKind then p.categories else p.tags
  }

  function Registry(s: Store, kind: Kind): seq<Label> {
    if kind == CategoryKind then s.categories else s.tags
  }

  /** The posts that reference label `j` of the collection of `kind`. */
  ghost function Referencing(posts: map<PostId, Post>, kind: Kind, j: nat): set<PostId> {
    set pid | pid in posts && j in Refs(posts[pid], kind)
  }

  ghost predicate CountsMatch(posts: map<PostId, Post>, reg: seq<Label>, kind: Kind) {
    forall j :: 0 <= j < |reg| ==> reg[j].postCount == |Referencing(posts, kind, j)|
  }

  /** Every reference of every post names an existing label. */
  predicate RefsBelow(posts: map<PostId, Post>, kind: Kind, n: nat) {
    forall pid, x :: pid in posts && x in Refs(posts[pid], kind) ==> x < n
  }

  /**
   * What the repository keeps true: label collections as their schemas and unique
   * indexes leave them, every post valid against its schema with a unique slug and
   * references that resolve, and every `postCount` equal to its number of referencing posts.
   */
  ghost predicate Valid(s: Store) {
    && WellFormed(s.categories, CategoryKind) && WellFormed(s.tags, TagKind)
    && (forall pid :: pid in s.posts ==> pid < s.nextPostId && DocumentErrors(s.posts[pid]) == [])
    && RefsBelow(s.posts, CategoryKind, |s.categories|) && RefsBelow(s.posts, TagKind, |s.tags|)
    && (forall a, b :: a in s.posts && b in s.posts && a != b ==> s.posts[a].slug != s.posts[b].slug)
    && CountsMatch(s.posts, s.categories, CategoryKind) && CountsMatch(s.posts, s.tags, TagKind)
  }

  lemma EmptyValid()
    ensures Valid(Empty)
  {
  }

  // ---- count bookkeeping ----------------------------------------------------

  /** How a post whose references go from `before` to `after` changes the count of label `j`. */
  function Delta(j: nat, before: seq<nat>, after: seq<nat>): int {
    (if j in after then 1 else 0) - (if j in before then 1 else 0)
  }

  /** `reg'` is `reg` with every count moved by `Delta`, nothing else changed. */
  predicate Moved(reg: seq<Label>, reg': seq<Label>, before: seq<nat>, after: seq<nat>) {
    |reg'| == |reg| && forall j :: 0 <= j < |reg| ==> reg'[j] == reg[j].(postCount := reg[j].postCount + Delta(j, before, after))
  }

  /** Incrementing by `ids` is moving the counts of a post that had no references. */
  lemma IncrementMoves(reg: seq<Label>, ids: seq<nat>)
    ensures Moved(reg, AdjustCounts(reg, ids, 1), [], ids)
  {
    var r := AdjustCounts(reg, ids, 1);
    forall j | 0 <= j < |reg|
      ensures r[j] == reg[j].(postCount := reg[j].postCount + Delta(j, [], ids))
    {
    }
  }

  /** Decrement by the old ids, then increment by the new ones. */
  function MoveCounts(reg: seq<Label>, before: seq<nat>, after: seq<nat>): (r: seq<Label>)
    ensures Moved(reg, r, before, after)
  {
    AdjustCounts(AdjustCounts(reg, before, -1), after, 1)
  }

  lemma MovedKeepsWellFormed(reg: seq<Label>, reg': seq<Label>, kind: Kind, before: seq<nat>, after: seq<nat>)
    requires WellFormed(reg, kind) && Moved(reg, reg', before, after)
    ensures WellFormed(reg', kind)
  {
    assert forall j :: 0 <= j < |reg'| ==> reg'[j].name == reg[j].name && reg'[j].slug == reg[j].slug && EntryOk(reg'[j], kind);
  }

  /** Replacing (or adding) the post at `pid` changes each label's referencing set by at most that post. */
  lemma ReferencingAfterPut(posts: map<PostId, Post>, kind: Kind, j: nat, pid: PostId, p: Post)
    ensures Referencing(posts[pid := p], kind, j) ==
      (Referencing(posts, kind, j) - {pid}) + (if j in Refs(p, kind) then {pid} else {})
  {
  }

  lemma ReferencingAfterRemove(posts: map<PostId, Post>, kind: Kind, j: nat, pid: PostId)
    ensures Referencing(posts - {pid}, kind, j) == Referencing(posts, kind, j) - {pid}
  {
  }

  lemma CardRemove(a: set<PostId>, x: PostId)
    ensures |a - {x}| == |a| - (if x in a then 1 else 0)
  {
    if x in a {
      assert a == (a - {x}) + {x};
    } else {
      assert a - {x} == a;
    }
  }

  /** Writing the post at `pid` changes the number of posts referencing `j` by `Delta`. */
  lemma CountAfterPut(posts: map<PostId, Post>, kind: Kind, j: nat, pid: PostId, p: Post)
    ensures |Referencing(posts[pid := p], kind, j)| ==
      |Referencing(posts, kind, j)| + Delta(j, if pid in posts then Refs(posts[pid], kind) else [], Refs(p, kind))
  {
    var a := Referencing(posts, kind, j);
    ReferencingAfterPut(posts, kind, j, pid, p);
    assert pid in a <==> pid in posts && j in Refs(posts[pid], kind);
    CardRemove(a, pid);
  }

  /** Writing a post and moving the counts by its old and new references keeps counts exact. */
  lemma CountsAfterPut(posts: map<PostId, Post>, reg: seq<Label>, reg': seq<Label>, kind: Kind, pid: PostId, p: Post)
    requires CountsMatch(posts, reg, kind)
    requires Moved(reg, reg', if pid in posts then Refs(posts[pid], kind) else [], Refs(p, kind))
    ensures CountsMatch(posts[pid := p], reg', kind)
  {
    forall j | 0 <= j < |reg'|
      ensures reg'[j].postCount == |Referencing(posts[pid := p], kind, j)|
    {
      CountAfterPut(posts, kind, j, pid, p);
    }
  }

  lemma CountsAfterRemove(posts: map<PostId, Post>, reg: seq<Label>, reg': seq<Label>, kind: Kind, pid: PostId)
    requires CountsMatch(posts, reg, kind) && pid in posts
    requires Moved(reg, reg', Refs(posts[pid], kind), [])
    ensures CountsMatch(posts - {pid}, reg', kind)
  {
    forall j | 0 <= j < |reg'|
      ensures reg'[j].postCount == |Referencing(posts - {pid}, kind, j)|
    {
      ReferencingAfterRemove(posts, kind, j, pid);
      CardRemove(Referencing(posts, kind, j), pid);
    }
  }

  /** Labels appended with count 0 are referenced by no post, so counts stay exact. */
  lemma RegistryGrows(posts: map<PostId, Post>, reg: seq<Label>, reg': seq<Label>, kind: Kind)
    requires CountsMatch(posts, reg, kind) && RefsBelow(posts, kind, |reg|)
    requires Extends(reg, reg') && forall j :: |reg| <= j < |reg'| ==> reg'[j].postCount == 0
    ensures CountsMatch(posts, reg', kind) && RefsBelow(posts, kind, |reg'|)
  {
    forall j | 0 <= j < |reg'|
      ensures reg'[j].postCount == |Referencing(posts, kind, j)|
    {
      if j >= |reg| {
        assert Referencing(posts, kind, j) == {};
      }
    }
  }

  /** The store with grown label collections (the posts untouched) is still valid. */
  lemma GrowKeepsValid(s: Store, cats: seq<Label>, tags: seq<Label>)
    requires Valid(s)
    requires WellFormed(cats, CategoryKind) && Extends(s.categories, cats)
    requires forall j :: |s.categories| <= j < |cats| ==> cats[j].postCount == 0
    requires WellFormed(tags, TagKind) && Extends(s.tags, tags)
    requires forall j :: |s.tags| <= j < |tags| ==> tags[j].postCount == 0
    ensures Valid(s.(categories := cats, tags := tags))
  {
    RegistryGrows(s.posts, s.categories, cats, CategoryKind);
    RegistryGrows(s.posts, s.tags, tags, TagKind);
  }

  /** Writing a valid post with resolvable references and a fresh slug, counts moved, keeps the store valid. */
  lemma PutKeepsValid(s: Store, pid: PostId, p: Post, next: PostId, cats: seq<Label>, tags: seq<Label>)
    requires Valid(s)
    requires s.nextPostId <= next && pid < next
    requires DocumentErrors(p) == []
    requires forall x :: x in p.categories ==> x < |s.categories|
    requires forall x :: x in p.tags ==> x < |s.tags|
    requires forall q :: q in s.posts && q != pid ==> s.posts[q].slug != p.slug
    requires Moved(s.categories, cats, if pid in s.posts then s.posts[pid].categories else [], p.categories)
    requires Moved(s.tags, tags, if pid in s.posts then s.posts[pid].tags else [], p.tags)
    ensures Valid(Store(s.posts[pid := p], next, cats, tags))
  {
    MovedKeepsWellFormed(s.categories, cats, CategoryKind, if pid in s.posts then s.posts[pid].categories else [], p.categories);
    MovedKeepsWellFormed(s.tags, tags, TagKind, if pid in s.posts then s.posts[pid].tags else [], p.tags);
    CountsAfterPut(s.posts, s.categories, cats, CategoryKind, pid, p);
    CountsAfterPut(s.posts, s.tags, tags, TagKind, pid, p);
  }

  // ---- lookups --------------------------------------------------------------

  /** `Post.findById(id)`. */
  function FindById(s: Store, pid: PostId): (r: Option<Post>)
    ensures r.Some? <==> pid in s.posts
    ensures r.Some? ==> r.value == s.posts[pid]
  {
    if pid in s.posts then Some(s.posts[pid]) else None
  }

  /** `Post.findOne({ slug })`. */
  function FindPostBySlug(s: Store, slug: string): (r: Option<PostId>)
    ensures r.Some? ==> r.value in s.posts && s.posts[r.value].slug == slug
  {
    FindFrom(s.posts, (p: Post) => p.slug == slug, 0, s.nextPostId)
  }

  /** In a valid store a slug names at most one post, and the lookup finds exactly it. */
  lemma FindPostBySlugExact(s: Store, slug: string)
    requires Valid(s)
    ensures forall pid :: pid in s.posts && s.posts[pid].slug == slug ==> FindPostBySlug(s, slug) == Some(pid)
    ensures FindPostBySlug(s, slug).None? <==> forall pid :: pid in s.posts ==> s.posts[pid].slug != slug
  {
  }

  // ---- create ---------------------------------------------------------------

  /** The same labels under the same ids, whatever their counts. */
  predicate SameNames(reg: seq<Label>, reg': seq<Label>) {
    |reg'| == |reg| && forall j :: 0 <= j < |reg| ==> reg'[j].name == reg[j].name
  }

  lemma AdjustSameNames(reg: seq<Label>, ids: seq<nat>, delta: int)
    ensures SameNames(reg, AdjustCounts(reg, ids, delta))
  {
  }

  /** Names are what `NamesTrimmed` reads; a collection with the same names keeps it. */
  lemma NamesTrimmedKept(reg: seq<Label>, reg': seq<Label>, ids: seq<nat>, names: seq<string>)
    requires NamesTrimmed(reg, ids, names) && SameNames(reg, reg')
    ensures NamesTrimmed(reg', ids, names)
  {
  }

  /**
   * The tail of `create` once the ids are known: `post.save()` (validation, the hook, the
   * unique slug index), then `$inc` of `postCount` on every referenced label.
   */
  function SaveAndCount(s: Store, dto: CreatePostDto, author: UserId, catIds: seq<nat>, tagIds: seq<nat>, now: nat)
    : (r: Outcome<PostId>)
    requires Valid(s)
    requires forall x :: x in catIds ==> x < |s.categories|
    requires forall x :: x in tagIds ==> x < |s.tags|
    ensures Valid(r.store)
    ensures r.result.Err? ==> r.store == s
    ensures r.result.Err? <==>
      || SaveNewPost(dto, author, catIds, tagIds, now).Err?
      || FindPostBySlug(s, PostSlug(Trim(dto.title), now)).Some?
    ensures DocumentErrors(NewPost(dto, author, [], [], now)) != [] ==> r.result.Err?
    ensures r.result.Ok? ==>
      && r.result.value == s.nextPostId && s.nextPostId !in s.posts
      && r.store.nextPostId == s.nextPostId + 1
      && r.result.value in r.store.posts
      && r.store.posts == s.posts[r.result.value := r.store.posts[r.result.value]]
      && r.store.categories == AdjustCounts(s.categories, catIds, 1)
      && r.store.tags == AdjustCounts(s.tags, tagIds, 1)
      && SameNames(s.categories, r.store.categories) && SameNames(s.tags, r.store.tags)
    ensures r.result.Ok? ==> var p := r.store.posts[r.result.value];
      && p.author == author && p.title == Trim(dto.title) && p.content == dto.content
      && p.slug == PostSlug(Trim(dto.title), now)
      && p.categories == catIds && p.tags == tagIds
    ensures r.result.Ok? ==> SaveNewPost(dto, author, catIds, tagIds, now) == Ok(r.store.posts[r.result.value])
  {
    match SaveNewPost(dto, author, catIds, tagIds, now)
    case Err(e) => Outcome(s, Err(e))
    case Ok(p) =>
      if FindPostBySlug(s, p.slug).Some? then Outcome(s, Err(DuplicateKey("slug")))
      else
        var pid := s.nextPostId;
        var store := Store(s.posts[pid := p], pid + 1, AdjustCounts(s.categories, catIds, 1), AdjustCounts(s.tags, tagIds, 1));
        IncrementMoves(s.categories, catIds);
        IncrementMoves(s.tags, tagIds);
        AdjustSameNames(s.categories, catIds, 1);
        AdjustSameNames(s.tags, tagIds, 1);
        PutKeepsValid(s, pid, p, pid + 1, store.categories, store.tags);
        Outcome(store, Ok(pid))
  }

  /** The label ids a post will reference. */
  datatype Ids = Ids(categories: seq<nat>, tags: seq<nat>)

  /** Every id names an existing label. */
  predicate IdsBelow(ids: Ids, s: Store) {
    && (forall x :: x in ids.categories ==> x < |s.categories|)
    && (forall x :: x in ids.tags ==> x < |s.tags|)
  }

  /** A list given is resolved by `Resolve`; a list not given keeps `current`. */
  function ResolveOrKeep(reg: seq<Label>, kind: Kind, names: Option<seq<string>>, current: seq<nat>): (r: Resolution)
    requires WellFormed(reg, kind)
    ensures WellFormed(r.registry, kind) && Extends(reg, r.registry)
    ensures forall j :: |reg| <= j < |r.registry| ==> r.registry[j].postCount == 0
    ensures names.None? ==> r == Resolution(reg, Ok(current))
    ensures names.Some? && r.ids.Ok? ==> NamesTrimmed(r.registry, r.ids.value, names.value)
  {
    if names.None? then Resolution(reg, Ok(current)) else Resolve(reg, kind, names.value)
  }

  /** Every list that is given resolves: each of its names is found or can be created. */
  ghost predicate LabelsResolve(s: Store, cats: Option<seq<string>>, tags: Option<seq<string>>)
    requires Valid(s)
  {
    && (cats.Some? ==> Resolve(s.categories, CategoryKind, cats.value).ids.Ok?)
    && (tags.Some? ==> Resolve(s.tags, TagKind, tags.value).ids.Ok?)
  }

  /**
   * `handleCategories` then `handleTags`, for the lists that are given. Labels created
   * before a failure stay, with count 0, so the store stays valid either way.
   */
  function ResolveLabels(s: Store, cats: Option<seq<string>>, tags: Option<seq<string>>, current: Ids): (r: Outcome<Ids>)
    requires Valid(s) && IdsBelow(current, s)
    ensures Valid(r.store) && r.store.posts == s.posts && r.store.nextPostId == s.nextPostId
    ensures Extends(s.categories, r.store.categories) && Extends(s.tags, r.store.tags)
    ensures r.result.Ok? ==> IdsBelow(r.result.value, r.store)
    ensures r.result.Ok? && cats.Some? ==> NamesTrimmed(r.store.categories, r.result.value.categories, cats.value)
    ensures r.result.Ok? && cats.None? ==> r.result.value.categories == current.categories
    ensures r.result.Ok? && tags.Some? ==> NamesTrimmed(r.store.tags, r.result.value.tags, tags.value)
    ensures r.result.Ok? && tags.None? ==> r.result.value.tags == current.tags
    ensures r.result.Ok? <==> LabelsResolve(s, cats, tags)
    ensures r.result.Ok? && cats.Some? ==> r.result.value.categories == Resolve(s.categories, CategoryKind, cats.value).ids.value
    ensures r.result.Ok? && tags.Some? ==> r.result.value.tags == Resolve(s.tags, TagKind, tags.value).ids.value
  {
    var c := ResolveOrKeep(s.categories, CategoryKind, cats, current.categories);
    if c.ids.Err? then
      GrowKeepsValid(s, c.registry, s.tags);
      Outcome(s.(categories := c.registry), Err(c.ids.error))
    else
      var t := ResolveOrKeep(s.tags, TagKind, tags, current.tags);
      GrowKeepsValid(s, c.registry, t.registry);
      var grown := s.(categories := c.registry, tags := t.registry);
      if t.ids.Err? then Outcome(grown, Err(t.ids.error))
      else Outcome(grown, Ok(Ids(c.ids.value, t.ids.value)))
  }

  /**
   * `create`: categories, then tags, are found or created; then the document is saved
   * and the counts of the labels it references go up by one each.
   */
  function Create(s: Store, dto: CreatePostDto, author: UserId, now: nat): (r: Outcome<PostId>)
    requires Valid(s)
    ensures Valid(r.store)
    ensures r.result.Err? ==> r.store.posts == s.posts && r.store.nextPostId == s.nextPostId
    ensures r.result.Ok? ==>
      && r.result.value == s.nextPostId && s.nextPostId !in s.posts
      && r.store.nextPostId == s.nextPostId + 1
      && r.result.value in r.store.posts
      && r.store.posts == s.posts[r.result.value := r.store.posts[r.result.value]]
    ensures r.result.Ok? ==> var p := r.store.posts[r.result.value];
      && p.author == author && p.title == Trim(dto.title) && p.content == dto.content
      && p.slug == PostSlug(Trim(dto.title), now)
      && NamesTrimmed(r.store.categories, p.categories, dto.categories.GetOr([]))
      && NamesTrimmed(r.store.tags, p.tags, dto.tags.GetOr([]))
    ensures DocumentErrors(NewPost(dto, author, [], [], now)) != [] ==> r.result.Err?
    ensures |r.store.categories| >= |s.categories| && |r.store.tags| >= |s.tags|
    ensures r.result.Ok? <==>
      && LabelsResolve(s, Some(dto.categories.GetOr([])), Some(dto.tags.GetOr([])))
      && DocumentErrors(NewPost(dto, author, [], [], now)) == []
      && FindPostBySlug(s, PostSlug(Trim(dto.title), now)).None?
    ensures r.result.Ok? ==> var p := r.store.posts[r.result.value];
      && SaveNewPost(dto, author, p.categories, p.tags, now) == Ok(p)
      && p.categories == Resolve(s.categories, CategoryKind, dto.categories.GetOr([])).ids.value
      && p.tags == Resolve(s.tags, TagKind, dto.tags.GetOr([])).ids.value
  {
    var g := ResolveLabels(s, Some(dto.categories.GetOr([])), Some(dto.tags.GetOr([])), Ids([], []));
    if g.result.Err? then Outcome(g.store, Err(g.result.error))
    else
      var ids := g.result.value;
      var r := SaveAndCount(g.store, dto, author, ids.categories, ids.tags, now);
      if r.result.Ok? then
        NamesTrimmedKept(g.store.categories, r.store.categories, ids.categories, dto.categories.GetOr([]));
        NamesTrimmedKept(g.store.tags, r.store.tags, ids.tags, dto.tags.GetOr([]));
        r
      else r
  }

  // ---- update ---------------------------------------------------------------

  /** A post whose references do not change leaves every count where it was. */
  lemma MovedSelf(reg: seq<Label>, ids: seq<nat>)
    ensures Moved(reg, reg, ids, ids)
  {
    forall j | 0 <= j < |reg|
      ensures reg[j] == reg[j].(postCount := reg[j].postCount + Delta(j, ids, ids))
    {
    }
  }

  lemma MovedSameNames(reg: seq<Label>, reg': seq<Label>, before: seq<nat>, after: seq<nat>)
    requires Moved(reg, reg', before, after)
    ensures SameNames(reg, reg')
  {
    forall j | 0 <= j < |reg|
      ensures reg'[j].name == reg[j].name
    {
    }
  }

  /**
   * One list of `update` as the repository runs it: the names are resolved, then the
   * counts of the old ids go down and those of the new ids go up, straight away.
   */
  function ResolveAndMove(reg: seq<Label>, kind: Kind, before: seq<nat>, names: Option<seq<string>>): (r: Resolution)
    requires WellFormed(reg, kind)
    ensures names.None? ==> r == Resolution(reg, Ok(before))
    ensures names.Some? ==> r.ids == Resolve(reg, kind, names.value).ids
    ensures names.Some? && r.ids.Err? ==> r.registry == Resolve(reg, kind, names.value).registry
    ensures names.Some? && r.ids.Ok? ==> Moved(Resolve(reg, kind, names.value).registry, r.registry, before, r.ids.value)
  {
    if names.None? then Resolution(reg, Ok(before))
    else
      var res := Resolve(reg, kind, names.value);
      if res.ids.Err? then res
      else Resolution(MoveCounts(res.registry, before, res.ids.value), res.ids)
  }

  /**
   * `update` as written: categories are resolved and their counts moved, then tags, and
   * only then does `findByIdAndUpdate` run the update validators. A failure there (or
   * in the tags) leaves the counts moved for a post that did not change.
   */
  function UpdateAsWritten(s: Store, pid: PostId, u: UpdatePostDto, now: nat): (r: Outcome<Option<Post>>)
    requires Valid(s)
    ensures pid !in s.posts ==> r == Outcome(s, Ok(None))
    ensures r.result.Err? ==> r.store.posts == s.posts && r.store.nextPostId == s.nextPostId
    ensures pid in s.posts && UpdateErrors(u) != [] ==> r.result.Err?
    ensures r.result.Ok? && pid in s.posts ==> pid in r.store.posts && r.result.value == Some(r.store.posts[pid])
  {
    if pid !in s.posts then Outcome(s, Ok(None))
    else
      var p := s.posts[pid];
      var c := ResolveAndMove(s.categories, CategoryKind, p.categories, u.categories);
      if c.ids.Err? then Outcome(s.(categories := c.registry), Err(c.ids.error))
      else
        var t := ResolveAndMove(s.tags, TagKind, p.tags, u.tags);
        var moved := s.(categories := c.registry, tags := t.registry);
        if t.ids.Err? then Outcome(moved, Err(t.ids.error))
        else if UpdateErrors(u) != [] then Outcome(moved, Err(ValidationError(UpdateErrors(u))))
        else
          var p' := ApplyUpdate(p, u, c.ids.value, t.ids.value, now);
          Outcome(moved.(posts := moved.posts[pid := p']), Ok(Some(p')))
  }

  /**
   * Clearing the categories of a post that has some, in an update that then fails, leaves
   * the first old category counted once more than the posts that reference it. A title of
   * only white space passes the request schema and is such an update.
   */
  lemma UpdateAsWrittenBreaksCounts(s: Store, pid: PostId, u: UpdatePostDto, now: nat)
    requires Valid(s) && pid in s.posts && |s.posts[pid].categories| > 0
    requires u.categories == Some([])
    ensures u.title.Some? && Trim(u.title.value) == [] ==> UpdateAsWritten(s, pid, u, now).result.Err?
    ensures UpdateAsWritten(s, pid, u, now).result.Err? ==> !Valid(UpdateAsWritten(s, pid, u, now).store)
  {
    var p := s.posts[pid];
    var c0 := p.categories[0];
    assert c0 in Refs(p, CategoryKind);
    var r := UpdateAsWritten(s, pid, u, now);
    if r.result.Err? {
      var c := ResolveAndMove(s.categories, CategoryKind, p.categories, u.categories);
      assert c.ids == Ok([]) && c.registry == MoveCounts(s.categories, p.categories, []);
      assert r.store.categories == c.registry;
      assert r.store.categories[c0].postCount == s.categories[c0].postCount - 1;
      assert !CountsMatch(r.store.posts, r.store.categories, CategoryKind);
    }
  }

  /**
   * `update` with the counts moved only once every step that can fail has passed: both
   * lists are resolved and the update validated first.
   */
  function Update(s: Store, pid: PostId, u: UpdatePostDto, now: nat): (r: Outcome<Option<Post>>)
    requires Valid(s)
    ensures Valid(r.store)
    ensures pid !in s.posts ==> r == Outcome(s, Ok(None))
    ensures r.result.Err? ==> r.store.posts == s.posts && r.store.nextPostId == s.nextPostId
    ensures pid in s.posts && UpdateErrors(u) != [] ==> r.result.Err?
    ensures r.result.Ok? && pid in s.posts ==>
      && pid in r.store.posts && r.result.value == Some(r.store.posts[pid])
      && r.store.posts == s.posts[pid := r.store.posts[pid]] && r.store.nextPostId == s.nextPostId
    ensures r.result.Ok? && pid in s.posts ==> var p, p' := s.posts[pid], r.store.posts[pid];
      && p'.slug == p.slug && p'.author == p.author && p'.updatedAt == now
      && p'.title == (if u.title.Some? then Trim(u.title.value) else p.title)
      && (u.categories.Some? ==> NamesTrimmed(r.store.categories, p'.categories, u.categories.value))
      && (u.categories.None? ==> p'.categories == p.categories)
      && (u.tags.Some? ==> NamesTrimmed(r.store.tags, p'.tags, u.tags.value))
      && (u.tags.None? ==> p'.tags == p.tags)
    ensures r.result.Ok? && pid in s.posts ==> var p' := r.store.posts[pid];
      p' == ApplyUpdate(s.posts[pid], u, p'.categories, p'.tags, now)
    ensures pid in s.posts ==> (r.result.Ok? <==> LabelsResolve(s, u.categories, u.tags) && UpdateErrors(u) == [])
  {
    if pid !in s.posts then Outcome(s, Ok(None))
    else
      var p := s.posts[pid];
      assert IdsBelow(Ids(p.categories, p.tags), s) by {
        assert Refs(p, CategoryKind) == p.categories && Refs(p, TagKind) == p.tags;
      }
      var g := ResolveLabels(s, u.categories, u.tags, Ids(p.categories, p.tags));
      if g.result.Err? then Outcome(g.store, Err(g.result.error))
      else if UpdateErrors(u) != [] then Outcome(g.store, Err(ValidationError(UpdateErrors(u))))
      else
        var ids := g.result.value;
        var cats := if u.categories.Some? then MoveCounts(g.store.categories, p.categories, ids.categories) else g.store.categories;
        var tags := if u.tags.Some? then MoveCounts(g.store.tags, p.tags, ids.tags) else g.store.tags;
        var p' := ApplyUpdate(p, u, ids.categories, ids.tags, now);
        UpdateKeepsDocumentValid(p, u, ids.categories, ids.tags, now);
        assert Moved(g.store.categories, cats, p.categories, ids.categories) by {
          if u.categories.None? { MovedSelf(g.store.categories, p.categories); }
        }
        assert Moved(g.store.tags, tags, p.tags, ids.tags) by {
          if u.tags.None? { MovedSelf(g.store.tags, p.tags); }
        }
        MovedSameNames(g.store.categories, cats, p.categories, ids.categories);
        MovedSameNames(g.store.tags, tags, p.tags, ids.tags);
        PutKeepsValid(g.store, pid, p', s.nextPostId, cats, tags);
        assert u.categories.Some? ==> NamesTrimmed(cats, ids.categories, u.categories.value) by {
          if u.categories.Some? { NamesTrimmedKept(g.store.categories, cats, ids.categories, u.categories.value); }
        }
        assert u.tags.Some? ==> NamesTrimmed(tags, ids.tags, u.tags.value) by {
          if u.tags.Some? { NamesTrimmedKept(g.store.tags, tags, ids.tags, u.tags.value); }
        }
        Outcome(Store(g.store.posts[pid := p'], s.nextPostId, cats, tags), Ok(Some(p')))
  }

  /** Whenever the update as written succeeds, the corrected one does exactly the same. */
  lemma UpdateAgreesWhenAsWrittenSucceeds(s: Store, pid: PostId, u: UpdatePostDto, now: nat)
    requires Valid(s)
    ensures UpdateAsWritten(s, pid, u, now).result.Ok? ==> UpdateAsWritten(s, pid, u, now) == Update(s, pid, u, now)
  {
    if pid in s.posts && UpdateAsWritten(s, pid, u, now).result.Ok? {
      var p := s.posts[pid];
      var c := ResolveAndMove(s.categories, CategoryKind, p.categories, u.categories);
      var t := ResolveAndMove(s.tags, TagKind, p.tags, u.tags);
      assert c.ids.Ok? && t.ids.Ok? && UpdateErrors(u) == [];
      var rc := ResolveOrKeep(s.categories, CategoryKind, u.categories, p.categories);
      var rt := ResolveOrKeep(s.tags, TagKind, u.tags, p.tags);
      assert rc.ids == c.ids && rt.ids == t.ids;
      assert c.registry == if u.categories.Some? then MoveCounts(rc.registry, p.categories, rc.ids.value) else rc.registry;
      assert t.registry == if u.tags.Some? then MoveCounts(rt.registry, p.tags, rt.ids.value) else rt.registry;
    }
  }

  // ---- delete ---------------------------------------------------------------

  /** Decrementing by `ids` is moving the counts of a post whose references all go away. */
  lemma DecrementMoves(reg: seq<Label>, ids: seq<nat>)
    ensures Moved(reg, AdjustCounts(reg, ids, -1), ids, [])
  {
    var r := AdjustCounts(reg, ids, -1);
    forall j | 0 <= j < |reg|
      ensures r[j] == reg[j].(postCount := reg[j].postCount + Delta(j, ids, []))
    {
    }
  }

  /** Removing a post and moving the counts of its references down keeps the store valid. */
  lemma RemoveKeepsValid(s: Store, pid: PostId, cats: seq<Label>, tags: seq<Label>)
    requires Valid(s) && pid in s.posts
    requires Moved(s.categories, cats, s.posts[pid].categories, [])
    requires Moved(s.tags, tags, s.posts[pid].tags, [])
    ensures Valid(Store(s.posts - {pid}, s.nextPostId, cats, tags))
  {
    MovedKeepsWellFormed(s.categories, cats, CategoryKind, s.posts[pid].categories, []);
    MovedKeepsWellFormed(s.tags, tags, TagKind, s.posts[pid].tags, []);
    CountsAfterRemove(s.posts, s.categories, cats, CategoryKind, pid);
    CountsAfterRemove(s.posts, s.tags, tags, TagKind, pid);
  }

  /** `delete`: the counts of the post's labels go down by one, then the post is removed. */
  function Delete(s: Store, pid: PostId): (r: Outcome<bool>)
    requires Valid(s)
    ensures Valid(r.store)
    ensures r.result == Ok(pid in s.posts)
    ensures pid !in s.posts ==> r.store == s
    ensures r.store.posts == s.posts - {pid} && r.store.nextPostId == s.nextPostId
    ensures SameNames(s.categories, r.store.categories) && SameNames(s.tags, r.store.tags)
  {
    if pid !in s.posts then
      assert s.posts - {pid} == s.posts;
      Outcome(s, Ok(false))
    else
      var p := s.posts[pid];
      var cats := AdjustCounts(s.categories, p.categories, -1);
      var tags := AdjustCounts(s.tags, p.tags, -1);
      DecrementMoves(s.categories, p.categories);
      DecrementMoves(s.tags, p.tags);
      AdjustSameNames(s.categories, p.categories, -1);
      AdjustSameNames(s.tags, p.tags, -1);
      RemoveKeepsValid(s, pid, cats, tags);
      Outcome(Store(s.posts - {pid}, s.nextPostId, cats, tags), Ok(true))
  }

  /**
   * Deleting the one post a write added gives back the posts there were, and every label
   * that existed before has its old count again.
   */
  lemma DeleteUndoesInsert(s: Store, t: Store, pid: PostId)
    requires Valid(s) && Valid(t) && pid !in s.posts && pid in t.posts
    requires t.posts == s.posts[pid := t.posts[pid]]
    requires |t.categories| >= |s.categories| && |t.tags| >= |s.tags|
    ensures Delete(t, pid).store.posts == s.posts
    ensures forall j :: 0 <= j < |s.categories| ==> Delete(t, pid).store.categories[j].postCount == s.categories[j].postCount
    ensures forall j :: 0 <= j < |s.tags| ==> Delete(t, pid).store.tags[j].postCount == s.tags[j].postCount
  {
    var d := Delete(t, pid).store;
    assert d.posts == s.posts;
    SamePostsSameCounts(s, d);
  }

  /** In particular for a post `create` just added. */
  lemma DeleteUndoesCreate(s: Store, dto: CreatePostDto, author: UserId, now: nat, t: Store, pid: PostId)
    requires Valid(s) && Create(s, dto, author, now) == Outcome(t, Ok(pid))
    ensures Delete(t, pid).store.posts == s.posts
    ensures forall j :: 0 <= j < |s.categories| ==> Delete(t, pid).store.categories[j].postCount == s.categories[j].postCount
    ensures forall j :: 0 <= j < |s.tags| ==> Delete(t, pid).store.tags[j].postCount == s.tags[j].postCount
  {
    DeleteUndoesInsert(s, t, pid);
  }

  /** A created post is found again, under its id and under the slug it was saved with. */
  lemma CreateThenFind(s: Store, dto: CreatePostDto, author: UserId, now: nat, t: Store, pid: PostId)
    requires Valid(s) && Create(s, dto, author, now) == Outcome(t, Ok(pid))
    ensures FindById(t, pid).Some? && FindById(t, pid).value.slug == PostSlug(Trim(dto.title), now)
    ensures FindPostBySlug(t, PostSlug(Trim(dto.title), now)) == Some(pid)
  {
    FindPostBySlugExact(t, PostSlug(Trim(dto.title), now));
  }

  /** An update that gives no field only stamps the post with the time of the update. */
  lemma EmptyUpdateStampsOnly(s: Store, pid: PostId, now: nat)
    requires Valid(s) && pid in s.posts
    ensures var r := Update(s, pid, UpdatePostDto(None, None, None, None, None, None, None, None, None), now);
      r.result.Ok? && r.store.posts == s.posts[pid := s.posts[pid].(updatedAt := now)]
  {
  }

  /** Two valid stores with the same posts agree on the counts of the labels both have. */
  lemma SamePostsSameCounts(s: Store, t: Store)
    requires Valid(s) && Valid(t) && s.posts == t.posts
    requires |t.categories| >= |s.categories| && |t.tags| >= |s.tags|
    ensures forall j :: 0 <= j < |s.categories| ==> t.categories[j].postCount == s.categories[j].postCount
    ensures forall j :: 0 <= j < |s.tags| ==> t.tags[j].postCount == s.tags[j].postCount
  {
  }

  // ---- counters -------------------------------------------------------------

  /** The three counters the controllers move with `$inc`. */
  datatype Counter = Views | Likes | Comments

  function CounterValue(p: Post, c: Counter): int {
    match c
    case Views => p.viewCount
    case Likes => p.likeCount
    case Comments => p.commentCount
  }

  /** Rewriting a post with the same references and slug, still valid, keeps the store valid. */
  lemma RewriteKeepsValid(s: Store, pid: PostId, p': Post)
    requires Valid(s) && pid in s.posts && DocumentErrors(p') == []
    requires p'.categories == s.posts[pid].categories && p'.tags == s.posts[pid].tags
    requires p'.slug == s.posts[pid].slug
    ensures Valid(s.(posts := s.posts[pid := p']))
  {
    var p := s.posts[pid];
    MovedSelf(s.categories, p.categories);
    MovedSelf(s.tags, p.tags);
    assert Refs(p, CategoryKind) == p.categories && Refs(p, TagKind) == p.tags;
    PutKeepsValid(s, pid, p', s.nextPostId, s.categories, s.tags);
  }

  /**
   * `increment…Count` / `decrement…Count`: `findByIdAndUpdate` with `$inc`, which skips
   * validation and the save hook, sets `updatedAt`, and does nothing for a missing id.
   * Counters have no lower bound.
   */
  function Bump(s: Store, pid: PostId, c: Counter, delta: int, now: nat): (r: Store)
    requires Valid(s)
    ensures Valid(r)
    ensures pid !in s.posts ==> r == s
    ensures r.categories == s.categories && r.tags == s.tags && r.nextPostId == s.nextPostId
    ensures r.posts.Keys == s.posts.Keys
    ensures forall q :: q in s.posts && q != pid ==> r.posts[q] == s.posts[q]
    ensures pid in s.posts ==>
      && CounterValue(r.posts[pid], c) == CounterValue(s.posts[pid], c) + delta
      && r.posts[pid].updatedAt == now
      && r.posts[pid] == s.posts[pid].(viewCount := r.posts[pid].viewCount, likeCount := r.posts[pid].likeCount,
                                        commentCount := r.posts[pid].commentCount, updatedAt := now)
  {
    if pid !in s.posts then s
    else
      var p := s.posts[pid];
      var p' := p.(viewCount := p.viewCount + (if c == Views then delta else 0),
                   likeCount := p.likeCount + (if c == Likes then delta else 0),
                   commentCount := p.commentCount + (if c == Comments then delta else 0),
                   updatedAt := now);
      assert DocumentErrors(p') == DocumentErrors(p);
      RewriteKeepsValid(s, pid, p');
      s.(posts := s.posts[pid := p'])
  }

  /** Only the counter named moves. */
  lemma BumpMovesOneCounter(s: Store, pid: PostId, c: Counter, delta: int, now: nat)
    requires Valid(s) && pid in s.posts
    ensures forall c' :: c' != c ==> CounterValue(Bump(s, pid, c, delta, now).posts[pid], c') == CounterValue(s.posts[pid], c')
  {
  }

  /** A like followed by an unlike leaves the like count where it was. */
  lemma LikeThenUnlike(s: Store, pid: PostId, now: nat, later: nat)
    requires Valid(s) && pid in s.posts
    ensures Bump(Bump(s, pid, Likes, 1, now), pid, Likes, -1, later).posts[pid].likeCount == s.posts[pid].likeCount
  {
  }

  // ---- any sequence of operations -------------------------------------------

  /** The writes the repository offers. */
  datatype Op =
    | CreateOp(dto: CreatePostDto, author: UserId, now: nat)
    | UpdateOp(pid: PostId, update: UpdatePostDto, now: nat)
    | DeleteOp(pid: PostId)
    | BumpOp(pid: PostId, counter: Counter, delta: int, now: nat)

  function Apply(s: Store, op: Op): (r: Store)
    requires Valid(s)
    ensures Valid(r)
  {
    match op
    case CreateOp(dto, author, now) => Create(s, dto, author, now).store
    case UpdateOp(pid, u, now) => Update(s, pid, u, now).store
    case DeleteOp(pid) => Delete(s, pid).store
    case BumpOp(pid, c, delta, now) => Bump(s, pid, c, delta, now)
  }

  /** Every label count stays exact whatever writes are made, successful or not. */
  function Run(s: Store, ops: seq<Op>): (r: Store)
    requires Valid(s)
    ensures Valid(r)
    decreases |ops|
  {
    if ops == [] then s else Run(Apply(s, ops[0]), ops[1..])
  }
}

=== FILE: protected_route.dfy ===
/**
 * The client's `ProtectedRoute`: from the persisted authentication state and the role a
 * route asks for, it either redirects or renders its children.
 */
module ProtectedRoute {
  import opened Wrappers
  import opened UserModel

  /** `<Navigate to="/login">`, `<Navigate to="/">`, or the children. */
  datatype Decision = RedirectLogin | RedirectHome | Render

  /**
   * The login check comes first; a required role is then met by that role or by `admin`.
   * A signed-in state without a stored user has no role and meets no requirement.
   */
  function Route(isAuthenticated: bool, userRole: Option<Role>, requiredRole: Option<Role>): (r: Decision)
    ensures !isAuthenticated <==> r == RedirectLogin
    ensures r == RedirectHome <==>
      isAuthenticated && requiredRole.Some? && userRole != requiredRole && userRole != Some(AdminRole)
  {
    if !isAuthenticated then RedirectLogin
    else if requiredRole.Some? && userRole != requiredRole && userRole != Some(AdminRole) then RedirectHome
    else Render
  }

  /** Whatever the route asks for, a signed-out visitor goes to the login page. */
  lemma SignedOutGoesToLogin(userRole: Option<Role>, requiredRole: Option<Role>)
    ensures Route(false, userRole, requiredRole) == RedirectLogin
  {
  }

  /** A route with no required role renders for every signed-in user. */
  lemma NoRequirementRenders(userRole: Option<Role>)
    ensures Route(true, userRole, None) == Render
  {
  }

  /** An admin sees every route once signed in. */
  lemma AdminAlwaysRenders(requiredRole: Option<Role>)
    ensures Route(true, Some(AdminRole), requiredRole) == Render
  {
  }

  /** The children render exactly for a signed-in user who holds the role asked for, or is an admin. */
  lemma RenderIffAllowed(isAuthenticated: bool, userRole: Option<Role>, requiredRole: Option<Role>)
    ensures Route(isAuthenticated, userRole, requiredRole) == Render <==>
      isAuthenticated && (requiredRole.None? || userRole == requiredRole || userRole == Some(AdminRole))
  {
  }
}

=== FILE: registry.dfy ===
/**
 * The category and tag collections as the post repository uses them:
 * find-or-create by name (`handleCategories`, `handleTags`) and the
 * `updateMany({_id: {$in: ids}}, {$inc: {postCount}})` count updates.
 * A collection is a sequence; an id is an index. Labels are never deleted.
 */
module LabelRegistry {
  import opened Wrappers
  import opened Errors
  import opened Text
  import opened Slug
  import opened Labels

  /** The two unique keys of a label that the repository queries by. */
  datatype Key = NameKey | SlugKey {
    function Of(l: Label): string {
      match this
      case NameKey => l.name
      case SlugKey => l.slug
    }
  }

  /** `findOne({ name })` or `findOne({ slug })`: the first label whose key has the value. */
  function FindBy(reg: seq<Label>, key: Key, value: string): (r: Option<nat>)
    ensures r.Some? ==> r.value < |reg| && key.Of(reg[r.value]) == value
    ensures r.Some? ==> forall j :: 0 <= j < r.value ==> key.Of(reg[j]) != value
    ensures r.None? <==> forall j :: 0 <= j < |reg| ==> key.Of(reg[j]) != value
  {
    if reg == [] then None
    else if key.Of(reg[0]) == value then Some(0)
    else match FindBy(reg[1..], key, value)
      case None => None
      case Some(i) => Some(i + 1)
  }

  /** An entry as validation leaves it: of the collection's kind, with a non-empty name within bound. */
  predicate EntryOk(l: Label, kind: Kind) {
    KindOf(l) == kind && 1 <= |l.name| <= NameMax(kind)
  }

  /**
   * What the schema and its unique indexes keep true of a collection: every entry
   * passed validation, and names and slugs are unique.
   */
  ghost predicate WellFormed(reg: seq<Label>, kind: Kind) {
    && (forall j :: 0 <= j < |reg| ==> EntryOk(reg[j], kind))
    && (forall i, j :: 0 <= i < j < |reg| ==> reg[i].name != reg[j].name && reg[i].slug != reg[j].slug)
  }

  /** `longer` keeps every entry of `shorter` at its id: entries are only ever appended. */
  predicate Extends(shorter: seq<Label>, longer: seq<Label>) {
    |shorter| <= |longer| && forall j :: 0 <= j < |shorter| ==> longer[j] == shorter[j]
  }

  /** The collection after a find-or-create, and the id or the error the step produced. */
  datatype Resolution = Resolution(registry: seq<Label>, ids: Result<seq<nat>, Error>)

  /**
   * One iteration of the loop: the label named `name` (after the `trim` setter) is
   * reused when it exists; otherwise a new one is validated and inserted, and its
   * slug must not already be taken.
   */
  function ResolveOne(reg: seq<Label>, kind: Kind, name: string): (r: Resolution)
    requires WellFormed(reg, kind)
    ensures WellFormed(r.registry, kind)
    ensures Extends(reg, r.registry) && |r.registry| <= |reg| + 1
    ensures |r.registry| > |reg| ==> r.registry[|reg|].postCount == 0
    ensures r.ids.Ok? ==> |r.ids.value| == 1
    ensures r.ids.Ok? ==> r.ids.value[0] < |r.registry| && r.registry[r.ids.value[0]].name == Trim(name)
    ensures FindBy(reg, NameKey, Trim(name)).Some? ==> r.registry == reg && r.ids == Ok([FindBy(reg, NameKey, Trim(name)).value])
    ensures FindBy(reg, NameKey, Trim(name)).None? && r.ids.Ok? ==> |r.registry| == |reg| + 1 && r.ids.value[0] == |reg|
    ensures r.ids.Err? ==> r.registry == reg
  {
    var n := Trim(name);
    match FindBy(reg, NameKey, n)
    case Some(i) => Resolution(reg, Ok([i]))
    case None => Create(reg, kind, name)
  }

  /** The not-found branch of `ResolveOne`: validate, check the slug index, insert. */
  function Create(reg: seq<Label>, kind: Kind, name: string): (r: Resolution)
    requires WellFormed(reg, kind) && FindBy(reg, NameKey, Trim(name)).None?
    ensures WellFormed(r.registry, kind)
    ensures r.ids.Ok? ==>
      && |r.registry| == |reg| + 1 && Extends(reg, r.registry) && r.ids == Ok([|reg|])
      && r.registry[|reg|].name == Trim(name) && r.registry[|reg|].postCount == 0
    ensures r.ids.Err? ==> r.registry == reg
    ensures r.ids.Err? <==> (!ValidName(Trim(name), kind) || FindBy(reg, SlugKey, Slugify(Trim(name))).Some?)
  {
    match NewLabel(kind, name)
    case Err(e) => Resolution(reg, Err(e))
    case Ok(l) =>
      assert EntryOk(l, kind) && l.name == Trim(name) && l.slug == Slugify(Trim(name));
      if FindBy(reg, SlugKey, l.slug).Some? then Resolution(reg, Err(DuplicateKey("slug")))
      else Insert(reg, kind, l)
  }

  /**
   * A find-or-create fails exactly when the name is new and either fails the
   * label schema (empty or too long after trimming) or yields a slug already taken.
   */
  lemma ResolveOneFails(reg: seq<Label>, kind: Kind, name: string)
    requires WellFormed(reg, kind)
    ensures ResolveOne(reg, kind, name).ids.Err? <==> (FindBy(reg, NameKey, Trim(name)).None? &&
      (!ValidName(Trim(name), kind) || FindBy(reg, SlugKey, Slugify(Trim(name))).Some?))
  {
  }

  function Insert(reg: seq<Label>, kind: Kind, l: Label): (r: Resolution)
    requires WellFormed(reg, kind) && EntryOk(l, kind)
    requires FindBy(reg, NameKey, l.name).None? && FindBy(reg, SlugKey, l.slug).None?
    ensures WellFormed(r.registry, kind)
    ensures r == Resolution(reg + [l], Ok([|reg|]))
  {
    var reg' := reg + [l];
    assert forall j :: 0 <= j < |reg| ==> reg'[j] == reg[j];
    Resolution(reg', Ok([|reg|]))
  }

  /**
   * `handleCategories` / `handleTags`: one id per input name, in input order. An
   * existing name reuses its id; an unknown one gets a new entry with `postCount` 0.
   * Entries already present are never changed. The first name that cannot be
   * saved stops the loop; the entries created before it stay.
   */
  function Resolve(reg: seq<Label>, kind: Kind, names: seq<string>): (r: Resolution)
    requires WellFormed(reg, kind)
    ensures WellFormed(r.registry, kind)
    ensures Extends(reg, r.registry)
    ensures forall j :: |reg| <= j < |r.registry| ==> r.registry[j].postCount == 0
    ensures r.ids.Ok? ==> NamesTrimmed(r.registry, r.ids.value, names)
    decreases |names|
  {
    if names == [] then Resolution(reg, Ok([]))
    else
      var first := ResolveOne(reg, kind, names[0]);
      if first.ids.Err? then first
      else
        var rest := Resolve(first.registry, kind, names[1..]);
        FreshEntriesChain(reg, first.registry, rest.registry);
        if rest.ids.Err? then rest
        else
          NamesChain(first.registry, rest.registry, first.ids.value[0], rest.ids.value, names);
          Resolution(rest.registry, Ok(first.ids.value + rest.ids.value))
  }

  /** New entries of two successive steps are new entries of the whole. */
  lemma FreshEntriesChain(a: seq<Label>, b: seq<Label>, c: seq<Label>)
    requires Extends(a, b) && |b| <= |a| + 1 && (|b| > |a| ==> b[|a|].postCount == 0)
    requires Extends(b, c) && forall j :: |b| <= j < |c| ==> c[j].postCount == 0
    ensures Extends(a, c) && forall j :: |a| <= j < |c| ==> c[j].postCount == 0
  {
    forall j | |a| <= j < |c|
      ensures c[j].postCount == 0
    {
      if j < |b| {
        assert c[j] == b[j];
      }
    }
  }

  /** Ids `ids` name the trimmed `names`, position by position, in collection `c`. */
  predicate NamesTrimmed(c: seq<Label>, ids: seq<nat>, names: seq<string>) {
    |ids| == |names| && forall i :: 0 <= i < |names| ==> ids[i] < |c| && c[ids[i]].name == Trim(names[i])
  }

  /** The id of the first name, followed by the ids of the rest, still name the trimmed inputs. */
  lemma NamesChain(b: seq<Label>, c: seq<Label>, id: nat, ids: seq<nat>, names: seq<string>)
    requires |names| >= 1 && id < |b| && b[id].name == Trim(names[0]) && Extends(b, c)
    requires NamesTrimmed(c, ids, names[1..])
    ensures NamesTrimmed(c, [id] + ids, names)
  {
    var all := [id] + ids;
    forall i | 0 <= i < |names|
      ensures all[i] < |c| && c[all[i]].name == Trim(names[i])
    {
      if i == 0 {
        assert all[0] == id && c[id] == b[id];
      } else {
        var k := i - 1;
        assert 0 <= k < |names[1..]|;
        assert all[i] == ids[k] && names[1..][k] == names[i];
      }
    }
  }

  /**
   * A name already in the collection reuses its id: the entry `findOne` finds stays in
   * place, and names are unique, so the id the loop returns for that name is its id.
   */
  lemma ResolveReusesExisting(reg: seq<Label>, kind: Kind, names: seq<string>, i: nat)
    requires WellFormed(reg, kind)
    requires i < |names| && FindBy(reg, NameKey, Trim(names[i])).Some?
    requires Resolve(reg, kind, names).ids.Ok?
    ensures Resolve(reg, kind, names).ids.value[i] == FindBy(reg, NameKey, Trim(names[i])).value
  {
    var r := Resolve(reg, kind, names);
    var k := FindBy(reg, NameKey, Trim(names[i])).value;
    assert r.registry[k] == reg[k];
    assert r.registry[r.ids.value[i]].name == Trim(names[i]);
  }

  /**
   * `updateMany({ _id: { $in: ids } }, { $inc: { postCount: delta } })`: every entry
   * whose id occurs in `ids` changes by `delta` exactly once, however often it occurs;
   * every other entry is untouched.
   */
  function AdjustCounts(reg: seq<Label>, ids: seq<nat>, delta: int): (r: seq<Label>)
    ensures |r| == |reg|
    ensures forall j :: 0 <= j < |reg| ==>
      r[j] == reg[j].(postCount := reg[j].postCount + (if j in ids then delta else 0))
  {
    seq(|reg|, j requires 0 <= j < |reg| => reg[j].(postCount := reg[j].postCount + (if j in ids then delta else 0)))
  }

  lemma AdjustKeepsWellFormed(reg: seq<Label>, kind: Kind, ids: seq<nat>, delta: int)
    requires WellFormed(reg, kind)
    ensures WellFormed(AdjustCounts(reg, ids, delta), kind)
  {
    var r := AdjustCounts(reg, ids, delta);
    assert forall j :: 0 <= j < |r| ==> r[j].name == reg[j].name && r[j].slug == reg[j].slug && EntryOk(r[j], kind);
  }

  /** The sum of the `postCount`s of the collection. */
  function TotalCount(reg: seq<Label>): int
    decreases |reg|
  {
    if reg == [] then 0 else TotalCount(reg[..|reg| - 1]) + reg[|reg| - 1].postCount
  }

  /** How many of the ids `0 .. n - 1` occur in `ids`, each counted once. */
  function Listed(n: nat, ids: seq<nat>): nat {
    if n == 0 then 0 else Listed(n - 1, ids) + (if n - 1 in ids then 1 else 0)
  }

  lemma {:induction false} ListedCountsDistinct(n: nat, ids: seq<nat>)
    ensures Listed(n, ids) == |set j | 0 <= j < n && j in ids|
  {
    if n > 0 {
      ListedCountsDistinct(n - 1, ids);
      var below := set j | 0 <= j < n - 1 && j in ids;
      if n - 1 in ids {
        assert (set j | 0 <= j < n && j in ids) == below + {n - 1};
      } else {
        assert (set j | 0 <= j < n && j in ids) == below;
      }
    }
  }

  /**
   * The counts of the whole collection move by `delta` once for every distinct id in
   * range, however often `ids` repeats it.
   */
  lemma {:induction false} AdjustTotal(reg: seq<Label>, ids: seq<nat>, delta: int)
    ensures TotalCount(AdjustCounts(reg, ids, delta)) == TotalCount(reg) + delta * |set j | 0 <= j < |reg| && j in ids|
  {
    AdjustTotalListed(reg, ids, delta);
    ListedCountsDistinct(|reg|, ids);
  }

  lemma {:induction false} AdjustTotalListed(reg: seq<Label>, ids: seq<nat>, delta: int)
    ensures TotalCount(AdjustCounts(reg, ids, delta)) == TotalCount(reg) + delta * Listed(|reg|, ids)
    decreases |reg|
  {
    if reg != [] {
      var n := |reg| - 1;
      var r := AdjustCounts(reg, ids, delta);
      assert r[..n] == AdjustCounts(reg[..n], ids, delta);
      AdjustTotalListed(reg[..n], ids, delta);
      var step := if n in ids then 1 else 0;
      assert TotalCount(r) == TotalCount(r[..n]) + reg[n].postCount + (if n in ids then delta else 0);
      assert Listed(|reg|, ids) == Listed(n, ids) + step;
      MulAddOne(delta, Listed(n, ids), step);
    }
  }

  lemma MulAddOne(d: int, a: int, step: int)
    requires step == 0 || step == 1
    ensures d * (a + step) == d * a + (if step == 1 then d else 0)
  {
  }
}

=== FILE: slug.dfy ===
/**
 * The slug transformation shared by posts, categories and tags:
 * `toLowerCase()`, drop `[^\w\s-]`, turn each run of `\s` into `-`,
 * collapse each run of `-` into one, then `trim()`.
 * Posts append `-` and the save time in base 36.
 */
module Slug {
  import opened Text
  import opened Wrappers

  /** Characters that survive `replace(/[^\w\s-]/g, '')`. */
  predicate Kept(c: char) {
    IsWordChar(c) || IsSpace(c) || c == '-'
  }

  /** Characters a slug is made of: `[a-z0-9_-]`. */
  predicate IsSlugChar(c: char) {
    IsLower(c) || IsDigit(c) || c == '_' || c == '-'
  }

  predicate NoDoubleHyphen(s: string) {
    forall i :: 0 <= i < |s| - 1 ==> !(s[i] == '-' && s[i + 1] == '-')
  }

  predicate IsSlug(s: string) {
    (forall i :: 0 <= i < |s| ==> IsSlugChar(s[i])) && NoDoubleHyphen(s)
  }

  function StripDisallowed(s: string): (r: string)
    ensures forall i :: 0 <= i < |r| ==> Kept(r[i]) && r[i] in s
  {
    if s == [] then []
    else (if Kept(s[0]) then [s[0]] else []) + StripDisallowed(s[1..])
  }

  lemma {:induction false} StripEmptyIff(s: string)
    ensures StripDisallowed(s) == [] <==> forall i :: 0 <= i < |s| ==> !Kept(s[i])
  {
    if s != [] {
      StripEmptyIff(s[1..]);
      assert forall i :: 1 <= i < |s| ==> s[i] == s[1..][i - 1];
    }
  }

  /** `replace(/\s+/g, '-')`: the last character of each whitespace run becomes `-`, the others vanish. */
  function DashSpaces(s: string): (r: string)
    ensures forall i :: 0 <= i < |r| ==> !IsSpace(r[i]) && (r[i] == '-' || r[i] in s)
    ensures r == [] <==> s == []
  {
    if s == [] then []
    else if IsSpace(s[0]) && |s| > 1 && IsSpace(s[1]) then DashSpaces(s[1..])
    else [if IsSpace(s[0]) then '-' else s[0]] + DashSpaces(s[1..])
  }

  /** `replace(/-+/g, '-')`: the last hyphen of each run of hyphens is kept. */
  function SquashHyphens(s: string): (r: string)
    ensures forall i :: 0 <= i < |r| ==> r[i] in s
    ensures NoDoubleHyphen(r)
    ensures s == [] <==> r == []
    ensures s != [] ==> r[0] == s[0]
  {
    if s == [] then []
    else if s[0] == '-' && |s| > 1 && s[1] == '-' then SquashHyphens(s[1..])
    else [s[0]] + SquashHyphens(s[1..])
  }

  /** `generateSlug` of `Category` and `Tag`, and the title part of a post slug. */
  function Slugify(name: string): string {
    Trim(SquashHyphens(DashSpaces(StripDisallowed(ToLower(name)))))
  }

  lemma {:induction false} StripKeepsKept(s: string)
    requires forall i :: 0 <= i < |s| ==> Kept(s[i])
    ensures StripDisallowed(s) == s
  {
    if s != [] {
      StripKeepsKept(s[1..]);
    }
  }

  lemma {:induction false} DashSpacesNoSpace(s: string)
    requires NoSpace(s)
    ensures DashSpaces(s) == s
  {
    if s != [] {
      DashSpacesNoSpace(s[1..]);
    }
  }

  lemma {:induction false} SquashNoDouble(s: string)
    requires NoDoubleHyphen(s)
    ensures SquashHyphens(s) == s
  {
    if s != [] {
      SquashNoDouble(s[1..]);
    }
  }

  /** Every character of a generated slug is in `[a-z0-9_-]` and no two hyphens are adjacent. */
  lemma SlugifyIsSlug(name: string)
    ensures IsSlug(Slugify(name))
  {
    var lowered := ToLower(name);
    var kept := StripDisallowed(lowered);
    assert forall i :: 0 <= i < |kept| ==> !IsUpper(kept[i]);
    var dashed := DashSpaces(kept);
    assert forall i :: 0 <= i < |dashed| ==> IsSlugChar(dashed[i]);
    var squashed := SquashHyphens(dashed);
    assert forall i :: 0 <= i < |squashed| ==> IsSlugChar(squashed[i]) && !IsSpace(squashed[i]);
    TrimNoSpace(squashed);
  }

  /** A slug is a fixed point of the transformation. */
  lemma SlugifyFixesSlugs(s: string)
    requires IsSlug(s)
    ensures Slugify(s) == s
  {
    ToLowerNoUpper(s);
    StripKeepsKept(s);
    DashSpacesNoSpace(s);
    SquashNoDouble(s);
    TrimNoSpace(s);
  }

  /** Slugify is idempotent: applying it to an existing slug returns that slug. */
  lemma SlugifyIdempotent(name: string)
    ensures Slugify(Slugify(name)) == Slugify(name)
  {
    SlugifyIsSlug(name);
    SlugifyFixesSlugs(Slugify(name));
  }

  /** The slug is empty exactly when the name has no letter, digit, underscore, whitespace or hyphen. */
  lemma SlugifyEmptyIff(name: string)
    ensures Slugify(name) == [] <==> forall i :: 0 <= i < |name| ==> !Kept(name[i])
  {
    var lowered := ToLower(name);
    assert forall i :: 0 <= i < |name| ==> (Kept(name[i]) <==> Kept(lowered[i]));
    var squashed := SquashHyphens(DashSpaces(StripDisallowed(lowered)));
    assert NoSpace(squashed);
    TrimNoSpace(squashed);
    StripEmptyIff(lowered);
  }

  /** Stripping disallowed characters works character by character, so it distributes over `+`. */
  lemma {:induction false} StripAppend(a: string, b: string)
    ensures StripDisallowed(a + b) == StripDisallowed(a) + StripDisallowed(b)
  {
    if a == [] {
      assert a + b == b;
    } else {
      assert (a + b)[0] == a[0] && (a + b)[1..] == a[1..] + b;
      StripAppend(a[1..], b);
    }
  }

  /**
   * Distinct names can share a slug: every name and the same name followed by `!` get
   * the same one, so the unique slug index can refuse a name nobody has used.
   */
  lemma DistinctNamesShareSlug(name: string)
    ensures name + "!" != name && Slugify(name + "!") == Slugify(name)
  {
    assert |name + "!"| != |name|;
    assert ToLower(name + "!") == ToLower(name) + "!";
    StripAppend(ToLower(name), "!");
    assert StripDisallowed("!") == [] by {
      assert "!"[1..] == [];
    }
    assert StripDisallowed(ToLower(name) + "!") == StripDisallowed(ToLower(name));
  }

  // ---- base 36 timestamps -------------------------------------------------

  predicate IsBase36Digit(c: char) { IsDigit(c) || IsLower(c) }

  function Base36Digit(d: nat): (c: char)
    requires d < 36
    ensures IsBase36Digit(c)
  {
    if d < 10 then '0' + d as char else 'a' + (d - 10) as char
  }

  function Base36Value(c: char): nat
    requires IsBase36Digit(c)
  {
    if IsDigit(c) then (c - '0') as nat else (c - 'a') as nat + 10
  }

  /** `Number.prototype.toString(36)` of a non-negative integer. */
  function ToBase36(n: nat): (r: string)
    ensures |r| >= 1
    ensures forall i :: 0 <= i < |r| ==> IsBase36Digit(r[i])
  {
    if n < 36 then [Base36Digit(n)] else ToBase36(n / 36) + [Base36Digit(n % 36)]
  }

  function FromBase36(s: string): nat
    requires forall i :: 0 <= i < |s| ==> IsBase36Digit(s[i])
  {
    if s == [] then 0 else FromBase36(s[..|s| - 1]) * 36 + Base36Value(s[|s| - 1])
  }

  lemma {:induction false} Base36RoundTrip(n: nat)
    ensures FromBase36(ToBase36(n)) == n
  {
    if n >= 36 {
      Base36RoundTrip(n / 36);
      var s := ToBase36(n);
      assert s[..|s| - 1] == ToBase36(n / 36);
    }
  }

  /** The slug of a post whose title is `title`, saved at time `now` (milliseconds). */
  function PostSlug(title: string, now: nat): string {
    Slugify(title) + "-" + ToBase36(now)
  }

  /** The text after the last hyphen. */
  function LastSegment(s: string): (r: string)
    ensures '-' !in r
  {
    if s == [] || s[|s| - 1] == '-' then [] else LastSegment(s[..|s| - 1]) + [s[|s| - 1]]
  }

  lemma {:induction false} LastSegmentAfterHyphen(p: string, d: string)
    requires '-' !in d
    ensures LastSegment(p + "-" + d) == d
  {
    if d != [] {
      var s := p + "-" + d;
      assert s[..|s| - 1] == p + "-" + d[..|d| - 1];
      LastSegmentAfterHyphen(p, d[..|d| - 1]);
    } else {
      assert (p + "-" + d)[|p + "-" + d| - 1] == '-';
    }
  }

  /** Reads the save time back from a post slug. */
  function SlugTimestamp(slug: string): Option<nat> {
    var d := LastSegment(slug);
    if forall i :: 0 <= i < |d| ==> IsBase36Digit(d[i]) then Some(FromBase36(d)) else None
  }

  /** The suffix after the last hyphen of a post slug recovers the save time. */
  lemma PostSlugTimestamp(title: string, now: nat)
    ensures SlugTimestamp(PostSlug(title, now)) == Some(now)
  {
    var d := ToBase36(now);
    assert '-' !in d by {
      forall i | 0 <= i < |d| ensures d[i] != '-' {
        assert IsBase36Digit(d[i]);
      }
    }
    LastSegmentAfterHyphen(Slugify(title), d);
    Base36RoundTrip(now);
  }

  /** Posts saved at different times get different slugs, whatever their titles. */
  lemma PostSlugsDistinct(title1: string, now1: nat, title2: string, now2: nat)
    requires now1 != now2
    ensures PostSlug(title1, now1) != PostSlug(title2, now2)
  {
    PostSlugTimestamp(title1, now1);
    PostSlugTimestamp(title2, now2);
  }
}

=== FILE: text.dfy ===
/** Character classes and the JavaScript string primitives the server uses. */
module Text {

  /** JavaScript's `\s`: the WhiteSpace and LineTerminator code points of ECMAScript. */
  predicate IsSpace(c: char) {
    || c == '\t' || c == '\n' || c == '\U{000B}' || c == '\U{000C}' || c == '\r'
    || c == ' ' || c == '\U{00A0}' || c == '\U{1680}'
    || ('\U{2000}' <= c <= '\U{200A}')
    || c == '\U{2028}' || c == '\U{2029}' || c == '\U{202F}' || c == '\U{205F}'
    || c == '\U{3000}' || c == '\U{FEFF}'
  }

  predicate IsUpper(c: char) { 'A' <= c <= 'Z' }
  predicate IsLower(c: char) { 'a' <= c <= 'z' }
  predicate IsDigit(c: char) { '0' <= c <= '9' }
  predicate IsLetter(c: char) { IsUpper(c) || IsLower(c) }
  predicate IsAlphanumeric(c: char) { IsLetter(c) || IsDigit(c) }

  /** JavaScript's `\w`: `[A-Za-z0-9_]`. */
  predicate IsWordChar(c: char) { IsAlphanumeric(c) || c == '_' }

  predicate IsHexDigit(c: char) { IsDigit(c) || 'a' <= c <= 'f' || 'A' <= c <= 'F' }

  predicate NoSpace(s: string) {
    forall i :: 0 <= i < |s| ==> !IsSpace(s[i])
  }

  /** `toLowerCase` restricted to ASCII: other code points are left as they are. */
  function LowerChar(c: char): (r: char)
    ensures !IsUpper(r)
    ensures IsWordChar(c) <==> IsWordChar(r)
    ensures IsSpace(c) <==> IsSpace(r)
  {
    if IsUpper(c) then c - 'A' + 'a' else c
  }

  function ToLower(s: string): (r: string)
    ensures |r| == |s|
    ensures forall i :: 0 <= i < |s| ==> r[i] == LowerChar(s[i])
  {
    if s == [] then [] else [LowerChar(s[0])] + ToLower(s[1..])
  }

  lemma LowerHasNoUpper(s: string)
    ensures forall i :: 0 <= i < |ToLower(s)| ==> !IsUpper(ToLower(s)[i])
  {
  }

  lemma ToLowerNoUpper(s: string)
    requires forall i :: 0 <= i < |s| ==> !IsUpper(s[i])
    ensures ToLower(s) == s
  {
  }

  function TrimStart(s: string): (r: string)
    ensures |r| <= |s|
    ensures r == [] || !IsSpace(r[0])
    ensures forall i :: 0 <= i < |s| - |r| ==> IsSpace(s[i])
  {
    if s != [] && IsSpace(s[0]) then TrimStart(s[1..]) else s
  }

  function TrimEnd(s: string): (r: string)
    ensures |r| <= |s|
    ensures r == [] || !IsSpace(r[|r| - 1])
    ensures forall i :: |r| <= i < |s| ==> IsSpace(s[i])
  {
    if s != [] && IsSpace(s[|s| - 1]) then TrimEnd(s[..|s| - 1]) else s
  }

  /** What `TrimStart` keeps is a suffix of its input. */
  lemma {:induction false} TrimStartSuffix(s: string)
    ensures TrimStart(s) == s[|s| - |TrimStart(s)|..]
  {
    if s != [] && IsSpace(s[0]) {
      TrimStartSuffix(s[1..]);
    }
  }

  /** What `TrimEnd` keeps is a prefix of its input. */
  lemma {:induction false} TrimEndPrefix(s: string)
    ensures TrimEnd(s) == s[..|TrimEnd(s)|]
  {
    if s != [] && IsSpace(s[|s| - 1]) {
      TrimEndPrefix(s[..|s| - 1]);
    }
  }

  /** Every character of `s` is white space; recursive, so that it unfolds only on demand. */
  predicate AllSpace(s: string)
    decreases |s|
  {
    s == [] || (IsSpace(s[0]) && AllSpace(s[1..]))
  }

  lemma {:induction false} AllSpaceAt(s: string, k: int)
    requires AllSpace(s) && 0 <= k < |s|
    ensures IsSpace(s[k])
    decreases |s|
  {
    if k > 0 {
      AllSpaceAt(s[1..], k - 1);
    }
  }

  lemma {:induction false} AllSpaceOf(s: string)
    requires forall k :: 0 <= k < |s| ==> IsSpace(s[k])
    ensures AllSpace(s)
    decreases |s|
  {
    if s != [] {
      AllSpaceOf(s[1..]);
    }
  }

  /** `r` sits at offset `i` of `s` with only white space before and after it. */
  predicate Surrounded(s: string, r: string, i: int) {
    && 0 <= i <= |s| - |r| && r == s[i..i + |r|]
    && AllSpace(s[..i]) && AllSpace(s[i + |r|..])
  }

  /** `String.prototype.trim`: strip leading and trailing `\s` characters. */
  function Trim(s: string): (r: string)
    ensures |r| <= |s|
    ensures r == [] || (!IsSpace(r[0]) && !IsSpace(r[|r| - 1]))
    ensures Surrounded(s, r, |s| - |TrimStart(s)|)
  {
    TrimKeepsMiddle(s);
    TrimEnd(TrimStart(s))
  }

  /**
   * What `trim` keeps is the input between its leading and its trailing white space:
   * nothing else is dropped.
   */
  lemma TrimKeepsMiddle(s: string)
    ensures Surrounded(s, TrimEnd(TrimStart(s)), |s| - |TrimStart(s)|)
    ensures var r := TrimEnd(TrimStart(s)); r == [] || (!IsSpace(r[0]) && !IsSpace(r[|r| - 1]))
  {
    var t := TrimStart(s);
    var r := TrimEnd(t);
    TrimStartSuffix(s);
    TrimEndPrefix(t);
    var i := |s| - |t|;
    assert r == s[i..i + |r|];
    forall k | i + |r| <= k < |s| ensures IsSpace(s[k]) {
      assert s[k] == t[k - i];
    }
    AllSpaceOf(s[..i]);
    AllSpaceOf(s[i + |r|..]);
    assert Surrounded(s, r, i);
  }

  lemma TrimNoSpace(s: string)
    requires NoSpace(s)
    ensures Trim(s) == s
  {
  }

  lemma TrimIdempotent(s: string)
    ensures Trim(Trim(s)) == Trim(s)
  {
    var t := Trim(s);
    if t != [] {
      assert TrimStart(t) == t;
      assert TrimEnd(t) == t;
    }
  }

  /** Lowercasing after trimming produces a value both setters leave as it is. */
  lemma LowerTrimFixed(s: string)
    ensures Trim(ToLower(Trim(s))) == ToLower(Trim(s))
    ensures ToLower(ToLower(Trim(s))) == ToLower(Trim(s))
  {
    var l := ToLower(Trim(s));
    assert l == [] || (!IsSpace(l[0]) && !IsSpace(l[|l| - 1]));
    TrimKeepsEnds(l);
    ToLowerNoUpper(l);
  }

  /** A string that neither starts nor ends with white space is already trimmed. */
  lemma TrimKeepsEnds(l: string)
    requires l == [] || (!IsSpace(l[0]) && !IsSpace(l[|l| - 1]))
    ensures Trim(l) == l
  {
    assert TrimStart(l) == l;
    assert TrimEnd(l) == l;
    assert Trim(l) == TrimEnd(TrimStart(l));
  }

  /** `substring(0, n)` for `n >= 0`. */
  function Take(s: string, n: nat): (r: string)
    ensures |r| == if |s| <= n then |s| else n
    ensures r == s[..|r|]
  {
    if |s| <= n then s else s[..n]
  }
}

=== FILE: user_model.dfy ===
/**
 * The `User` document: its field validators, the password hook, the reset token
 * and the redacting `toJSON`. Password hashes are opaque strings handed in by the
 * caller; bcrypt itself is not modelled.
 */
module UserModel {
  import opened Wrappers
  import opened Errors
  import opened Text

  type UserId = nat

  datatype Role = UserRole | AdminRole | ModeratorRole

  function RoleName(r: Role): string {
    match r
    case UserRole => "user"
    case AdminRole => "admin"
    case ModeratorRole => "moderator"
  }

  datatype Theme = Light | Dark

  datatype Preferences = Preferences(theme: Theme, emailNotifications: bool, pushNotifications: bool)

  const DefaultPreferences := Preferences(Light, true, true)

  /** Times are milliseconds since the epoch; `password` holds the hash. */
  datatype User = User(
    username: string,
    email: string,
    password: string,
    firstName: string,
    lastName: string,
    avatar: Option<string>,
    bio: Option<string>,
    role: Role,
    isEmailVerified: bool,
    preferences: Preferences,
    passwordResetToken: Option<string>,
    passwordResetExpires: Option<int>,
    emailVerificationToken: Option<string>,
    emailVerificationExpires: Option<int>,
    createdAt: int,
    updatedAt: int)

  const UsernameMin: nat := 3
  const UsernameMax: nat := 30
  const PasswordMin: nat := 6
  const PersonNameMax: nat := 50
  const BioMax: nat := 500
  /** Ten minutes. */
  const ResetTokenLifetime: nat := 10 * 60 * 1000

  // ---- the two patterns -----------------------------------------------------

  /** `^[a-zA-Z0-9_]+$` */
  predicate UsernamePattern(s: string) {
    |s| >= 1 && forall i :: 0 <= i < |s| ==> IsWordChar(s[i])
  }

  /**
   * `^\S+@\S+\.\S+$`: no white space anywhere, some text, an `@`, some text, a `.`,
   * some text. The `@` need not be the only one and the `.` need not be the last.
   */
  predicate EmailPattern(s: string) {
    && NoSpace(s)
    && exists i, j :: 1 <= i && i + 2 <= j && j + 2 <= |s| && s[i] == '@' && s[j] == '.'
  }

  /**
   * One pass over the text deciding the email pattern: the first `@` that has text
   * before it and the last `.` that has text after it are the best candidates.
   */
  method MatchEmail(s: string) returns (ok: bool)
    ensures ok <==> EmailPattern(s)
  {
    var firstAt := -1;
    var lastDot := -1;
    var noSpace := true;
    var k := 0;
    while k < |s|
      invariant 0 <= k <= |s|
      invariant noSpace <==> forall m :: 0 <= m < k ==> !IsSpace(s[m])
      invariant firstAt == -1 ==> forall m :: 1 <= m < k ==> s[m] != '@'
      invariant firstAt != -1 ==> 1 <= firstAt < k && s[firstAt] == '@'
      invariant firstAt != -1 ==> forall m :: 1 <= m < firstAt ==> s[m] != '@'
      invariant lastDot == -1 ==> forall m :: 0 <= m < k && m + 2 <= |s| ==> s[m] != '.'
      invariant lastDot != -1 ==> 0 <= lastDot < k && lastDot + 2 <= |s| && s[lastDot] == '.'
      invariant lastDot != -1 ==> forall m :: lastDot < m < k && m + 2 <= |s| ==> s[m] != '.'
    {
      if IsSpace(s[k]) {
        noSpace := false;
      }
      if firstAt == -1 && k >= 1 && s[k] == '@' {
        firstAt := k;
      }
      if k + 2 <= |s| && s[k] == '.' {
        lastDot := k;
      }
      k := k + 1;
    }
    ok := noSpace && firstAt != -1 && lastDot != -1 && firstAt + 2 <= lastDot;
    if EmailPattern(s) {
      var i, j :| 1 <= i && i + 2 <= j && j + 2 <= |s| && s[i] == '@' && s[j] == '.';
      assert firstAt != -1 && firstAt <= i;
      assert lastDot != -1 && j <= lastDot;
    }
  }

  // ---- validation -----------------------------------------------------------

  /** The body `new User(...)` receives at registration. */
  datatype CreateUserDto = CreateUserDto(username: string, email: string, password: string, firstName: string, lastName: string)

  /** The first failing validator of the username path, after the `trim` setter. */
  function UsernameError(username: string): (r: Option<string>)
    ensures r.None? <==> UsernameMin <= |username| <= UsernameMax && UsernamePattern(username)
  {
    if username == "" then Some("Username is required")
    else if |username| < UsernameMin then Some("Username must be at least 3 characters")
    else if |username| > UsernameMax then Some("Username cannot exceed 30 characters")
    else if !UsernamePattern(username) then Some("Username can only contain letters, numbers, and underscores")
    else None
  }

  /** After the `lowercase` and `trim` setters. */
  function EmailError(email: string): (r: Option<string>)
    ensures r.None? <==> EmailPattern(email)
  {
    if email == "" then Some("Email is required")
    else if !EmailPattern(email) then Some("Please provide a valid email")
    else None
  }

  /** On the plain text, before the hook replaces it with its hash. */
  function PasswordError(password: string): (r: Option<string>)
    ensures r.None? <==> |password| >= PasswordMin
  {
    if password == "" then Some("Password is required")
    else if |password| < PasswordMin then Some("Password must be at least 6 characters")
    else None
  }

  function PersonNameError(name: string, field: string): (r: Option<string>)
    ensures r.None? <==> 1 <= |name| <= PersonNameMax
  {
    if name == "" then Some(field + " is required")
    else if |name| > PersonNameMax then Some(field + " cannot exceed 50 characters")
    else None
  }

  /** A path's error as the list of messages it contributes. */
  function Msg(e: Option<string>): (r: seq<string>)
    ensures r == [] <==> e.None?
  {
    if e.Some? then [e.value] else []
  }

  /** The values the document holds after its setters: trimmed, the email lowercased. */
  function Normalise(dto: CreateUserDto): CreateUserDto {
    CreateUserDto(Trim(dto.username), ToLower(Trim(dto.email)), dto.password, Trim(dto.firstName), Trim(dto.lastName))
  }

  /** One message per failing path, in path order. */
  function UserErrors(dto: CreateUserDto): (errs: seq<string>)
    ensures var n := Normalise(dto); errs == [] <==>
      && UsernameMin <= |n.username| <= UsernameMax && UsernamePattern(n.username)
      && EmailPattern(n.email)
      && |n.password| >= PasswordMin
      && 1 <= |n.firstName| <= PersonNameMax && 1 <= |n.lastName| <= PersonNameMax
    ensures |errs| <= 5
  {
    var n := Normalise(dto);
    Msg(UsernameError(n.username)) + Msg(EmailError(n.email)) + Msg(PasswordError(n.password))
    + Msg(PersonNameError(n.firstName, "First name")) + Msg(PersonNameError(n.lastName, "Last name"))
  }

  /** What validation leaves true of a stored user. */
  predicate ValidUser(u: User) {
    && (forall i :: 0 <= i < |u.email| ==> !IsUpper(u.email[i]))
    && UsernameMin <= |u.username| <= UsernameMax && UsernamePattern(u.username)
    && EmailPattern(u.email)
    && 1 <= |u.firstName| <= PersonNameMax && 1 <= |u.lastName| <= PersonNameMax
    && (u.bio.Some? ==> |u.bio.value| <= BioMax)
  }

  /** A stored user's username and email are already in the form their setters produce. */
  lemma StoredKeysNormal(u: User)
    requires ValidUser(u)
    ensures Trim(u.username) == u.username && ToLower(Trim(u.email)) == u.email
  {
    TrimNoSpace(u.email);
    ToLowerNoUpper(u.email);
    assert NoSpace(u.username) by {
      forall i | 0 <= i < |u.username| ensures !IsSpace(u.username[i]) {
        assert IsWordChar(u.username[i]);
      }
    }
    TrimNoSpace(u.username);
  }

  /**
   * `new User(dto).save()`: setters and defaults, validation, then the hook, which
   * hashes the password because a new document's password counts as modified.
   */
  function NewUser(dto: CreateUserDto, hashed: string, now: int): (r: Result<User, Error>)
    ensures r.Err? <==> UserErrors(dto) != []
    ensures r.Err? ==> r.error == ValidationError(UserErrors(dto))
    ensures r.Ok? ==> ValidUser(r.value) && r.value == Defaults(Normalise(dto), now).(password := hashed)
  {
    var errs := UserErrors(dto);
    if errs != [] then Err(ValidationError(errs))
    else
      var doc := Defaults(Normalise(dto), now);
      DefaultsValid(dto, now);
      Ok(PreSaveUser(doc, true, hashed))
  }

  /** The document `new User(...)` builds before validation: the given paths plus every default. */
  function Defaults(n: CreateUserDto, now: int): User {
    User(n.username, n.email, n.password, n.firstName, n.lastName, None, None, UserRole, false,
         DefaultPreferences, None, None, None, None, now, now)
  }

  /** A registered user starts as an unverified `user` with default preferences and no tokens. */
  lemma NewUserDefaults(dto: CreateUserDto, hashed: string, now: int)
    requires NewUser(dto, hashed, now).Ok?
    ensures var u := NewUser(dto, hashed, now).value;
      && u.username == Trim(dto.username) && u.email == ToLower(Trim(dto.email))
      && u.firstName == Trim(dto.firstName) && u.lastName == Trim(dto.lastName)
      && u.password == hashed
      && u.role == UserRole && !u.isEmailVerified && u.preferences == DefaultPreferences
      && u.avatar.None? && u.bio.None? && u.passwordResetToken.None? && u.emailVerificationToken.None?
      && u.createdAt == now && u.updatedAt == now
  {
  }

  lemma DefaultsValid(dto: CreateUserDto, now: int)
    requires UserErrors(dto) == []
    ensures ValidUser(Defaults(Normalise(dto), now))
  {
    LowerHasNoUpper(Trim(dto.email));
  }

  /** The pre-save hook: the password is replaced by its hash only when it was modified. */
  function PreSaveUser(u: User, passwordModified: bool, hashed: string): (r: User)
    ensures r.(password := u.password) == u
    ensures passwordModified ==> r.password == hashed
    ensures !passwordModified ==> r == u
  {
    if passwordModified then u.(password := hashed) else u
  }

  /** `generatePasswordResetToken`: stores the token it returns, valid for ten minutes from `now`. */
  function GenerateResetToken(u: User, token: string, now: int): (r: (User, string))
    ensures r.1 == token
    ensures r.0.passwordResetToken == Some(r.1)
    ensures r.0.passwordResetExpires == Some(now + ResetTokenLifetime)
    ensures r.0 == u.(passwordResetToken := r.0.passwordResetToken, passwordResetExpires := r.0.passwordResetExpires)
  {
    (u.(passwordResetToken := Some(token), passwordResetExpires := Some(now + ResetTokenLifetime)), token)
  }

  // ---- serialisation --------------------------------------------------------

  /** A JSON value of a serialised document. */
  datatype Json = JStr(s: string) | JBool(b: bool) | JNum(n: int) | JNull | JObj(fields: map<string, Json>)

  function ThemeName(t: Theme): string {
    match t
    case Light => "light"
    case Dark => "dark"
  }

  function PreferencesJson(p: Preferences): Json {
    JObj(map["theme" := JStr(ThemeName(p.theme)), "emailNotifications" := JBool(p.emailNotifications),
             "pushNotifications" := JBool(p.pushNotifications)])
  }

  function OptStr(o: Option<string>): Json {
    if o.Some? then JStr(o.value) else JNull
  }

  /**
   * The document as `toObject` lays it out; absent optional paths have no key, and the
   * never-set `socialLinks` object is minimised away. No modelled operation changes an
   * array of a user, so the version key `__v` stays 0.
   */
  function Document(id: UserId, u: User): map<string, Json> {
    (if u.bio.Some? then map["bio" := JStr(u.bio.value)] else map[])
    + (if u.passwordResetToken.Some? then map["passwordResetToken" := JStr(u.passwordResetToken.value)] else map[])
    + (if u.passwordResetExpires.Some? then map["passwordResetExpires" := JNum(u.passwordResetExpires.value)] else map[])
    + (if u.emailVerificationToken.Some? then map["emailVerificationToken" := JStr(u.emailVerificationToken.value)] else map[])
    + (if u.emailVerificationExpires.Some? then map["emailVerificationExpires" := JNum(u.emailVerificationExpires.value)] else map[])
    + map["_id" := JNum(id), "username" := JStr(u.username), "email" := JStr(u.email),
          "password" := JStr(u.password), "firstName" := JStr(u.firstName), "lastName" := JStr(u.lastName),
          "avatar" := OptStr(u.avatar), "role" := JStr(RoleName(u.role)), "isEmailVerified" := JBool(u.isEmailVerified),
          "preferences" := PreferencesJson(u.preferences), "__v" := JNum(0), "createdAt" := JNum(u.createdAt), "updatedAt" := JNum(u.updatedAt)]
  }

  const Sensitive: set<string> :=
    {"password", "passwordResetToken", "passwordResetExpires", "emailVerificationToken", "emailVerificationExpires"}

  /** The `toJSON` transform: the document with the password and both tokens deleted. */
  function ToJson(id: UserId, u: User): (r: map<string, Json>)
    ensures forall k :: k in Sensitive ==> k !in r
    ensures forall k :: k in r ==> k in Document(id, u) && r[k] == Document(id, u)[k]
    ensures forall k :: k in Document(id, u) && k !in Sensitive ==> k in r
  {
    var doc := Document(id, u);
    map k | k in doc && k !in Sensitive :: doc[k]
  }

  /** Whatever the tokens and hash, the serialised user shows none of them. */
  lemma ToJsonHidesSecrets(id: UserId, u: User)
    ensures "password" !in ToJson(id, u) && "passwordResetToken" !in ToJson(id, u)
    ensures "emailVerificationToken" !in ToJson(id, u)
    ensures "username" in ToJson(id, u) && "email" in ToJson(id, u) && "preferences" in ToJson(id, u)
    ensures ToJson(id, u)["username"] == JStr(u.username) && ToJson(id, u)["email"] == JStr(u.email)
    ensures ToJson(id, u)["preferences"] == PreferencesJson(u.preferences)
  {
    var doc := Document(id, u);
    assert doc["username"] == JStr(u.username) && doc["email"] == JStr(u.email);
    assert doc["preferences"] == PreferencesJson(u.preferences);
    assert "username" !in Sensitive && "email" !in Sensitive && "preferences" !in Sensitive by {
      assert |"username"| == 8 && |"email"| == 5 && |"preferences"| == 11;
    }
  }
}

=== FILE: user_repo.dfy ===
/**
 * `UserRepository`: the users collection with its two unique indexes (username and
 * email), the token lookups with their strictly-in-the-future expiry rule, and the
 * writes that consume a token by clearing it.
 */
module UserRepository {
  import opened Wrappers
  import opened Errors
  import opened Text
  import opened UserModel
  import opened Pagination
  import opened Collections

  /** Ids are handed out from `nextUserId` upwards and never reused, standing in for ObjectIds. */
  datatype UserStore = UserStore(users: map<UserId, User>, nextUserId: UserId)

  /** The collection after an operation, and what it returned or threw. */
  datatype UserOutcome<T> = UserOutcome(store: UserStore, result: Result<T, Error>)

  const EmptyUsers := UserStore(map[], 0)

  /** Every stored user passed validation, and both unique indexes hold. */
  predicate Valid(s: UserStore) {
    && (forall id :: id in s.users ==> id < s.nextUserId)
    && AllValid(s.users)
    && UniqueKeys(s.users)
  }

  predicate AllValid(users: map<UserId, User>) {
    forall id :: id in users ==> ValidUser(users[id])
  }

  /** The two unique indexes: no username and no email is stored twice. */
  predicate UniqueKeys(users: map<UserId, User>) {
    forall a, b :: a in users && b in users && a != b ==>
      users[a].username != users[b].username && users[a].email != users[b].email
  }

  lemma EmptyValid()
    ensures Valid(EmptyUsers)
  {
  }

  // ---- lookups --------------------------------------------------------------

  function FindOne(s: UserStore, p: User -> bool): (r: Option<UserId>)
    ensures r.Some? ==> r.value in s.users && p(s.users[r.value])
    ensures Valid(s) ==> (r.None? <==> forall id :: id in s.users ==> !p(s.users[id]))
  {
    FindFrom(s.users, p, 0, s.nextUserId)
  }

  /** `findById`. */
  function FindById(s: UserStore, id: UserId): (r: Option<User>)
    ensures r.Some? <==> id in s.users
    ensures r.Some? ==> r.value == s.users[id]
  {
    if id in s.users then Some(s.users[id]) else None
  }

  /** The value a query on `email` compares with: the path's `lowercase` and `trim` setters applied. */
  function EmailKey(email: string): string {
    ToLower(Trim(email))
  }

  /** `findOne({ email })`. */
  function FindByEmail(s: UserStore, email: string): (r: Option<UserId>)
    ensures r.Some? ==> r.value in s.users && s.users[r.value].email == EmailKey(email)
    ensures Valid(s) ==> (r.None? <==> forall id :: id in s.users ==> s.users[id].email != EmailKey(email))
  {
    var key := EmailKey(email);
    FindOne(s, (u: User) => u.email == key)
  }

  /** `findOne({ username })`, the query value trimmed by the path's setter. */
  function FindByUsername(s: UserStore, username: string): (r: Option<UserId>)
    ensures r.Some? ==> r.value in s.users && s.users[r.value].username == Trim(username)
    ensures Valid(s) ==> (r.None? <==> forall id :: id in s.users ==> s.users[id].username != Trim(username))
  {
    var key := Trim(username);
    FindOne(s, (u: User) => u.username == key)
  }

  /** In a valid store each stored email finds exactly its own user, however the query is cased or padded. */
  lemma FindByEmailExact(s: UserStore, id: UserId, email: string)
    requires Valid(s) && id in s.users && EmailKey(email) == s.users[id].email
    ensures FindByEmail(s, email) == Some(id)
  {
  }

  /** A stored token that is equal to `token` and expires strictly after `now`. */
  predicate Live(token: Option<string>, expires: Option<int>, wanted: string, now: int) {
    token == Some(wanted) && expires.Some? && expires.value > now
  }

  /** `findByResetToken`: `passwordResetToken` equal and `passwordResetExpires > now`. */
  function FindByResetToken(s: UserStore, token: string, now: int): (r: Option<UserId>)
    ensures r.Some? ==> r.value in s.users
    ensures r.Some? ==> var u := s.users[r.value];
      u.passwordResetToken == Some(token) && u.passwordResetExpires.Some? && u.passwordResetExpires.value > now
    ensures Valid(s) ==> (r.None? <==> forall id :: id in s.users ==>
      !Live(s.users[id].passwordResetToken, s.users[id].passwordResetExpires, token, now))
  {
    FindOne(s, (u: User) => Live(u.passwordResetToken, u.passwordResetExpires, token, now))
  }

  /** `u` holds a reset token, whatever it is, that has not expired at `now`. */
  predicate HoldsLiveResetToken(u: User, now: int) {
    u.passwordResetToken.Some? && u.passwordResetExpires.Some? && u.passwordResetExpires.value > now
  }

  /**
   * `findByResetToken` handed the object `{"$ne": null}` instead of a string: Mongoose
   * passes it on as a query operator, so any user with a live reset token matches.
   */
  function FindAnyResetToken(s: UserStore, now: int): (r: Option<UserId>)
    ensures r.Some? ==> r.value in s.users && HoldsLiveResetToken(s.users[r.value], now)
    ensures Valid(s) ==> (r.None? <==> forall id :: id in s.users ==> !HoldsLiveResetToken(s.users[id], now))
  {
    FindOne(s, (u: User) => HoldsLiveResetToken(u, now))
  }

  /** `findByEmailVerificationToken`: the same rule on the verification token. */
  function FindByEmailVerificationToken(s: UserStore, token: string, now: int): (r: Option<UserId>)
    ensures r.Some? ==> r.value in s.users
    ensures r.Some? ==> var u := s.users[r.value];
      u.emailVerificationToken == Some(token) && u.emailVerificationExpires.Some? && u.emailVerificationExpires.value > now
    ensures Valid(s) ==> (r.None? <==> forall id :: id in s.users ==>
      !Live(s.users[id].emailVerificationToken, s.users[id].emailVerificationExpires, token, now))
  {
    FindOne(s, (u: User) => Live(u.emailVerificationToken, u.emailVerificationExpires, token, now))
  }

  /** An expiry exactly at `now` no longer matches: the comparison is strict. */
  lemma TokenExpiresAtDeadline(s: UserStore, token: string, now: int)
    requires Valid(s)
    requires forall id :: id in s.users ==> s.users[id].passwordResetExpires == Some(now)
    ensures FindByResetToken(s, token, now).None?
  {
  }

  // ---- writes ---------------------------------------------------------------

  /** Overwrite one existing user; stays valid when neither indexed field changes. */
  lemma PutKeepsValid(s: UserStore, id: UserId, u: User)
    requires Valid(s) && id in s.users && ValidUser(u)
    requires u.username == s.users[id].username && u.email == s.users[id].email
    ensures Valid(UserStore(s.users[id := u], s.nextUserId))
  {
    PutAllValid(s.users, id, u);
    PutUnique(s.users, id, u);
  }

  lemma PutAllValid(users: map<UserId, User>, id: UserId, u: User)
    requires AllValid(users) && ValidUser(u)
    ensures AllValid(users[id := u])
  {
  }

  lemma PutUnique(users: map<UserId, User>, id: UserId, u: User)
    requires UniqueKeys(users) && id in users
    requires u.username == users[id].username && u.email == users[id].email
    ensures UniqueKeys(users[id := u])
  {
  }

  /** Add a user under the next id; the store stays valid when its username and email are free. */
  function Insert(s: UserStore, u: User): (r: UserStore)
    requires Valid(s) && ValidUser(u)
    requires forall id :: id in s.users ==> s.users[id].username != u.username && s.users[id].email != u.email
    ensures Valid(r)
    ensures r.nextUserId == s.nextUserId + 1 && s.nextUserId !in s.users
    ensures r.users == s.users[s.nextUserId := u]
  {
    PutAllValid(s.users, s.nextUserId, u);
    InsertUnique(s.users, s.nextUserId, u);
    UserStore(s.users[s.nextUserId := u], s.nextUserId + 1)
  }

  lemma InsertUnique(users: map<UserId, User>, id: UserId, u: User)
    requires UniqueKeys(users) && id !in users
    requires forall a :: a in users ==> users[a].username != u.username && users[a].email != u.email
    ensures UniqueKeys(users[id := u])
  {
  }

  /** The unique index on `username` already holds this value. */
  predicate UsernameTaken(s: UserStore, username: string) {
    exists id :: id in s.users && s.users[id].username == username
  }

  /** The unique index on `email` already holds this value. */
  predicate EmailTaken(s: UserStore, email: string) {
    exists id :: id in s.users && s.users[id].email == email
  }

  /** The registration lookups miss exactly when the unique indexes are free. */
  lemma LookupsMissIffFree(s: UserStore, username: string, email: string)
    requires Valid(s)
    ensures FindByUsername(s, username).None? <==> !UsernameTaken(s, Trim(username))
    ensures FindByEmail(s, email).None? <==> !EmailTaken(s, EmailKey(email))
  {
  }

  /** The insert itself: the username's unique index is checked before the email's. */
  function AddUser(s: UserStore, u: User): (r: UserOutcome<UserId>)
    requires Valid(s) && ValidUser(u)
    ensures Valid(r.store)
    ensures r.result.Err? ==> r.store == s
    ensures r.result.Ok? <==> !UsernameTaken(s, u.username) && !EmailTaken(s, u.email)
    ensures UsernameTaken(s, u.username) ==> r.result == Err(DuplicateKey("username"))
    ensures r.result.Ok? ==> r.result.value == s.nextUserId && r.store == Insert(s, u)
  {
    if UsernameTaken(s, u.username) then UserOutcome(s, Err(DuplicateKey("username")))
    else if EmailTaken(s, u.email) then UserOutcome(s, Err(DuplicateKey("email")))
    else UserOutcome(Insert(s, u), Ok(s.nextUserId))
  }

  /** `new User(userData).save()`: validation first, then the unique indexes. */
  function Create(s: UserStore, dto: CreateUserDto, hashed: string, now: int): (r: UserOutcome<UserId>)
    requires Valid(s)
    ensures Valid(r.store)
    ensures r.result.Err? ==> r.store == s
    ensures UserErrors(dto) != [] ==> r.result == Err(ValidationError(UserErrors(dto)))
    ensures r.result.Ok? <==>
      UserErrors(dto) == [] && !UsernameTaken(s, Trim(dto.username)) && !EmailTaken(s, EmailKey(dto.email))
    ensures r.result.Ok? ==>
      && NewUser(dto, hashed, now).Ok? && r.result.value == s.nextUserId
      && r.store.nextUserId == s.nextUserId + 1
      && r.store.users == s.users[s.nextUserId := NewUser(dto, hashed, now).value]
  {
    var made := NewUser(dto, hashed, now);
    if made.Err? then UserOutcome(s, Err(made.error))
    else
      assert made.value.username == Trim(dto.username) && made.value.email == EmailKey(dto.email);
      AddUser(s, made.value)
  }

  /** The user the next save writes back: its `updatedAt` refreshed. */
  function Touch(u: User, now: int): User {
    u.(updatedAt := now)
  }

  /**
   * `updatePassword`: null for an unknown id; otherwise the new password (validated,
   * then hashed by the save hook) with the reset token and its expiry cleared. The
   * password path is not selected by `findById`, so assigning it always marks it
   * modified and the hook always hashes, even when the same password is given again.
   */
  function UpdatePassword(s: UserStore, id: UserId, password: string, hashed: string, now: int)
    : (r: UserOutcome<Option<User>>)
    requires Valid(s)
    ensures Valid(r.store)
    ensures id !in s.users ==> r == UserOutcome(s, Ok(None))
    ensures r.result.Err? ==> r.store == s
    ensures id in s.users ==> (r.result.Err? <==> PasswordError(password).Some?)
    ensures r.result.Ok? && id in s.users ==>
      && r.result.value.Some?
      && var u := r.result.value.value;
      && r.store == UserStore(s.users[id := u], s.nextUserId)
      && u.passwordResetToken.None? && u.passwordResetExpires.None?
      && u.password == hashed
      && u == s.users[id].(password := u.password, passwordResetToken := None, passwordResetExpires := None, updatedAt := now)
  {
    if id !in s.users then UserOutcome(s, Ok(None))
    else
      var err := PasswordError(password);
      if err.Some? then UserOutcome(s, Err(ValidationError([err.value])))
      else
        var prev := s.users[id];
        var edited := prev.(password := password, passwordResetToken := None, passwordResetExpires := None);
        var u := Touch(PreSaveUser(edited, true, hashed), now);
        PutKeepsValid(s, id, u);
        UserOutcome(UserStore(s.users[id := u], s.nextUserId), Ok(Some(u)))
  }

  /** Once a reset succeeds its token no longer finds that user, whatever the time. */
  lemma ResetTokenSingleUse(s: UserStore, token: string, now: int, password: string, hashed: string, later: int)
    requires Valid(s) && FindByResetToken(s, token, now).Some?
    ensures var id := FindByResetToken(s, token, now).value;
      var r := UpdatePassword(s, id, password, hashed, now);
      r.result.Ok? ==> FindByResetToken(r.store, token, later) != Some(id)
  {
  }

  /** When no other user holds the same token, a used reset token finds nobody afterwards. */
  lemma ResetTokenGone(s: UserStore, token: string, now: int, password: string, hashed: string, later: int)
    requires Valid(s) && FindByResetToken(s, token, now).Some?
    requires forall a :: a in s.users && s.users[a].passwordResetToken == Some(token) ==>
      a == FindByResetToken(s, token, now).value
    ensures var id := FindByResetToken(s, token, now).value;
      var r := UpdatePassword(s, id, password, hashed, now);
      r.result.Ok? ==> FindByResetToken(r.store, token, later).None?
  {
    var id := FindByResetToken(s, token, now).value;
    var r := UpdatePassword(s, id, password, hashed, now);
    if r.result.Ok? {
      NoResetTokenAfterPut(s.users, id, r.result.value.value, token, r.store.users);
    }
  }

  lemma NoResetTokenAfterPut(users: map<UserId, User>, id: UserId, u: User, token: string, after: map<UserId, User>)
    requires forall a :: a in users && users[a].passwordResetToken == Some(token) ==> a == id
    requires u.passwordResetToken.None? && after == users[id := u]
    ensures forall a :: a in after ==> after[a].passwordResetToken != Some(token)
  {
  }

  /**
   * `verifyEmail`: `findByIdAndUpdate` setting the flag and writing `undefined` over
   * the verification token and its expiry, which clears them.
   */
  function VerifyEmail(s: UserStore, id: UserId, now: int): (r: UserOutcome<Option<User>>)
    requires Valid(s)
    ensures Valid(r.store)
    ensures r.result.Ok?
    ensures id !in s.users <==> r.result.value.None?
    ensures id !in s.users ==> r.store == s
    ensures id in s.users ==> var u := r.result.value.value;
      && r.store == UserStore(s.users[id := u], s.nextUserId)
      && u.isEmailVerified && u.emailVerificationToken.None? && u.emailVerificationExpires.None?
      && u == s.users[id].(isEmailVerified := true, emailVerificationToken := None, emailVerificationExpires := None, updatedAt := now)
  {
    if id !in s.users then UserOutcome(s, Ok(None))
    else
      var u := Touch(s.users[id].(isEmailVerified := true, emailVerificationToken := None, emailVerificationExpires := None), now);
      PutKeepsValid(s, id, u);
      UserOutcome(UserStore(s.users[id := u], s.nextUserId), Ok(Some(u)))
  }

  /** Once an address is verified its token no longer finds that user, whatever the time. */
  lemma VerificationTokenSingleUse(s: UserStore, token: string, now: int, later: int)
    requires Valid(s) && FindByEmailVerificationToken(s, token, now).Some?
    ensures var id := FindByEmailVerificationToken(s, token, now).value;
      var r := VerifyEmail(s, id, now);
      FindByEmailVerificationToken(r.store, token, later) != Some(id) && r.store.users[id].isEmailVerified
  {
  }

  /** Writes a user back through `save()` without touching the password path. */
  function Save(s: UserStore, id: UserId, u: User, now: int): (r: UserStore)
    requires Valid(s) && id in s.users && ValidUser(u)
    requires u.username == s.users[id].username && u.email == s.users[id].email
    ensures Valid(r)
    ensures r.users == s.users[id := u.(updatedAt := now)] && r.nextUserId == s.nextUserId
  {
    PutKeepsValid(s, id, Touch(u, now));
    UserStore(s.users[id := Touch(u, now)], s.nextUserId)
  }

  /** `register`'s second save: a verification token and its expiry on one user. */
  function SetVerificationToken(s: UserStore, id: UserId, token: string, expires: int, now: int): (r: UserStore)
    requires Valid(s) && id in s.users
    ensures Valid(r) && r.nextUserId == s.nextUserId && id in r.users
    ensures r.users == s.users[id := r.users[id]]
    ensures r.users[id].emailVerificationToken == Some(token) && r.users[id].emailVerificationExpires == Some(expires)
    ensures r.users[id].(emailVerificationToken := None, emailVerificationExpires := None, updatedAt := now)
         == s.users[id].(emailVerificationToken := None, emailVerificationExpires := None, updatedAt := now)
  {
    var u := Touch(s.users[id].(emailVerificationToken := Some(token), emailVerificationExpires := Some(expires)), now);
    PutKeepsValid(s, id, u);
    UserStore(s.users[id := u], s.nextUserId)
  }

  // ---- listing --------------------------------------------------------------

  /** `ordered` lists every stored user once, newest first: the cursor `sort({ createdAt: -1 })` walks. */
  predicate NewestFirst(ordered: seq<UserId>, users: map<UserId, User>) {
    && Distinct(ordered)
    && (forall i :: 0 <= i < |ordered| ==> ordered[i] in users)
    && (forall id :: id in users ==> id in ordered)
    && (forall i, j :: 0 <= i < j < |ordered| ==> users[ordered[i]].createdAt >= users[ordered[j]].createdAt)
  }

  datatype UserPage = UserPage(ids: seq<UserId>, total: nat, pages: int)

  /**
   * `findAll(page = 1, limit = 10)`: one window of the newest-first cursor, the
   * collection's size and the page count.
   */
  function FindAll(s: UserStore, page: int, limit: int, ordered: seq<UserId>): (r: Result<UserPage, Error>)
    requires NewestFirst(ordered, s.users)
    requires limit != 0
    ensures r.Err? <==> Skip(page, limit) < 0
    ensures r.Ok? ==> r.value.total == |s.users| && r.value.pages == Pages(|s.users|, limit)
    ensures r.Ok? ==> |r.value.ids| <= Abs(limit)
    ensures r.Ok? ==> forall i :: 0 <= i < |r.value.ids| ==> r.value.ids[i] in s.users
    ensures r.Ok? ==> forall i, j :: 0 <= i < j < |r.value.ids| ==>
      r.value.ids[i] != r.value.ids[j] && s.users[r.value.ids[i]].createdAt >= s.users[r.value.ids[j]].createdAt
    ensures r.Ok? ==> r.value.ids == Window(ordered, page, limit).value
  {
    var w :- Window(ordered, page, limit);
    Ok(UserPage(w, |s.users|, Pages(|s.users|, limit)))
  }

  /** With a positive limit, every stored user is listed on some page between 1 and `pages`. */
  lemma EveryUserListed(s: UserStore, limit: int, ordered: seq<UserId>, id: UserId)
    requires NewestFirst(ordered, s.users) && limit > 0 && id in s.users
    ensures exists page :: (1 <= page <= Pages(|s.users|, limit)
      && FindAll(s, page, limit, ordered).Ok? && id in FindAll(s, page, limit, ordered).value.ids)
  {
    OrderedCountsUsers(ordered, s.users);
    var k :| 0 <= k < |ordered| && ordered[k] == id;
    var page := PageFor(k, limit, |ordered|);
    WindowHolds(ordered, page, limit, k);
    assert FindAll(s, page, limit, ordered).Ok?;
  }

  /** No user is listed on two different pages. */
  lemma UserOnOnePage(s: UserStore, limit: int, ordered: seq<UserId>, id: UserId, p1: int, p2: int)
    requires NewestFirst(ordered, s.users) && limit > 0
    requires FindAll(s, p1, limit, ordered).Ok? && id in FindAll(s, p1, limit, ordered).value.ids
    requires FindAll(s, p2, limit, ordered).Ok? && id in FindAll(s, p2, limit, ordered).value.ids
    ensures p1 == p2
  {
    WindowsDisjoint(ordered, p1, p2, limit, id);
  }

  /**
   * No two stored users were created at the same instant. MongoDB fixes no order among
   * equal `createdAt` values, and each page is a query of its own.
   */
  ghost predicate NoCreatedAtTies(users: map<UserId, User>) {
    forall a, b :: a in users && b in users && a != b ==> users[a].createdAt != users[b].createdAt
  }

  /** Without two users created at the same instant, every newest-first cursor gives the same page. */
  lemma UserListingIgnoresTieOrder(s: UserStore, page: int, limit: int, o1: seq<UserId>, o2: seq<UserId>)
    requires NewestFirst(o1, s.users) && NewestFirst(o2, s.users) && limit != 0
    requires NoCreatedAtTies(s.users)
    ensures FindAll(s, page, limit, o1) == FindAll(s, page, limit, o2)
  {
    var le := (x: UserId, y: UserId) => x in s.users && y in s.users && s.users[x].createdAt >= s.users[y].createdAt;
    forall i, j | 0 <= i < j < |o1| ensures le(o1[i], o1[j]) && !le(o1[j], o1[i]) {
    }
    forall i, j | 0 <= i < j < |o2| ensures le(o2[i], o2[j]) {
    }
    OrderedListingUnique(o1, o2, le);
  }

  /**
   * Without two users created at the same instant, no user is listed on two different
   * pages, even if each page query walks its own cursor.
   */
  lemma UserOnOnePageAcrossQueries(s: UserStore, limit: int, o1: seq<UserId>, o2: seq<UserId>, id: UserId, p1: int, p2: int)
    requires NewestFirst(o1, s.users) && NewestFirst(o2, s.users) && limit > 0
    requires NoCreatedAtTies(s.users)
    requires FindAll(s, p1, limit, o1).Ok? && id in FindAll(s, p1, limit, o1).value.ids
    requires FindAll(s, p2, limit, o2).Ok? && id in FindAll(s, p2, limit, o2).value.ids
    ensures p1 == p2
  {
    UserListingIgnoresTieOrder(s, p2, limit, o1, o2);
    UserOnOnePage(s, limit, o1, id, p1, p2);
  }

  /**
   * Without two users created at the same instant, every stored user is listed on a page
   * in `1..pages` whatever cursor that page's query walks.
   */
  lemma EveryUserListedAcrossQueries(s: UserStore, limit: int, o1: seq<UserId>, o2: seq<UserId>, id: UserId)
    returns (page: int)
    requires NewestFirst(o1, s.users) && NewestFirst(o2, s.users) && limit > 0 && id in s.users
    requires NoCreatedAtTies(s.users)
    ensures 1 <= page <= Pages(|s.users|, limit)
    ensures FindAll(s, page, limit, o2).Ok? && id in FindAll(s, page, limit, o2).value.ids
  {
    OrderedCountsUsers(o1, s.users);
    var k :| 0 <= k < |o1| && o1[k] == id;
    page := PageFor(k, limit, |o1|);
    WindowHolds(o1, page, limit, k);
    UserListingIgnoresTieOrder(s, page, limit, o1, o2);
  }

  /** The ids a newest-first listing holds are exactly the stored ones, so its length is the count. */
  lemma {:induction false} OrderedCountsUsers(ordered: seq<UserId>, users: map<UserId, User>)
    requires NewestFirst(ordered, users)
    ensures |ordered| == |users|
  {
    assert Elems(ordered) == users.Keys;
    DistinctCard(ordered);
  }
}

=== FILE: validation.dfy ===
/**
 * The request-body schemas of the `validate` middleware and the 400 it raises. The
 * schemas follow Joi's string rules: an absent required key, then the allowed-values
 * list, then the empty string, then each rule in the order written. Joi stops at the
 * first failing key (its default `abortEarly`), so the joined message holds one detail.
 * Whether a string is an email address or a URI by Joi's rules is a parameter.
 */
module JoiValidation {
  import opened Wrappers
  import opened Errors
  import opened Text
  import opened JsNumber
  import opened Labels
  import opened UserModel
  import opened PostModel
  import opened CommentModel

  datatype Rule =
    | MinLength(min: nat)
    | MaxLength(max: nat)
    | Alphanum
    | EmailFormat
    | UriFormat
    | HexColorPattern

  /** `Joi.string()` with `.required()`, `.valid(...)` and its rules. */
  datatype StringSchema = StringSchema(required: bool, only: Option<seq<string>>, rules: seq<Rule>)

  /** Joi's format checks for `.email()` and `.uri()`. */
  datatype Formats = Formats(isEmail: string -> bool, isUri: string -> bool)

  const HexColorRegex: string := "/^#([A-Fa-f0-9]{6}|[A-Fa-f0-9]{3})$/"

  /** `^[a-zA-Z0-9]+$` */
  predicate IsAlphanumString(s: string) {
    |s| >= 1 && forall i :: 0 <= i < |s| ==> IsAlphanumeric(s[i])
  }

  function Quote(s: string): string {
    "\"" + s + "\""
  }

  function JoinWith(parts: seq<string>, sep: string): (r: string)
    ensures |parts| == 1 ==> r == parts[0]
    decreases |parts|
  {
    if parts == [] then ""
    else if |parts| == 1 then parts[0]
    else parts[0] + sep + JoinWith(parts[1..], sep)
  }

  predicate RuleHolds(rule: Rule, s: string, f: Formats) {
    match rule
    case MinLength(n) => |s| >= n
    case MaxLength(n) => |s| <= n
    case Alphanum => IsAlphanumString(s)
    case EmailFormat => f.isEmail(s)
    case UriFormat => f.isUri(s)
    case HexColorPattern => IsHexColor(s)
  }

  /** Joi's default message for a failing rule. */
  function RuleMessage(key: string, rule: Rule, s: string): string {
    match rule
    case MinLength(n) => Quote(key) + " length must be at least " + DecimalString(n) + " characters long"
    case MaxLength(n) => Quote(key) + " length must be less than or equal to " + DecimalString(n) + " characters long"
    case Alphanum => Quote(key) + " must only contain alpha-numeric characters"
    case EmailFormat => Quote(key) + " must be a valid email"
    case UriFormat => Quote(key) + " must be a valid uri"
    case HexColorPattern => Quote(key) + " with value " + Quote(s) + " fails to match the required pattern: " + HexColorRegex
  }

  /** The first rule `s` breaks, in the order the rules were written. */
  function FirstBroken(key: string, rules: seq<Rule>, s: string, f: Formats): (r: Option<string>)
    ensures r.None? <==> forall i :: 0 <= i < |rules| ==> RuleHolds(rules[i], s, f)
    ensures r.Some? ==> exists i :: 0 <= i < |rules| && !RuleHolds(rules[i], s, f) && r.value == RuleMessage(key, rules[i], s)
    decreases |rules|
  {
    if rules == [] then None
    else if !RuleHolds(rules[0], s, f) then Some(RuleMessage(key, rules[0], s))
    else
      var rest := FirstBroken(key, rules[1..], s, f);
      assert forall i :: 1 <= i < |rules| ==> rules[i] == rules[1..][i - 1];
      rest
  }

  /** Whether a value passes its string schema. */
  predicate StringOk(v: Option<string>, schema: StringSchema, f: Formats) {
    match v
    case None => !schema.required
    case Some(s) =>
      if schema.only.Some? then s in schema.only.value
      else s != "" && forall i :: 0 <= i < |schema.rules| ==> RuleHolds(schema.rules[i], s, f)
  }

  /** The detail Joi reports for one key, if any. */
  function StringError(key: string, v: Option<string>, schema: StringSchema, f: Formats): (r: Option<string>)
    ensures r.None? <==> StringOk(v, schema, f)
    ensures v.None? && schema.required ==> r == Some(Quote(key) + " is required")
    ensures v == Some("") && schema.only.None? ==> r == Some(Quote(key) + " is not allowed to be empty")
  {
    match v
    case None => if schema.required then Some(Quote(key) + " is required") else None
    case Some(s) =>
      if schema.only.Some? then
        if s in schema.only.value then None
        else Some(Quote(key) + " must be one of [" + JoinWith(schema.only.value, ", ") + "]")
      else if s == "" then Some(Quote(key) + " is not allowed to be empty")
      else FirstBroken(key, schema.rules, s, f)
  }

  /** `Joi.array().items(Joi.string())`: the first empty item is reported with its index. */
  function ItemsError(key: string, items: Option<seq<string>>): (r: Option<string>)
    ensures r.None? <==> items.None? || forall i :: 0 <= i < |items.value| ==> items.value[i] != ""
  {
    if items.None? then None
    else
      var bad := FirstEmpty(items.value, 0);
      if bad.None? then None
      else Some(Quote(key + "[" + DecimalString(bad.value) + "]") + " is not allowed to be empty")
  }

  function FirstEmpty(items: seq<string>, from: nat): (r: Option<nat>)
    requires from <= |items|
    ensures r.None? <==> forall i :: from <= i < |items| ==> items[i] != ""
    ensures r.Some? ==> from <= r.value < |items| && items[r.value] == ""
    decreases |items| - from
  {
    if from == |items| then None
    else if items[from] == "" then Some(from)
    else FirstEmpty(items, from + 1)
  }

  /** The first detail of a list of per-key checks, taken in schema order. */
  function FirstError(checks: seq<Option<string>>): (r: Option<string>)
    ensures r.None? <==> forall i :: 0 <= i < |checks| ==> checks[i].None?
    ensures r.Some? ==> exists i :: 0 <= i < |checks| && checks[i] == r && forall j :: 0 <= j < i ==> checks[j].None?
    decreases |checks|
  {
    if checks == [] then None
    else if checks[0].Some? then checks[0]
    else
      assert forall i :: 1 <= i < |checks| ==> checks[i] == checks[1..][i - 1];
      var r := FirstError(checks[1..]);
      if r.Some? then
        var i :| 0 <= i < |checks[1..]| && checks[1..][i] == r && forall j :: 0 <= j < i ==> checks[1..][j].None?;
        assert checks[i + 1] == r && forall j :: 0 <= j < i + 1 ==> checks[j].None?;
        r
      else r
  }

  predicate AllPass(checks: seq<Option<string>>) {
    forall i :: 0 <= i < |checks| ==> checks[i].None?
  }

  /** `validate(schema)`: the details joined with `", "` as one 400, or the request passes. */
  function Validate(checks: seq<Option<string>>): (r: Result<(), Error>)
    ensures r.Ok? <==> AllPass(checks)
    ensures r.Err? ==> r.error.AppError? && r.error.status == StatusBadRequest
    ensures r.Err? ==>
      exists i :: 0 <= i < |checks| && checks[i] == Some(r.error.message) && forall j :: 0 <= j < i ==> checks[j].None?
  {
    match FirstError(checks)
    case None => Ok(())
    case Some(m) => Err(AppError(StatusBadRequest, JoinWith([m], ", ")))
  }

  /** A schema without rules: present values must be non-empty. */
  lemma NoRule(v: Option<string>, required: bool, f: Formats)
    ensures StringOk(v, StringSchema(required, None, []), f) <==> (v.None? ==> !required) && (v.Some? ==> v.value != "")
  {
  }

  lemma OneRule(v: Option<string>, required: bool, rule: Rule, f: Formats)
    ensures StringOk(v, StringSchema(required, None, [rule]), f) <==>
      (v.None? ==> !required) && (v.Some? ==> v.value != "" && RuleHolds(rule, v.value, f))
  {
    if v.Some? && v.value != "" {
      assert [rule][0] == rule;
    }
  }

  // ---- the schemas ----------------------------------------------------------

  function Required(rules: seq<Rule>): StringSchema { StringSchema(true, None, rules) }
  function Optional(rules: seq<Rule>): StringSchema { StringSchema(false, None, rules) }

  const UsernameSchema := Required([Alphanum, MinLength(3), MaxLength(30)])
  const PasswordSchema := Required([MinLength(6)])
  const PersonNameSchema := Required([MaxLength(50)])

  lemma UsernameRules(v: Option<string>, f: Formats)
    ensures StringOk(v, UsernameSchema, f) <==> v.Some? && IsAlphanumString(v.value) && 3 <= |v.value| <= 30
  {
    var rules := UsernameSchema.rules;
    assert rules[0] == Alphanum && rules[1] == MinLength(3) && rules[2] == MaxLength(30);
  }

  datatype RegisterBody = RegisterBody(
    username: Option<string>,
    email: Option<string>,
    password: Option<string>,
    firstName: Option<string>,
    lastName: Option<string>)

  function RegisterChecks(b: RegisterBody, f: Formats): seq<Option<string>> {
    [ StringError("username", b.username, UsernameSchema, f),
      StringError("email", b.email, Required([EmailFormat]), f),
      StringError("password", b.password, PasswordSchema, f),
      StringError("firstName", b.firstName, PersonNameSchema, f),
      StringError("lastName", b.lastName, PersonNameSchema, f) ]
  }

  lemma RegisterChecksPass(b: RegisterBody, f: Formats)
    ensures AllPass(RegisterChecks(b, f)) <==>
      && b.username.Some? && IsAlphanumString(b.username.value) && 3 <= |b.username.value| <= 30
      && b.email.Some? && b.email.value != "" && f.isEmail(b.email.value)
      && b.password.Some? && |b.password.value| >= 6
      && b.firstName.Some? && 1 <= |b.firstName.value| <= 50
      && b.lastName.Some? && 1 <= |b.lastName.value| <= 50
  {
    var checks := RegisterChecks(b, f);
    UsernameRules(b.username, f);
    OneRule(b.email, true, EmailFormat, f);
    OneRule(b.password, true, MinLength(6), f);
    OneRule(b.firstName, true, MaxLength(50), f);
    OneRule(b.lastName, true, MaxLength(50), f);
    assert AllPass(checks) <==>
      checks[0].None? && checks[1].None? && checks[2].None? && checks[3].None? && checks[4].None?;
  }

  /** `userValidation.register`. */
  function ValidateRegister(b: RegisterBody, f: Formats): (r: Result<(), Error>)
    ensures r.Ok? <==>
      && b.username.Some? && IsAlphanumString(b.username.value) && 3 <= |b.username.value| <= 30
      && b.email.Some? && b.email.value != "" && f.isEmail(b.email.value)
      && b.password.Some? && |b.password.value| >= 6
      && b.firstName.Some? && 1 <= |b.firstName.value| <= 50
      && b.lastName.Some? && 1 <= |b.lastName.value| <= 50
    ensures r.Err? ==> r.error.AppError? && r.error.status == StatusBadRequest
  {
    RegisterChecksPass(b, f);
    Validate(RegisterChecks(b, f))
  }

  datatype LoginBody = LoginBody(email: Option<string>, password: Option<string>)

  /** `userValidation.login`. */
  function ValidateLogin(b: LoginBody, f: Formats): (r: Result<(), Error>)
    ensures r.Ok? <==>
      b.email.Some? && b.email.value != "" && f.isEmail(b.email.value) && b.password.Some? && b.password.value != ""
  {
    OneRule(b.email, true, EmailFormat, f);
    NoRule(b.password, true, f);
    var checks := [StringError("email", b.email, Required([EmailFormat]), f),
                   StringError("password", b.password, Required([]), f)];
    assert AllPass(checks) <==> checks[0].None? && checks[1].None?;
    Validate(checks)
  }

  datatype SeoBody = SeoBody(metaTitle: Option<string>, metaDescription: Option<string>, keywords: Option<seq<string>>)

  /** A post body as the create and update routes receive it; `isPublic` is a boolean and has no rule. */
  datatype PostBody = PostBody(
    title: Option<string>,
    content: Option<string>,
    excerpt: Option<string>,
    featuredImage: Option<string>,
    categories: Option<seq<string>>,
    tags: Option<seq<string>>,
    status: Option<string>,
    seo: Option<SeoBody>)

  function SeoChecks(seo: Option<SeoBody>, f: Formats): seq<Option<string>> {
    match seo
    case None => []
    case Some(o) =>
      [ StringError("seo.metaTitle", o.metaTitle, Optional([MaxLength(60)]), f),
        StringError("seo.metaDescription", o.metaDescription, Optional([MaxLength(160)]), f),
        ItemsError("seo.keywords", o.keywords) ]
  }

  /** What the post schemas demand of a present optional string: non-empty and within `max`. */
  predicate OptionalWithin(v: Option<string>, max: nat) {
    v.None? || (v.value != "" && |v.value| <= max)
  }

  predicate NoEmptyItems(items: Option<seq<string>>) {
    items.None? || forall i :: 0 <= i < |items.value| ==> items.value[i] != ""
  }

  /** Create and update differ in whether title and content are required and in the statuses allowed. */
  function PostChecks(b: PostBody, create: bool, f: Formats): seq<Option<string>> {
    FieldChecks(b, create, f) + SeoChecks(b.seo, f)
  }

  function Statuses(create: bool): seq<string> {
    if create then ["draft", "published"] else ["draft", "published", "archived"]
  }

  function FieldChecks(b: PostBody, create: bool, f: Formats): seq<Option<string>> {
    [ StringError("title", b.title, StringSchema(create, None, [MaxLength(200)]), f),
      StringError("content", b.content, StringSchema(create, None, []), f),
      StringError("excerpt", b.excerpt, Optional([MaxLength(500)]), f),
      StringError("featuredImage", b.featuredImage, Optional([UriFormat]), f),
      ItemsError("categories", b.categories),
      ItemsError("tags", b.tags),
      StringError("status", b.status, StringSchema(false, Some(Statuses(create)), []), f) ]
  }

  lemma AllPassConcat(a: seq<Option<string>>, b: seq<Option<string>>)
    ensures AllPass(a + b) <==> AllPass(a) && AllPass(b)
  {
    if AllPass(a) && AllPass(b) {
      forall i | 0 <= i < |a + b|
        ensures (a + b)[i].None?
      {
        if i >= |a| {
          assert (a + b)[i] == b[i - |a|];
        }
      }
    }
    if AllPass(a + b) {
      assert forall i :: 0 <= i < |a| ==> (a + b)[i] == a[i];
      assert forall i :: 0 <= i < |b| ==> (a + b)[|a| + i] == b[i];
    }
  }

  /** What the post fields outside `seo` must satisfy. */
  predicate FieldsOk(b: PostBody, create: bool, f: Formats) {
    && (create ==> b.title.Some? && b.content.Some?)
    && OptionalWithin(b.title, 200) && (b.content.Some? ==> b.content.value != "")
    && OptionalWithin(b.excerpt, 500)
    && (b.featuredImage.Some? ==> b.featuredImage.value != "" && f.isUri(b.featuredImage.value))
    && NoEmptyItems(b.categories) && NoEmptyItems(b.tags)
    && (b.status.Some? ==> b.status.value in ["draft", "published"] || (!create && b.status.value == "archived"))
  }

  predicate SeoOk(seo: Option<SeoBody>) {
    seo.Some? ==>
      OptionalWithin(seo.value.metaTitle, 60) && OptionalWithin(seo.value.metaDescription, 160)
      && NoEmptyItems(seo.value.keywords)
  }

  lemma FieldChecksPass(b: PostBody, create: bool, f: Formats)
    ensures AllPass(FieldChecks(b, create, f)) <==> FieldsOk(b, create, f)
  {
    var checks := FieldChecks(b, create, f);
    OneRule(b.title, create, MaxLength(200), f);
    NoRule(b.content, create, f);
    OneRule(b.excerpt, false, MaxLength(500), f);
    OneRule(b.featuredImage, false, UriFormat, f);
    assert AllPass(checks) <==>
      && checks[0].None? && checks[1].None? && checks[2].None? && checks[3].None?
      && checks[4].None? && checks[5].None? && checks[6].None?;
  }

  lemma SeoChecksPass(seo: Option<SeoBody>, f: Formats)
    ensures AllPass(SeoChecks(seo, f)) <==> SeoOk(seo)
  {
    if seo.Some? {
      var checks := SeoChecks(seo, f);
      OneRule(seo.value.metaTitle, false, MaxLength(60), f);
      OneRule(seo.value.metaDescription, false, MaxLength(160), f);
      assert AllPass(checks) <==> checks[0].None? && checks[1].None? && checks[2].None?;
    }
  }

  /** `postValidation.create` (`create`) and `postValidation.update` (`!create`). */
  function ValidatePost(b: PostBody, create: bool, f: Formats): (r: Result<(), Error>)
    ensures r.Ok? <==> FieldsOk(b, create, f) && SeoOk(b.seo)
  {
    FieldChecksPass(b, create, f);
    SeoChecksPass(b.seo, f);
    AllPassConcat(FieldChecks(b, create, f), SeoChecks(b.seo, f));
    Validate(PostChecks(b, create, f))
  }

  datatype CategoryBody = CategoryBody(name: Option<string>, description: Option<string>, color: Option<string>)

  /** `categoryValidation.create`. */
  function ValidateCategory(b: CategoryBody, f: Formats): (r: Result<(), Error>)
    ensures r.Ok? <==>
      && b.name.Some? && OptionalWithin(b.name, 50)
      && OptionalWithin(b.description, 200)
      && (b.color.Some? ==> IsHexColor(b.color.value))
  {
    OneRule(b.name, true, MaxLength(50), f);
    OneRule(b.description, false, MaxLength(200), f);
    OneRule(b.color, false, HexColorPattern, f);
    var checks := [StringError("name", b.name, Required([MaxLength(50)]), f),
                   StringError("description", b.description, Optional([MaxLength(200)]), f),
                   StringError("color", b.color, Optional([HexColorPattern]), f)];
    assert AllPass(checks) <==> checks[0].None? && checks[1].None? && checks[2].None?;
    Validate(checks)
  }

  /** `tagValidation.create`. */
  function ValidateTag(name: Option<string>, f: Formats): (r: Result<(), Error>)
    ensures r.Ok? <==> name.Some? && OptionalWithin(name, 30)
  {
    OneRule(name, true, MaxLength(30), f);
    Validate([StringError("name", name, Required([MaxLength(30)]), f)])
  }

  datatype CommentBody = CommentBody(content: Option<string>, postId: Option<string>, parentId: Option<string>)

  /** `commentValidation.create`. */
  function ValidateComment(b: CommentBody, f: Formats): (r: Result<(), Error>)
    ensures r.Ok? <==>
      && b.content.Some? && OptionalWithin(b.content, 1000)
      && b.postId.Some? && b.postId.value != ""
      && (b.parentId.Some? ==> b.parentId.value != "")
  {
    OneRule(b.content, true, MaxLength(1000), f);
    NoRule(b.postId, true, f);
    NoRule(b.parentId, false, f);
    var checks := [StringError("content", b.content, Required([MaxLength(1000)]), f),
                   StringError("postId", b.postId, Required([]), f),
                   StringError("parentId", b.parentId, Optional([]), f)];
    assert AllPass(checks) <==> checks[0].None? && checks[1].None? && checks[2].None?;
    Validate(checks)
  }

  // ---- how the request schemas relate to the document schemas ----------------

  /** A username the register schema accepts also satisfies the user document's validators. */
  lemma JoiUsernameMeetsModel(username: string)
    requires IsAlphanumString(username) && 3 <= |username| <= 30
    ensures Trim(username) == username
    ensures UsernameError(Trim(username)).None?
  {
    TrimNoSpace(username);
  }

  /** The converse fails: every username the document accepts that holds an underscore is refused by the register schema. */
  lemma ModelUsernameNotJoi(username: string, i: nat)
    requires 3 <= |username| <= 30 && i < |username| && username[i] == '_'
    requires forall k :: 0 <= k < |username| ==> IsWordChar(username[k])
    ensures UsernameError(username).None?
    ensures !IsAlphanumString(username)
  {
    assert !IsAlphanumeric(username[i]);
  }

  /**
   * A title made only of spaces is as good to the create schema as a real one, yet every
   * post whose title it is fails the document's required-title check once trimmed.
   */
  lemma BlankTitlePassesJoiOnly(b: PostBody, create: bool, f: Formats, dto: CreatePostDto, author: UserId,
                                cats: seq<CategoryId>, tags: seq<TagId>, now: nat)
    requires b.title.Some? && b.title.value != "" && |b.title.value| <= 200
    requires forall k :: 0 <= k < |b.title.value| ==> IsSpace(b.title.value[k])
    requires forall k :: 0 <= k < |dto.title| ==> IsSpace(dto.title[k])
    ensures ValidatePost(b, create, f).Ok? == ValidatePost(b.(title := Some("t")), create, f).Ok?
    ensures SaveNewPost(dto, author, cats, tags, now).Err?
  {
    BlankTrimsToEmpty(dto.title);
    var p := NewPost(dto, author, cats, tags, now);
    assert p.title == "";
  }

  /** Comment content the schema accepts never exceeds the document's bound, and is refused by it only when blank. */
  lemma JoiCommentContentWithinModel(content: string, author: UserId, post: PostId)
    requires content != "" && |content| <= ContentMax
    ensures |Trim(content)| <= ContentMax
    ensures CommentErrors(CommentDto(content, Some(author), Some(post), None)) == [] <==> Trim(content) != ""
  {
  }

  /** Only the update schema lets a post be archived: create refuses every body that asks for it, update treats it like `published`. */
  lemma ArchivedOnlyOnUpdate(b: PostBody, f: Formats)
    ensures ValidatePost(b.(status := Some("archived")), true, f).Err?
    ensures ValidatePost(b.(status := Some("archived")), false, f).Ok?
        == ValidatePost(b.(status := Some("published")), false, f).Ok?
  {
  }

  /** Sending the category colour default explicitly is accepted exactly when leaving it out is. */
  lemma DefaultColorPassesJoi(name: Option<string>, description: Option<string>, f: Formats)
    ensures ValidateCategory(CategoryBody(name, description, Some(DefaultColor)), f).Ok?
        == ValidateCategory(CategoryBody(name, description, None), f).Ok?
  {
    DefaultColorIsHex();
  }
}

=== FILE: wrappers.dfy ===
/** Failure-carrying results shared by every module of the model. */
module Wrappers {

  /** A value that may be absent: the source's `undefined`/`null` fields. */
  datatype Option<+T> = None | Some(value: T) {
    function GetOr(default: T): T {
      match this
      case Some(v) => v
      case None => default
    }
  }

  /** The outcome of an operation that either succeeds or throws. */
  datatype Result<+T, +E> = Ok(value: T) | Err(error: E) {
    predicate IsFailure() {
      Err?
    }

    function PropagateFailure<U>(): Result<U, E>
      requires Err?
    {
      Err(error)
    }

    function Extract(): T
      requires Ok?
    {
      value
    }
  }
}

/** The errors the server raises. */
module Errors {

  /**
   * `AppError` is the source's operational error: an HTTP status and a message.
   * `MailFailed` is what the mail transport's `sendMail` rejects with. `CastError` is
   * Mongoose refusing a query value its schema type cannot hold, at `path`; the other
   * kinds are raised by the database layer. The mapping of those to an HTTP status lives in
   * the error-handling middleware, which is not part of this model.
   */
  datatype Error =
    | AppError(status: nat, message: string)
    | ValidationError(messages: seq<string>)
    | DuplicateKey(field: string)
    | QueryRejected(reason: string)
    | MailFailed(reason: string)
    | CastError(path: string)

  const StatusBadRequest: nat := 400
  const StatusUnauthorized: nat := 401
  const StatusForbidden: nat := 403
  const StatusNotFound: nat := 404
  const StatusCreated: nat := 201
  const StatusOk: nat := 200

  /** A successful response: its HTTP status, its `message` (empty when it has none) and its `data`. */
  datatype Reply<T> = Reply(status: nat, message: string, data: T)
}
